=== FILE: README.md ===
# Onbid goods sync — a Dafny model

This project models the core of the Onbid public-auction browser. The backend is a Spring service.
It pulls goods listings from the Onbid open API and keeps the freshest record per listing. It stores
the listings, and it keeps a purchase ledger, user accounts and per-user favourites. The frontend is
a React app, and its pure helpers format, sort, paginate and validate what the backend returns.

Each service call becomes a pure function from a state to a result and a new state. The tables are
values: a sequence of rows in insertion order, plus the next generated id. Java `null` is an
`Option`. A thrown exception is a `Failure` of a `Result`, and the model states that a failed call
leaves the state as it was, which is the outcome the transaction rollback gives.

Everything the core only calls is a parameter:
- the HTTP client, the XML decoder and the URL encoder;
- the password encoder and the token issuer;
- the wall clock;
- the browser's `localeCompare`.

Statements that fail inside the database are chosen by a fault parameter.

Modules, by file:

- `wrappers.dfy`: `Option` and `Result`.
- `text.dfy`: trimming and decimal digits.
- `keyed.dfy`: an insertion-ordered map, the model of `LinkedHashMap`.
- `tables.dfy`: `WHERE` filters over rows.
- `errors.dfy`: the error codes, the business exception and the global exception handler.
- `goods.dfy`: the domain `Goods` record and the raw XML records.
- `onbid_mapping.dfy`: the raw-to-domain response mapper.
- `onbid_api.dfy`: the query the API client builds, and its fetch and parse error paths.
- `freshest.dfy`: the scheduler's freshest-per-listing selection.
- `sync_status.dfy`: the last-sync cell and the countdown.
- `replace_store.dfy`: the replace-all goods service and its single-table mapper.
- `sync_cycle.dfy`: one scheduled sync run.
- `upsert_store.dfy`: the upsert goods service over `goods_basic` and `goods_price`.
- `purchase_ledger.dfy`: the purchase mapper and both purchase services.
- `favorites.dfy`: the favourite service and mapper.
- `users.dfy`: the user service and mapper.
- `list_page.dfy`, `goods_table.dfy`, `formatting.dfy`, `purchases_page.dfy`, `forms.dfy`: the frontend helpers.

Differences between the documented design and the code. The model follows the code:

- The scheduler saves through the replace-all goods service (`service/goods/GoodsService.java`), not
  the upsert one. Each run therefore wipes the `goods` table before it inserts.
- The upsert service calls `insertOrUpdateBasic` and `insertOrUpdatePrice`. The mapper declares
  these statements as `upsertBasic` and `upsertPrice`. The model reads each service call as the
  mapper statement it names: `convertToBasicEntity` feeds the basic upsert, and
  `convertToPriceEntity` feeds the price upsert.
- Of the API client's filters, only five are URL-encoded: `SIDO`, `SGK`, `EMD` (province, district
  and town), `CLTR_NM` (goods name) and `CLTR_MNMT_NO` (management number). The others are sent as
  typed, the category `CTGR_HIRK_ID` included.
- The scheduler calls `getGoodsItems(1, 9999, null, null)` on `com.onbid.service.external.OnbidApiService`
  and works on `com.onbid.domain.goods.dto.Goods`. Neither class is part of this model.
  `SyncCycle.SyncLatestGoods` calls `OnbidApi.GetGoodsItems` in their place. That function models
  `getGoodsItems` of `com.onbid.service.OnbidApiService`, which returns `com.onbid.domain.dto.Goods`.
  The unshown client is taken to behave like the shown one. Both `Goods` classes are read as the
  one `GoodsModel.Goods` record.
- The replace-all goods service imports `com.onbid.mapper.goods.GoodsMapper`. It calls `insert`
  and `deleteAll` on it, but that mapper declares neither statement; it has only the upserts, the
  joined reads and `deleteAllPrices`/`deleteAllBasics`. `ReplaceStore` models these two calls with
  the statements of `com.onbid.mapper.GoodsMapper` (`mapper/GoodsMapper.java`). That mapper declares
  `insert`, `findAll`, `findByHistoryNo`, `count` and `deleteAll` over one `goods` table. The
  service's `findAll` and `findByHistoryNo` reads are modelled over that same table, so they see
  what the service wrote. The joined reads the imported mapper declares are modelled under
  `UpsertStore`.
- The response mapper drops null items only. A present item is mapped even when every field of it is null.
- The frontend's `cleanFilters` drops only the empty string. A value made of spaces is sent.

## Model

Java paths below start with `backend/src/main/java/com/onbid/`. That prefix is written out in full in every row.

| member | source | states |
|---|---|---|
| Errors.SevenCodes | backend/src/main/java/com/onbid/exception/ErrorCode.java:10-16 | there are exactly seven error codes and every code is among them |
| Errors.CodesDistinct | backend/src/main/java/com/onbid/exception/ErrorCode.java:10-16 | different codes have different code strings |
| Errors.StatusClasses | backend/src/main/java/com/onbid/exception/ErrorCode.java:10-16 | the client-error codes are exactly the invalid request, goods not found and duplicated purchase; 502 is exactly the external API error; 500 is exactly the XML, database and unknown errors |
| Errors.Business | backend/src/main/java/com/onbid/exception/BusinessException.java:10-13 | a business exception carries the error code it was built with |
| Errors.BuildErrorBody | backend/src/main/java/com/onbid/exception/GlobalExceptionHandler.java:68-74 | the error body has exactly the keys success, errorCode and message, with success false and the given code and message |
| Errors.Handle | backend/src/main/java/com/onbid/exception/GlobalExceptionHandler.java:22-63 | every handled exception yields a failure body whose HTTP status and code string belong to one and the same error code |
| Errors.HandleBusiness | backend/src/main/java/com/onbid/exception/GlobalExceptionHandler.java:22-27 | a business exception is answered with its code's status and code string, and with its own message, or the code's default message when it has none |
| Errors.HandleValidation | backend/src/main/java/com/onbid/exception/GlobalExceptionHandler.java:32-52 | validation and constraint failures give 400 INVALID_REQUEST; the first field error's message is used when there is one |
| Errors.HandleUnchecked | backend/src/main/java/com/onbid/exception/GlobalExceptionHandler.java:57-63 | any other exception gives 500 UNKNOWN_ERROR, whatever its message |
| OnbidMapping.MapItemBijective | backend/src/main/java/com/onbid/mapper/OnbidGoodsMapper.java:81-104 | mapping a raw item loses nothing: raw items and domain goods map one-to-one, keeping the history and goods numbers |
| OnbidMapping.CountPresent | backend/src/main/java/com/onbid/mapper/OnbidGoodsMapper.java:37-46 | the number of non-null items never exceeds the list length |
| OnbidMapping.ToDomainList | backend/src/main/java/com/onbid/mapper/OnbidGoodsMapper.java:37-46 | a null list maps to the empty list; otherwise the result has one entry per non-null item, and each non-null item is mapped |
| OnbidMapping.MapPresent | backend/src/main/java/com/onbid/mapper/OnbidGoodsMapper.java:39-45 | the mapped list has one entry per present item, and every present item appears mapped |
| OnbidMapping.ToDomainListSources | backend/src/main/java/com/onbid/mapper/OnbidGoodsMapper.java:37-46 | every entry of the mapped list comes from some non-null raw item |
| OnbidMapping.MapHeader | backend/src/main/java/com/onbid/mapper/OnbidGoodsMapper.java:51-60 | the header is null exactly when the raw header is, and otherwise carries its result code and message |
| OnbidMapping.MapBody | backend/src/main/java/com/onbid/mapper/OnbidGoodsMapper.java:65-76 | the body is null exactly when the raw body is, and otherwise carries the mapped items and the paging numbers |
| OnbidMapping.ToDomain | backend/src/main/java/com/onbid/mapper/OnbidGoodsMapper.java:23-32 | a null response maps to an empty response; otherwise header and body are mapped separately |
| OnbidApi.Rank | backend/src/main/java/com/onbid/service/OnbidApiService.java:76-111 | each filter has a fixed position in the query, and the positions are one-to-one |
| OnbidApi.RankDetermines | backend/src/main/java/com/onbid/service/OnbidApiService.java:76-111 | the filter at a position has that position, and no other filter has it |
| OnbidApi.IsNotEmptyMeaning | backend/src/main/java/com/onbid/service/OnbidApiService.java:179-181 | a filter value is skipped exactly when it is null or consists of whitespace only |
| OnbidApi.Selected | backend/src/main/java/com/onbid/service/OnbidApiService.java:76-111 | the filters sent are exactly the non-blank ones, each once, in source order |
| OnbidApi.FilterParams | backend/src/main/java/com/onbid/service/OnbidApiService.java:76-111 | one parameter per sent filter, with the filter's key, and its value URL-encoded exactly for the five encoded filters |
| OnbidApi.FilterParamsPresence | backend/src/main/java/com/onbid/service/OnbidApiService.java:76-111 | a filter's key appears in the query exactly when its value is not blank |
| OnbidApi.FilterParamsValue | backend/src/main/java/com/onbid/service/OnbidApiService.java:80-110 | a sent filter carries its value, encoded when the filter is one of the five encoded ones and as typed otherwise |
| OnbidApi.FilterParamsOrdered | backend/src/main/java/com/onbid/service/OnbidApiService.java:76-111 | filter parameters appear in source order, each at most once |
| OnbidApi.QueryParamsShape | backend/src/main/java/com/onbid/service/OnbidApiService.java:70-111 | the query is the four fixed parameters (service key, rows, page, disposal method 0001) followed by the filter parameters |
| OnbidApi.QueryFilterPresence | backend/src/main/java/com/onbid/service/OnbidApiService.java:70-111 | in the whole query, behind the fixed parameters, a filter key occurs exactly when its value is not null and not blank |
| OnbidApi.QueryFilterValue | backend/src/main/java/com/onbid/service/OnbidApiService.java:76-111 | in the whole query, a present filter key carries the untrimmed value, URL-encoded exactly for SIDO, SGK, EMD, CLTR_NM and CLTR_MNMT_NO |
| OnbidApi.QueryOrder | backend/src/main/java/com/onbid/service/OnbidApiService.java:76-111 | two filters in the query appear in source order |
| OnbidApi.ShortSelection | backend/src/main/java/com/onbid/service/OnbidApiService.java:129-132 | the two-filter overload sends at most category and province, and only when they are not blank |
| OnbidApi.OnlyFirstTwo | backend/src/main/java/com/onbid/service/OnbidApiService.java:129-132 | an ordered selection drawn from the first two filters has at most two entries |
| OnbidApi.RankAtLeastIndex | backend/src/main/java/com/onbid/service/OnbidApiService.java:76-111 | in an ordered selection, the k-th filter sits at position k or later |
| OnbidApi.NoFilterQuery | backend/src/main/java/com/onbid/service/OnbidApiService.java:70-111 | with no filter set, the query is exactly the fixed parameters |
| OnbidApi.ShortOverloadParams | backend/src/main/java/com/onbid/service/OnbidApiService.java:129-132 | the short overload's query is the fixed part plus the non-blank ones among category and province |
| OnbidApi.JoinPrefix | backend/src/main/java/com/onbid/service/OnbidApiService.java:70-113 | rendering a prefix of the parameters gives a prefix of the rendered query string |
| OnbidApi.UrlExtends | backend/src/main/java/com/onbid/service/OnbidApiService.java:70-113 | appending parameters to a request only extends its URL |
| OnbidApi.UrlPrefix | backend/src/main/java/com/onbid/service/OnbidApiService.java:70-113 | every request URL starts with the URL built from the fixed parameters alone |
| OnbidApi.GetGoodsList | backend/src/main/java/com/onbid/service/OnbidApiService.java:53-124 | the raw XML is whatever the HTTP call returned; any failure of the call becomes an EXTERNAL_API_ERROR business exception |
| OnbidApi.ParseXml | backend/src/main/java/com/onbid/service/OnbidApiService.java:137-145 | null XML gives an unwrapped unchecked exception; a decoder failure gives XML_PARSE_ERROR; decoded XML is mapped to the domain response |
| OnbidApi.GetGoodsItems | backend/src/main/java/com/onbid/service/OnbidApiService.java:172-177 | a fetch failure gives EXTERNAL_API_ERROR, a decoder failure XML_PARSE_ERROR, and a decoded response without a body the empty list |
| Text.BlankIffAllTrimmed | backend/src/main/java/com/onbid/service/OnbidApiService.java:179-181 | a string trims to empty exactly when every character is one `trim` removes |
| Text.NatDigits | backend/src/main/java/com/onbid/service/goods/GoodsSyncScheduler.java:51-53 | the decimal form of a natural number is a non-empty digit string without a leading zero |
| Text.NatDigitsRoundTrip | backend/src/main/java/com/onbid/service/goods/GoodsSyncScheduler.java:51-53 | reading the decimal form back gives the number |
| Text.IntString | backend/src/main/java/com/onbid/service/goods/GoodsSyncScheduler.java:51-53 | `String.valueOf` of an integer is its digits, after a minus sign when it is negative |
| Text.IntStringRoundTrip | backend/src/main/java/com/onbid/service/goods/GoodsSyncScheduler.java:51-53 | reading an integer's printed key back, as `Long.parseLong` would, gives the integer |
| Text.IntStringInjective | backend/src/main/java/com/onbid/service/goods/GoodsSyncScheduler.java:51-53 | different history numbers give different keys |
| Text.NullKeyDistinct | backend/src/main/java/com/onbid/service/goods/GoodsSyncScheduler.java:51-53 | no history number's key collides with the key "null" of a missing history number |
| KeyedSeq.Put | backend/src/main/java/com/onbid/service/goods/GoodsSyncScheduler.java:55-58 | putting a new key appends it; putting a present key replaces its value in place; other entries and the key order are unchanged; keys stay distinct |
| KeyedSeq.PutHasKey | backend/src/main/java/com/onbid/service/goods/GoodsSyncScheduler.java:55-58 | after a put, the keys are the old keys plus the put key |
| KeyedSeq.PutLookup | backend/src/main/java/com/onbid/service/goods/GoodsSyncScheduler.java:55-58 | after a put, the put key maps to the new value and every other key keeps its value |
| KeyedSeq.IndexOf | backend/src/main/java/com/onbid/service/goods/GoodsSyncScheduler.java:55 | a lookup finds the first entry with the key, and finds nothing exactly when the key is absent |
| KeyedSeq.DistinctKeysCard | backend/src/main/java/com/onbid/service/goods/GoodsSyncScheduler.java:50-59 | a map with distinct keys has as many keys as entries |
| KeyedSeq.Newest | backend/src/main/java/com/onbid/mapper/GoodsMapper.java:29-41 | newest first is table order reversed: the element at each position is the one that many places from the end |
| KeyedSeq.NewestDescending | backend/src/main/java/com/onbid/mapper/GoodsMapper.java:29 | when the stamps never decrease in table order, the reversed list has them in descending order, as `ORDER BY created_at DESC` lists them |
| KeyedSeq.Values | backend/src/main/java/com/onbid/service/goods/GoodsSyncScheduler.java:61-65 | the values view lists the values in key order |
| FreshestSelection.KeyOfHistory | backend/src/main/java/com/onbid/service/goods/GoodsSyncScheduler.java:51-53 | goods without a goods number share a key exactly when they share a history number, and a missing history number gives the key "null" |
| FreshestSelection.Absorb | backend/src/main/java/com/onbid/service/goods/GoodsSyncScheduler.java:55-58 | one step of the loop: a new key is appended, and a known key keeps its position, holding either its old item or the new one |
| FreshestSelection.Group | backend/src/main/java/com/onbid/service/goods/GoodsSyncScheduler.java:50-59 | the grouping has distinct keys, each entry keyed by its own item, and is no longer than the input |
| FreshestSelection.GroupKeys | backend/src/main/java/com/onbid/service/goods/GoodsSyncScheduler.java:50-59 | the grouping's keys are exactly the keys of the input items |
| FreshestSelection.GroupOrder | backend/src/main/java/com/onbid/service/goods/GoodsSyncScheduler.java:50-59 | groups appear in the order their key was first seen |
| FreshestSelection.GroupChampions | backend/src/main/java/com/onbid/service/goods/GoodsSyncScheduler.java:55-72 | each group holds the first item of its key whose history number, with null read as 0, no item of the key exceeds |
| FreshestSelection.GroupOfDistinct | backend/src/main/java/com/onbid/service/goods/GoodsSyncScheduler.java:50-59 | items with pairwise distinct keys come through unchanged |
| FreshestSelection.GroupSize | backend/src/main/java/com/onbid/service/goods/GoodsSyncScheduler.java:50-59 | there is one group per distinct key |
| FreshestSelection.SelectTop100 | backend/src/main/java/com/onbid/service/goods/GoodsSyncScheduler.java:44-66 | a null or empty input selects nothing, and never more than 100 items are selected |
| FreshestSelection.SelectLength | backend/src/main/java/com/onbid/service/goods/GoodsSyncScheduler.java:61-65 | the selection has as many items as distinct keys, capped at 100 |
| FreshestSelection.SelectSurvivors | backend/src/main/java/com/onbid/service/goods/GoodsSyncScheduler.java:44-66 | every selected item is its key's freshest, and no two selected items share a key |
| FreshestSelection.SelectDistinctKeys | backend/src/main/java/com/onbid/service/goods/GoodsSyncScheduler.java:44-66 | no two selected items share a grouping key |
| FreshestSelection.SelectOrder | backend/src/main/java/com/onbid/service/goods/GoodsSyncScheduler.java:44-66 | selected items keep the order in which their keys first appeared |
| FreshestSelection.SelectIdempotent | backend/src/main/java/com/onbid/service/goods/GoodsSyncScheduler.java:44-66 | selecting from a selection changes nothing |
| SyncStatus.NextSyncAt | backend/src/main/java/com/onbid/service/goods/GoodsSyncStatusService.java:24-27 | the next sync is known exactly when a sync was recorded, and lies one interval after it |
| SyncStatus.SecondsUntilNextSync | backend/src/main/java/com/onbid/service/goods/GoodsSyncStatusService.java:29-36 | the countdown is -1 exactly when no sync was recorded; otherwise the time to the next sync, floored at 0 |
| SyncStatus.NeverSynced | backend/src/main/java/com/onbid/service/goods/GoodsSyncStatusService.java:14-36 | before any sync, there is no last or next sync time and the countdown is -1 |
| SyncStatus.LastWriteWins | backend/src/main/java/com/onbid/service/goods/GoodsSyncStatusService.java:16-22 | the last recorded time wins, whatever came before |
| SyncStatus.CountdownWindow | backend/src/main/java/com/onbid/service/goods/GoodsSyncStatusService.java:24-36 | after a sync, the countdown stays between 0 and the interval: the full interval at the sync instant, 0 once the interval has passed |
| ReplaceStore.ConvertKeepsSix | backend/src/main/java/com/onbid/service/goods/GoodsService.java:112-121 | two goods convert to the same row exactly when they agree on the six stored fields |
| ReplaceStore.Insert | backend/src/main/java/com/onbid/mapper/GoodsMapper.java:20-23 | an insert appends one row with the given columns, a fresh id and `created_at` set to now, keeping the earlier rows; with a clock that does not run backwards, creation times stay in table order |
| ReplaceStore.FindAll | backend/src/main/java/com/onbid/mapper/GoodsMapper.java:29-41 | every stored row is listed once, with `created_at` descending |
| ReplaceStore.FindAllAfterInsert | backend/src/main/java/com/onbid/mapper/GoodsMapper.java:20-41 | the row just inserted, stamped now, is listed first, ahead of the earlier listing |
| ReplaceStore.Matching | backend/src/main/java/com/onbid/mapper/GoodsMapper.java:48-50 | the rows matched are exactly those with the history number |
| ReplaceStore.FindByHistoryNo | backend/src/main/java/com/onbid/mapper/GoodsMapper.java:48-50 | a found row has the history number; none found means no row has it; a failure means several rows have it |
| ReplaceStore.GetGoodsByHistoryNo | backend/src/main/java/com/onbid/service/goods/GoodsService.java:38-41 | a null or unknown history number gives null, never GOODS_NOT_FOUND; one matching row is returned; several make the lookup fail with the too-many-results error, which is not a business exception |
| ReplaceStore.FindUnique | backend/src/main/java/com/onbid/mapper/GoodsMapper.java:48-50 | with unique history numbers the lookup succeeds, and finds a row exactly when one has the number |
| ReplaceStore.Count | backend/src/main/java/com/onbid/mapper/GoodsMapper.java:56-57 | the count is the length of the full listing |
| ReplaceStore.DeleteAll | backend/src/main/java/com/onbid/mapper/GoodsMapper.java:63-64 | deleting all empties the table and reports the number of rows removed |
| ReplaceStore.SavedPrefixSources | backend/src/main/java/com/onbid/service/goods/GoodsService.java:62-80 | rows saved from a prefix of the items number as many as the items that were saved, and each comes from a saved item |
| ReplaceStore.Columns | backend/src/main/java/com/onbid/mapper/GoodsMapper.java:29-41 | the stored columns are listed row by row |
| ReplaceStore.SaveGoodsList | backend/src/main/java/com/onbid/service/goods/GoodsService.java:48-88 | a failed wipe leaves the table and rethrows; a null or empty list saves nothing; otherwise the table ends with one row per item that has a history number and whose insert succeeded, in order, and the count returned is the number of those rows |
| ReplaceStore.SaveCount | backend/src/main/java/com/onbid/service/goods/GoodsService.java:62-80 | the saved rows all carry a history number, and there are no more of them than items |
| ReplaceStore.DeleteAllGoods | backend/src/main/java/com/onbid/service/goods/GoodsService.java:94-106 | a successful delete empties the table and reports the old count; a failure leaves the table and reports the message |
| SyncCycle.CycleRequestHasNoFilters | backend/src/main/java/com/onbid/service/goods/GoodsSyncScheduler.java:34 | a scheduled run requests page 1 of 9999 rows with no filter parameter at all |
| SyncCycle.SyncLatestGoods | backend/src/main/java/com/onbid/service/goods/GoodsSyncScheduler.java:31-42 | an aborted run changes nothing; a completed run stores the selection of the fetched items, records the sync time and reports at most 100 rows |
| UpsertStore.ConvertSplits | backend/src/main/java/com/onbid/service/GoodsService.java:110-132 | the two entities together keep every stored field: goods agree on both exactly when they agree on those fields |
| UpsertStore.BasicOf | backend/src/main/java/com/onbid/mapper/goods/GoodsMapper.java:19-36 | a basic row is found exactly when its history number is stored |
| UpsertStore.PriceOf | backend/src/main/java/com/onbid/mapper/goods/GoodsMapper.java:38-52 | a price row is found exactly when its history number is stored |
| UpsertStore.UpsertBasic | backend/src/main/java/com/onbid/mapper/goods/GoodsMapper.java:19-36 | after the write, the key holds the new columns stamped now; an existing row keeps its id, creation time and position; a new key is appended with a fresh id; the price table is untouched |
| UpsertStore.UpsertPrice | backend/src/main/java/com/onbid/mapper/goods/GoodsMapper.java:38-52 | the same for the price table, which has no creation time; the basic table is untouched |
| UpsertStore.UpsertBasicOthers | backend/src/main/java/com/onbid/mapper/goods/GoodsMapper.java:19-36 | an upsert leaves every other key's basic row as it was |
| UpsertStore.UpsertPriceOthers | backend/src/main/java/com/onbid/mapper/goods/GoodsMapper.java:38-52 | an upsert leaves every other key's price row as it was |
| UpsertStore.UpsertBasicIdempotent | backend/src/main/java/com/onbid/mapper/goods/GoodsMapper.java:19-36 | repeating the same basic upsert changes nothing |
| UpsertStore.UpsertPriceIdempotent | backend/src/main/java/com/onbid/mapper/goods/GoodsMapper.java:38-52 | repeating the same price upsert changes nothing |
| UpsertStore.Join | backend/src/main/java/com/onbid/mapper/goods/GoodsMapper.java:72-74 | a joined row has the basic row's columns, and the price row's columns or nulls when there is none |
| UpsertStore.FindAll | backend/src/main/java/com/onbid/mapper/goods/GoodsMapper.java:54-94 | one joined row per basic row, newest first |
| UpsertStore.FindAllNewestFirst | backend/src/main/java/com/onbid/mapper/goods/GoodsMapper.java:54-94 | the listing has `created_at` descending |
| UpsertStore.FindAllKeys | backend/src/main/java/com/onbid/mapper/goods/GoodsMapper.java:54-94 | a history number is listed exactly when it has a basic row |
| UpsertStore.FindAllContents | backend/src/main/java/com/onbid/mapper/goods/GoodsMapper.java:54-94 | every listed row shows the stored basic columns and creation time, and the stored price or nulls |
| UpsertStore.UpsertKeepsOrder | backend/src/main/java/com/onbid/mapper/goods/GoodsMapper.java:19-94 | overwriting an existing key does not move any row in the listing |
| UpsertStore.NewKeyFirst | backend/src/main/java/com/onbid/mapper/goods/GoodsMapper.java:19-94 | a newly inserted key, stamped now, is listed first, with its new columns |
| UpsertStore.FindByHistoryNo | backend/src/main/java/com/onbid/mapper/goods/GoodsMapper.java:96-119 | a row is found exactly when the number is not null and has a basic row, and it has that number |
| UpsertStore.FindByAgreesWithFindAll | backend/src/main/java/com/onbid/mapper/goods/GoodsMapper.java:54-119 | the single lookup returns the same joined row as the full listing |
| UpsertStore.Count | backend/src/main/java/com/onbid/mapper/goods/GoodsMapper.java:121-122 | the count is the length of the full listing |
| UpsertStore.DeleteAllPrices | backend/src/main/java/com/onbid/mapper/goods/GoodsMapper.java:124-125 | deleting prices empties the price table, keeps every basic row and reports the rows removed |
| UpsertStore.DeleteAllBasics | backend/src/main/java/com/onbid/mapper/goods/GoodsMapper.java:127-128 | deleting basics empties the basic table, keeps the price table and reports the rows removed |
| UpsertStore.PricesGoneNullPrices | backend/src/main/java/com/onbid/mapper/goods/GoodsMapper.java:72-125 | once prices are deleted, every listed row shows null price columns |
| UpsertStore.GetGoodsByHistoryNo | backend/src/main/java/com/onbid/service/GoodsService.java:44-52 | success exactly when the listing exists, with that history number; otherwise a GOODS_NOT_FOUND business exception |
| UpsertStore.GetAfterUpsert | backend/src/main/java/com/onbid/service/GoodsService.java:44-52 | after both upserts for a key, fetching it returns the new basic and price columns |
| UpsertStore.SyncedCountIsCard | backend/src/main/java/com/onbid/service/GoodsService.java:59-88 | the running count equals the number of items that were fully synced |
| UpsertStore.LastBasicWrite | backend/src/main/java/com/onbid/service/GoodsService.java:71-74 | finds the last item that wrote a key's basic row, or shows that no item did |
| UpsertStore.LastPriceWrite | backend/src/main/java/com/onbid/service/GoodsService.java:76-83 | finds the last item that wrote a key's price row, or shows that no item did |
| UpsertStore.SaveItem | backend/src/main/java/com/onbid/service/GoodsService.java:63-83 | saving one item keeps the store well formed |
| UpsertStore.SaveItemEffect | backend/src/main/java/com/onbid/service/GoodsService.java:63-83 | one item changes a key's columns only when it carries that key and its writes succeed |
| UpsertStore.SaveGoodsListToDB | backend/src/main/java/com/onbid/service/GoodsService.java:59-88 | a null or empty list changes nothing and reports 0; otherwise each key ends with the columns of the last item that wrote it, and the count is the number of fully synced items |
| UpsertStore.SaveEach | backend/src/main/java/com/onbid/service/GoodsService.java:63-86 | the loop leaves each key with its last writer's columns and counts the fully synced items |
| UpsertStore.SaveOne | backend/src/main/java/com/onbid/service/GoodsService.java:63-83 | one loop step extends the expected state by one item and says whether the item was synced |
| UpsertStore.SaveItemExpected | backend/src/main/java/com/onbid/service/GoodsService.java:63-83 | one item's save moves the state from the expectation for a prefix to the expectation for that prefix plus the item |
| UpsertStore.SyncedStep | backend/src/main/java/com/onbid/service/GoodsService.java:63-86 | the synced count grows by one exactly when the item is synced |
| UpsertStore.SyncedBound | backend/src/main/java/com/onbid/service/GoodsService.java:59-88 | no more items are synced than were given |
| UpsertStore.PriceFailureKeepsBasic | backend/src/main/java/com/onbid/service/GoodsService.java:71-83 | an item whose price write fails is not counted, yet, as the last writer of its key, its basic columns stay |
| UpsertStore.NullKeySkipped | backend/src/main/java/com/onbid/service/GoodsService.java:63-67 | an item without a history number is neither counted nor written |
| UpsertStore.DeleteAllGoods | backend/src/main/java/com/onbid/service/GoodsService.java:94-108 | success removes prices, basics and purchases and reports the goods count; failure changes nothing and reports the message |
| PurchaseLedger.Insert | backend/src/main/java/com/onbid/mapper/PurchaseMapper.java:20-23 | an insert appends one purchase with the given fields and a fresh id |
| PurchaseLedger.RowsFor | backend/src/main/java/com/onbid/mapper/PurchaseMapper.java:30-39 | the purchases selected are exactly those of the history number |
| PurchaseLedger.FindByHistoryNo | backend/src/main/java/com/onbid/mapper/PurchaseMapper.java:30-39 | the purchases found are exactly those of the (non-null) history number |
| PurchaseLedger.FindAll | backend/src/main/java/com/onbid/mapper/PurchaseMapper.java:45-48 | all purchases are listed, each once |
| PurchaseLedger.DeleteAll | backend/src/main/java/com/onbid/mapper/PurchaseMapper.java:54-55 | deleting all empties the ledger and reports the rows removed |
| PurchaseLedger.CountByHistoryNo | backend/src/main/java/com/onbid/mapper/PurchaseMapper.java:60-61 | the count never exceeds the number of rows, and is positive exactly when the history number is non-null and some purchase has it |
| PurchaseLedger.CountIsFindLength | backend/src/main/java/com/onbid/mapper/PurchaseMapper.java:30-61 | the count for a history number is the number of purchases found for it |
| PurchaseLedger.CountRowsFor | backend/src/main/java/com/onbid/mapper/PurchaseMapper.java:30-61 | the counting query and the selecting query agree |
| PurchaseLedger.CountRowsSnoc | backend/src/main/java/com/onbid/mapper/PurchaseMapper.java:60-61 | appending a purchase raises exactly its own history number's count, by one |
| PurchaseLedger.CountPositive | backend/src/main/java/com/onbid/mapper/PurchaseMapper.java:60-61 | the count is positive exactly when some purchase has the history number |
| PurchaseLedger.CreatePurchase | backend/src/main/java/com/onbid/service/PurchaseService.java:30-57 | missing fields and an existing purchase for the listing are rejected with the ledger unchanged; a success appends a COMPLETED purchase with the requested fields |
| PurchaseLedger.FirstPurchaseSucceeds | backend/src/main/java/com/onbid/service/PurchaseService.java:30-57 | a complete request for a listing not yet bought succeeds, and afterwards that purchase is the listing's only one |
| PurchaseLedger.RowsForSnoc | backend/src/main/java/com/onbid/mapper/PurchaseMapper.java:30-39 | appending a purchase adds it to exactly its own history number's selection |
| PurchaseLedger.CreatePreservesAtMostOne | backend/src/main/java/com/onbid/service/PurchaseService.java:40-53 | when calls run one after another, the checked service keeps at most one purchase per listing |
| PurchaseLedger.ResetAllPurchases | backend/src/main/java/com/onbid/service/PurchaseService.java:82-86 | a reset empties the ledger and reports how many purchases there were |
| PurchaseLedger.CreatePurchaseUnchecked | backend/src/main/java/com/onbid/service/purchase/PurchaseService.java:29-46 | the unchecked service always appends a COMPLETED purchase with the requested fields |
| PurchaseLedger.UncheckedTwiceTwoRows | backend/src/main/java/com/onbid/service/purchase/PurchaseService.java:29-46 | buying the same listing twice through the unchecked service leaves two purchases for it |
| Favorites.Insert | backend/src/main/java/com/onbid/mapper/FavoriteMapper.java:18-21 | an insert appends one favourite copying the listing's fields, stamped now, with a fresh id |
| Favorites.FindByUserId | backend/src/main/java/com/onbid/mapper/FavoriteMapper.java:28-30 | the favourites listed are exactly the user's |
| Favorites.FindById | backend/src/main/java/com/onbid/mapper/FavoriteMapper.java:37-39 | a found favourite has the id; none found means no row has it |
| Favorites.FindByIdUnique | backend/src/main/java/com/onbid/mapper/FavoriteMapper.java:37-39 | every stored favourite is found by its id |
| Favorites.Delete | backend/src/main/java/com/onbid/mapper/FavoriteMapper.java:47-48 | removes exactly the row with the id owned by the user, reporting 0 exactly when there is none |
| Favorites.DeleteByGoodsNo | backend/src/main/java/com/onbid/mapper/FavoriteMapper.java:56-57 | removes exactly the user's rows for the goods number, reporting 0 exactly when there are none |
| Favorites.CountByUserId | backend/src/main/java/com/onbid/mapper/FavoriteMapper.java:73-74 | the count is the number of the user's favourites |
| Favorites.AddFavorite | backend/src/main/java/com/onbid/hidden/service/FavoriteService.java:28-46 | adding fails, with the table unchanged, exactly when the user already has the (non-null) history number; otherwise one row with a fresh id, the caller as owner and the insert time is appended, and the answer is the request itself with that id and owner and the client's own `createdAt` |
| Favorites.NullHistoryRepeats | backend/src/main/java/com/onbid/hidden/service/FavoriteService.java:31-40 | a listing without a history number can be added again and again |
| Favorites.AddPreservesNoDuplicates | backend/src/main/java/com/onbid/hidden/service/FavoriteService.java:31-40 | sequential adds keep at most one favourite per user and history number |
| Favorites.GetFavoritesByUserId | backend/src/main/java/com/onbid/hidden/service/FavoriteService.java:53-56 | the favourites returned are exactly the user's |
| Favorites.DeleteFavorite | backend/src/main/java/com/onbid/hidden/service/FavoriteService.java:63-70 | deleting fails, with the table unchanged, exactly when the user owns no favourite with the id; otherwise exactly that row goes |
| Favorites.DeleteOwnerScoped | backend/src/main/java/com/onbid/hidden/service/FavoriteService.java:63-70 | deleting never touches another user's favourites |
| Favorites.DeleteFavoriteByGoodsNo | backend/src/main/java/com/onbid/hidden/service/FavoriteService.java:77-84 | deleting fails, with the table unchanged, exactly when the user has no favourite for the goods number; otherwise exactly those rows go |
| Favorites.DeleteByGoodsNoOwnerScoped | backend/src/main/java/com/onbid/hidden/service/FavoriteService.java:77-84 | deleting by goods number never touches another user's favourites |
| Favorites.ExistsByUserIdAndHistoryNo | backend/src/main/java/com/onbid/mapper/FavoriteMapper.java:65-66 | the count is positive exactly when the history number is non-null and the user has a favourite with it |
| Favorites.IsFavorite | backend/src/main/java/com/onbid/hidden/service/FavoriteService.java:92-95 | true exactly when the user has the (non-null) history number among their favourites |
| Favorites.GetFavoriteCount | backend/src/main/java/com/onbid/hidden/service/FavoriteService.java:102-105 | the count is the number of favourites listed for the user |
| Favorites.AddThenIsFavorite | backend/src/main/java/com/onbid/hidden/service/FavoriteService.java:28-95 | after a successful add of a listing with a history number, it is a favourite |
| Users.Insert | backend/src/main/java/com/onbid/mapper/UserMapper.java:16-19 | an insert appends one user with the given fields, stamped now, and a fresh id |
| Users.EmailFrom | backend/src/main/java/com/onbid/mapper/UserMapper.java:26-28 | finds a row with the email from a position on, or shows there is none |
| Users.FindByEmail | backend/src/main/java/com/onbid/mapper/UserMapper.java:26-28 | a found user has the (non-null) email; none found means no row has it |
| Users.FindByEmailUnique | backend/src/main/java/com/onbid/mapper/UserMapper.java:26-28 | with unique emails, every user with an email is found by it |
| Users.IdFrom | backend/src/main/java/com/onbid/mapper/UserMapper.java:35-37 | finds a row with the id from a position on, or shows there is none |
| Users.FindById | backend/src/main/java/com/onbid/mapper/UserMapper.java:35-37 | a found user has the id; none found means no row has it |
| Users.Update | backend/src/main/java/com/onbid/mapper/UserMapper.java:43-45 | only the row with the id changes: its name and password are replaced and it is stamped now |
| Users.Delete | backend/src/main/java/com/onbid/mapper/UserMapper.java:51-52 | exactly the row with the id is removed |
| Users.ExistsByEmail | backend/src/main/java/com/onbid/mapper/UserMapper.java:59-60 | positive exactly when some user has the (non-null) email |
| Users.EmailCount | backend/src/main/java/com/onbid/mapper/UserMapper.java:59-60 | positive exactly when some row has the email |
| Users.Register | backend/src/main/java/com/onbid/service/UserService.java:30-52 | registration fails, with the table unchanged, exactly when the email is taken; otherwise one user is appended with the encoded password |
| Users.RegisterPreservesUnique | backend/src/main/java/com/onbid/service/UserService.java:33-47 | sequential registrations keep emails unique |
| Users.Login | backend/src/main/java/com/onbid/service/UserService.java:59-84 | an unknown email and a wrong password are both rejected; a success issues the token for that user |
| Users.RegisterThenLogin | backend/src/main/java/com/onbid/service/UserService.java:30-84 | a user just registered can log in with the same password |
| Users.GetUserById | backend/src/main/java/com/onbid/service/UserService.java:91-98 | success exactly when the id exists, returning that user; otherwise the not-found error |
| Users.UpdateUser | backend/src/main/java/com/onbid/service/UserService.java:116-151 | a missing user, a missing current password and a wrong current password are rejected with the table unchanged; the call succeeds exactly when the user exists and, if a non-blank new password is given, a non-blank current password matches the stored one; a success updates the name, and stores the encoded new password when one is given |
| Users.UpdatePreservesEmails | backend/src/main/java/com/onbid/service/UserService.java:116-151 | an update never changes an email, so unique emails stay unique |
| Users.UpdateWithoutNewPassword | backend/src/main/java/com/onbid/service/UserService.java:125-146 | without a new password, the update succeeds exactly when the user exists, and no password changes |
| Users.DeleteUser | backend/src/main/java/com/onbid/service/UserService.java:158-175 | deletion needs an existing user and the right password; then exactly that user goes, and otherwise nothing changes |
| Users.DeletePreservesUnique | backend/src/main/java/com/onbid/service/UserService.java:158-175 | deleting a user keeps emails unique |
| Users.DeleteKeepsUnique | backend/src/main/java/com/onbid/mapper/UserMapper.java:51-52 | removing a row keeps emails unique |
| Users.EarlierIdUnique | backend/src/main/java/com/onbid/mapper/UserMapper.java:51-52 | two different users never share an email when emails are unique |
| ListPage.CleanFilters | frontend/src/pages/ListPage.jsx:50-55 | the filters kept are exactly those with a non-empty value |
| ListPage.CleanFiltersIdempotent | frontend/src/pages/ListPage.jsx:50-55 | cleaning twice is cleaning once |
| ListPage.CleanFiltersKeepsAll | frontend/src/pages/ListPage.jsx:50-55 | cleaning drops nothing exactly when every value is non-empty |
| ListPage.DisplayedCount | frontend/src/pages/ListPage.jsx:87 | the reported total is shown unless it is missing or 0, when the page's item count is shown |
| ListPage.TotalPages | frontend/src/pages/ListPage.jsx:192 | the page count is the least number of 20-row pages holding every row |
| ListPage.Window | frontend/src/pages/ListPage.jsx:195-210 | the window lies within the real pages, spans up to ten of them, and covers the current page when it is real |
| ListPage.GetPageNumbers | frontend/src/pages/ListPage.jsx:195-210 | the buttons are consecutive page numbers within the real pages, ten or all of them, including the current page when it is real |
| ListPage.HandleSort | frontend/src/pages/ListPage.jsx:164-173 | clicking the current field flips the direction; another field becomes current, descending |
| ListPage.Compare | frontend/src/pages/ListPage.jsx:64-81 | numbers compare by value in the chosen direction; mismatched or non-string values compare equal |
| GoodsTableView.SortIcon | frontend/src/components/GoodsTable.jsx:43-46 | the neutral icon exactly for other fields; up exactly for the current field ascending; down exactly for it descending |
| GoodsTableView.RowClick | frontend/src/components/GoodsTable.jsx:38-40 | clicking the expanded row collapses it; clicking another row expands that one |
| Formatting.FormatNumber | frontend/src/components/GoodsTable.jsx:7-10 | missing and 0 give "0"; otherwise the digits of the number, grouped by three with commas, after a minus sign when it is negative |
| Formatting.GroupedDigits | frontend/src/components/GoodsTable.jsx:9 | inserting commas into digits is undone by deleting them, and groups them by three from the right |
| Formatting.FormatNumberRoundTrip | frontend/src/components/GoodsTable.jsx:7-10 | deleting the commas and reading the digits gives the number back |
| Formatting.CommasIsGroup | frontend/src/components/GoodsTable.jsx:9 | the pattern replacement agrees with grouping three digits off the right at a time |
| Formatting.GroupStrips | frontend/src/components/GoodsTable.jsx:9 | deleting the commas of a grouping gives back the digits |
| Formatting.GroupWellGrouped | frontend/src/components/GoodsTable.jsx:9 | a grouping has commas exactly every four characters from the right |
| Formatting.TableDate | frontend/src/components/GoodsTable.jsx:15-29 | "-" when missing or under 8 characters; a date from the first 8 below 12 characters; a date and time from the first 12 otherwise |
| Formatting.CardDate | frontend/src/components/GoodsCard.jsx:16-26 | "-" when missing or under 12 characters; otherwise a date and time from the first 12 |
| Formatting.MobileDate | frontend/src/components/GoodsMobileCard.jsx:15-23 | "-" when missing or under 8 characters; otherwise a date from the first 8 |
| Formatting.DatePart | frontend/src/components/GoodsMobileCard.jsx:18-22 | a YYYY-MM-DD rendering whose digits are the first eight characters |
| Formatting.DateTimePart | frontend/src/components/GoodsCard.jsx:19-25 | a YYYY-MM-DD HH:mm rendering whose digits are the first twelve characters |
| Formatting.DateVariants | frontend/src/components/GoodsTable.jsx:15-29 | the card agrees with the table from 12 characters on but shows "-" from 8 to 11; the mobile card shows the table's date part |
| Formatting.TrailingIgnored | frontend/src/components/GoodsTable.jsx:15-29 | characters past the minutes never reach the output |
| PurchasesPage.StatusText | frontend/src/pages/PurchasesPage.jsx:77-88 | COMPLETED reads 완료, PENDING 대기중 and CANCELLED 취소됨; any other status, null included, is shown as it is |
| PurchasesPage.StatusColor | frontend/src/pages/PurchasesPage.jsx:64-75 | COMPLETED is green, PENDING yellow and CANCELLED red; exactly these three get a colour other than grey |
| PurchasesPage.SameKnownStatuses | frontend/src/pages/PurchasesPage.jsx:64-88 | a status gets a translated label exactly when it gets a colour, and the three known statuses get distinct labels and colours |
| PurchasesPage.CreatedPurchaseShowsDone | frontend/src/pages/PurchasesPage.jsx:64-88 | the status the purchase service writes shows as 완료, in green |
| Forms.SubmitRegister | frontend/src/pages/RegisterPage.jsx:29-57 | the form is sent exactly when the passwords match, the password has at least 6 characters and the name at least 2; otherwise the first failing check's message is shown |
| Forms.ConfirmationNotSent | frontend/src/pages/RegisterPage.jsx:53-57 | the confirmation field affects only the check, never the request |
| Forms.SubmitProfile | frontend/src/pages/ProfilePage.jsx:69-118 | the form is sent exactly when no new password is typed, or the new password matches its confirmation and the current password is non-empty; a mismatch and a missing current password are rejected with their messages; without a new password only the name is sent |
| Forms.AfterUpdate | frontend/src/pages/ProfilePage.jsx:101-111 | after a success the password fields are cleared and the name kept |
| Forms.ResubmitSendsNameOnly | frontend/src/pages/ProfilePage.jsx:101-111 | submitting again right after a success sends only the name |
| Forms.BlankCurrentPasswordReachesService | frontend/src/pages/ProfilePage.jsx:75-84 | a current password of spaces passes the page's check and is then refused by the backend as missing |
| Forms.BlankNewPasswordIgnored | frontend/src/pages/ProfilePage.jsx:89-97 | a new password of spaces passes the page's check, and the backend then leaves every password unchanged |

## Left out

- Network, XML decoding and URL encoding are parameters of `OnbidApi.Endpoint`. The HTTP client, Jackson's XML mapper and `URLEncoder` are not modelled.
- Scheduling is left out: the cron trigger, the thread pool and the `AtomicReference` cell. One run of the scheduled job is `SyncCycle.SyncLatestGoods`, and the last-sync cell is a plain value.
- Concurrency is left out. The services check and then insert in separate statements, so exclusivity (one purchase per listing, one favourite per user and listing, unique emails) holds only for calls that run one after another. The model proves it for that case only.
- The wall clock is a `now` parameter. One save call reads it once, whereas `CURRENT_TIMESTAMP` may differ between statements. The goods stores require that `now` is no earlier than any stored `created_at`: a clock that runs backwards is not modelled.
- KeyedSeq.Newest: `ORDER BY created_at DESC` leaves the order of rows with equal `created_at` to the database. The model lists them latest-inserted first.
- ReplaceStore.FindAllAfterInsert: the new row heads the listing only under the same tie assumption, since it may share its `created_at` with earlier rows.
- UpsertStore.NewKeyFirst: the same tie assumption as above.
- PurchaseLedger.FindAll: the purchase rows carry no modelled `created_at`; `ORDER BY created_at DESC` is taken as insertion order reversed, which is the database order only when no two purchases share a timestamp or ties fall latest-inserted first.
- PurchaseLedger.FindByHistoryNo: the same as for `PurchaseLedger.FindAll`.
- Favorites.FindByUserId: the listing is the user's rows in insertion order reversed. It matches `ORDER BY created_at DESC` under the clock and tie assumptions above; the stored `created_at` is not used to order it.
- Controllers, request DTO validation annotations, Spring Security, JWT and BCrypt are out. The password encoder and the token issuer are parameters.
- Transaction rollback is not modelled as a mechanism. A failing call is stated to leave the state unchanged, as the rollback makes it.
- Duplicates are not modelled again. The price formatters of the favourites page, the goods detail page and the purchase modal repeat `formatNumber` or its pattern. The purchases page's `formatNumber` repeats the goods table's, and `Formatting.FormatNumber` stands for every copy.
- The browser's `localeCompare` is a parameter. The `Array.sort` algorithm is not modelled: only the comparator it is given is.
- Formatting.FormatNumber: integers only. Floating-point input and numbers beyond 2^53, where `toString` switches to exponent notation, are not modelled.
- The purchases page renders dates through `toLocaleDateString`, which depends on the locale and is not modelled.
- Formatting.TableDate: lengths count Dafny characters, whereas JavaScript's `length` counts UTF-16 code units. The two differ only for characters outside the Basic Multilingual Plane.
- Forms.SubmitRegister: the length checks count characters as above. The HTML `required` and `type="email"` attributes enforced by the browser are not modelled.
- The foreign keys and their `ON DELETE` behaviour are not modelled. The schema is not part of this model, so deleting a user leaves their favourites in place.
- Users.FindByEmail: a lookup that matches several rows makes MyBatis throw. The model returns the first row; the lemmas that depend on a unique answer assume emails are unique.
- Users.GetUserById: the id is a plain integer, so the null-id path of the controller is not modelled.
- Generated ids are the next integer of a counter. Gaps after failed inserts and the database's exact id policy are not modelled.
- Java `long` and `int` widths are not modelled: history numbers, prices and counts are unbounded integers.
- The list page's fetching, effects, loading state and URL handling are left out. So are the app shell, header, home, login and private-route components, and the API client module.
- Configuration classes (CORS, SPA redirect, Swagger, security) are left out.
- The goods controllers' plain pass-through endpoints are left out. They only call the services modelled here.

=== FILE: errors.dfy ===
/**
 * The error taxonomy: the `ErrorCode` enumeration, the exceptions the services throw, and the
 * handler that turns every exception into an HTTP status and a JSON error body.
 */
module Errors {

  import opened Wrappers

  /** The seven error codes, in declaration order. */
  datatype ErrorCode =
    | ExternalApiError
    | XmlParseError
    | InvalidRequest
    | GoodsNotFound
    | DuplicatedPurchase
    | DatabaseError
    | UnknownError

  const AllCodes: seq<ErrorCode> :=
    [ExternalApiError, XmlParseError, InvalidRequest, GoodsNotFound, DuplicatedPurchase, DatabaseError, UnknownError]

  /** `getStatus()`, as the numeric HTTP status. */
  function Status(c: ErrorCode): int {
    match c
    case ExternalApiError => 502
    case XmlParseError => 500
    case InvalidRequest => 400
    case GoodsNotFound => 404
    case DuplicatedPurchase => 409
    case DatabaseError => 500
    case UnknownError => 500
  }

  /** `getCode()`: the constant's own name. */
  function Code(c: ErrorCode): string {
    match c
    case ExternalApiError => "EXTERNAL_API_ERROR"
    case XmlParseError => "XML_PARSE_ERROR"
    case InvalidRequest => "INVALID_REQUEST"
    case GoodsNotFound => "GOODS_NOT_FOUND"
    case DuplicatedPurchase => "DUPLICATED_PURCHASE"
    case DatabaseError => "DATABASE_ERROR"
    case UnknownError => "UNKNOWN_ERROR"
  }

  /** `getDefaultMessage()`. */
  function DefaultMessage(c: ErrorCode): string {
    match c
    case ExternalApiError => "외부 온비드 API 호출 중 오류가 발생했습니다."
    case XmlParseError => "온비드 XML 응답을 파싱하지 못했습니다."
    case InvalidRequest => "요청 값이 올바르지 않습니다."
    case GoodsNotFound => "요청한 물건 정보를 찾을 수 없습니다."
    case DuplicatedPurchase => "이미 구매된 물건입니다."
    case DatabaseError => "데이터베이스 처리 중 문제가 발생했습니다."
    case UnknownError => "예상치 못한 서버 오류가 발생했습니다."
  }

  /** The enumeration lists every code exactly once, so there are exactly seven. */
  lemma SevenCodes()
    ensures |AllCodes| == 7
    ensures forall c: ErrorCode :: c in AllCodes
    ensures forall i, j :: 0 <= i < j < |AllCodes| ==> AllCodes[i] != AllCodes[j]
  {
    forall c: ErrorCode
      ensures c in AllCodes
    {
      match c
      case ExternalApiError => assert AllCodes[0] == c;
      case XmlParseError => assert AllCodes[1] == c;
      case InvalidRequest => assert AllCodes[2] == c;
      case GoodsNotFound => assert AllCodes[3] == c;
      case DuplicatedPurchase => assert AllCodes[4] == c;
      case DatabaseError => assert AllCodes[5] == c;
      case UnknownError => assert AllCodes[6] == c;
    }
  }

  /** Distinct constants carry distinct code strings, so a client can tell every error apart by its code. */
  lemma CodesDistinct(a: ErrorCode, b: ErrorCode)
    requires a != b
    ensures Code(a) != Code(b)
  {
  }

  /** Client faults answer 4xx, everything else 5xx; only the external API failure is a 502. */
  lemma StatusClasses(c: ErrorCode)
    ensures 400 <= Status(c) < 500 <==> c in {InvalidRequest, GoodsNotFound, DuplicatedPurchase}
    ensures Status(c) == 502 <==> c == ExternalApiError
    ensures Status(c) == 500 <==> c in {XmlParseError, DatabaseError, UnknownError}
  {
  }

  /** The exceptions that reach the global handler. */
  datatype Exception =
    | BusinessException(errorCode: ErrorCode, message: string)
      /** Bean-validation failure: the default messages of the failing fields, in order (a field may have none). */
    | MethodArgumentNotValid(fieldMessages: seq<Option<string>>)
    | ConstraintViolation(violationMessage: Option<string>)
      /** Any other exception: a `RuntimeException`, a MyBatis failure, a null dereference. */
    | Unchecked(uncheckedMessage: Option<string>)

  /** `new BusinessException(code, message)`: a null message is replaced by the code's default message. */
  function Business(code: ErrorCode, message: Option<string>): (e: Exception)
    ensures e.BusinessException? && e.errorCode == code
  {
    BusinessException(code, message.GetOr(DefaultMessage(code)))
  }

  datatype BodyValue = BoolValue(b: bool) | TextValue(s: string) | NullValue

  /** An HTTP status together with the JSON body of the response. */
  datatype ErrorResponse = ErrorResponse(status: int, body: map<string, BodyValue>)

  function TextOrNull(s: Option<string>): BodyValue {
    match s
    case Some(t) => TextValue(t)
    case None => NullValue
  }

  /** `buildErrorBody`: a fresh three-entry map. */
  function BuildErrorBody(errorCode: string, message: Option<string>): (body: map<string, BodyValue>)
    ensures body.Keys == {"success", "errorCode", "message"}
    ensures body["success"] == BoolValue(false)
    ensures body["errorCode"] == TextValue(errorCode)
    ensures body["message"] == TextOrNull(message)
  {
    map["success" := BoolValue(false), "errorCode" := TextValue(errorCode), "message" := TextOrNull(message)]
  }

  /** The code every exception kind is reported under. */
  function HandledCode(e: Exception): ErrorCode {
    match e
    case BusinessException(c, _) => c
    case MethodArgumentNotValid(_) => InvalidRequest
    case ConstraintViolation(_) => InvalidRequest
    case Unchecked(_) => UnknownError
  }

  /** First field message of a validation failure, or the default message when there is none. */
  function FirstFieldMessage(fieldMessages: seq<Option<string>>): string {
    if |fieldMessages| > 0 && fieldMessages[0].Some? then fieldMessages[0].value
    else DefaultMessage(InvalidRequest)
  }

  /**
   * The global handler: the most specific `@ExceptionHandler` for the exception's kind. Whatever the
   * exception, the response's status and its `errorCode` come from one and the same `ErrorCode`.
   */
  function Handle(e: Exception): (r: ErrorResponse)
    ensures r.body.Keys == {"success", "errorCode", "message"}
    ensures r.body["success"] == BoolValue(false)
    ensures exists c: ErrorCode :: r.status == Status(c) && r.body["errorCode"] == TextValue(Code(c))
  {
    var c := HandledCode(e);
    var message := match e
      case BusinessException(_, m) => Some(m)
      case MethodArgumentNotValid(ms) => Some(FirstFieldMessage(ms))
      case ConstraintViolation(m) => m
      case Unchecked(_) => Some(DefaultMessage(UnknownError));
    ErrorResponse(Status(c), BuildErrorBody(Code(c), message))
  }

  /** A business exception answers with its own code's status and code and its own message, or the default one when built with null. */
  lemma HandleBusiness(code: ErrorCode, message: Option<string>)
    ensures Handle(Business(code, message)).status == Status(code)
    ensures Handle(Business(code, message)).body["errorCode"] == TextValue(Code(code))
    ensures message.Some? ==> Handle(Business(code, message)).body["message"] == TextValue(message.value)
    ensures message.None? ==> Handle(Business(code, message)).body["message"] == TextValue(DefaultMessage(code))
  {
  }

  /** Validation failures are 400 INVALID_REQUEST; the first field message wins, else the default message. */
  lemma HandleValidation(ms: seq<Option<string>>, cv: Option<string>)
    ensures Handle(MethodArgumentNotValid(ms)).status == 400
    ensures Handle(MethodArgumentNotValid(ms)).body["errorCode"] == TextValue("INVALID_REQUEST")
    ensures |ms| > 0 && ms[0].Some? ==> Handle(MethodArgumentNotValid(ms)).body["message"] == TextValue(ms[0].value)
    ensures (|ms| == 0 || ms[0].None?) ==>
              Handle(MethodArgumentNotValid(ms)).body["message"] == TextValue(DefaultMessage(InvalidRequest))
    ensures Handle(ConstraintViolation(cv)).status == 400
    ensures Handle(ConstraintViolation(cv)).body["errorCode"] == TextValue("INVALID_REQUEST")
  {
  }

  /** Any other exception is a 500 UNKNOWN_ERROR whose message never reveals the exception's own text. */
  lemma HandleUnchecked(m: Option<string>, m': Option<string>)
    ensures Handle(Unchecked(m)).status == 500
    ensures Handle(Unchecked(m)).body["errorCode"] == TextValue("UNKNOWN_ERROR")
    ensures Handle(Unchecked(m)) == Handle(Unchecked(m'))
  {
  }
}

=== FILE: favorites.dfy ===
/**
 * Per-user favourites: the `favorites` table and the service over it. Each call runs alone; the
 * duplicate check and the insert are separate statements, so uniqueness holds only for sequential use.
 */
module Favorites {

  import opened Wrappers
  import opened Errors
  import opened Tables
  import KeyedSeq

  /** A stored favourite: generated id, owner, a copy of the listing's summary, and the insert time. */
  datatype Favorite = Favorite(
    id: int,
    userId: int,
    historyNo: Option<int>,
    goodsNo: Option<string>,
    goodsName: Option<string>,
    minBidPrice: Option<int>,
    bidCloseDate: Option<string>,
    createdAt: int
  )

  /**
   * The listing part of a request body, with the `createdAt` the client may have sent. Any owner or id
   * the client sends is overwritten; the sent `createdAt` is never stored.
   */
  datatype Listing = Listing(
    historyNo: Option<int>,
    goodsNo: Option<string>,
    goodsName: Option<string>,
    minBidPrice: Option<int>,
    bidCloseDate: Option<string>,
    createdAt: Option<int>
  )

  /**
   * The request object `addFavorite` hands back: the generated id and the caller's id set on it, and
   * otherwise the body as the client sent it (its `createdAt` included, usually null).
   */
  datatype Echo = Echo(id: int, userId: int, listing: Listing)

  /** The table and its auto-increment counter. */
  datatype Table = Table(rows: seq<Favorite>, nextId: int)

  function FavoriteId(x: Favorite): int {
    x.id
  }

  /** Generated ids increase with insertion order and stay below the counter. */
  ghost predicate Valid(t: Table) {
    Increasing(t.rows, FavoriteId, t.nextId)
  }

  /** The owner filter. */
  function OwnedBy(u: int): Favorite -> bool {
    (x: Favorite) => x.userId == u
  }

  /** The filter of `existsByUserIdAndHistoryNo`; a null history number matches no row. */
  function OwnedWithHistory(u: int, h: Option<int>): Favorite -> bool {
    (x: Favorite) => x.userId == u && h.Some? && x.historyNo == h
  }

  /** The filter of `findById`. */
  function WithId(id: int): Favorite -> bool {
    (x: Favorite) => x.id == id
  }

  /** The rows `delete` keeps: all but the one with that id and owner. */
  function KeptByDelete(id: int, u: int): Favorite -> bool {
    (x: Favorite) => !(x.id == id && x.userId == u)
  }

  /** The rows `deleteByGoodsNo` keeps: all but the owner's rows with that listing number. */
  function KeptByGoodsDelete(goodsNo: Option<string>, u: int): Favorite -> bool {
    (x: Favorite) => !(goodsNo.Some? && x.goodsNo == goodsNo && x.userId == u)
  }

  /** `insert`: one row for the given owner, stamped with the current time. */
  function Insert(t: Table, u: int, g: Listing, now: int): (r: (Table, Favorite))
    requires Valid(t)
    ensures Valid(r.0) && r.0.rows == t.rows + [r.1]
    ensures r.1.userId == u && r.1.createdAt == now
    ensures r.1.historyNo == g.historyNo && r.1.goodsNo == g.goodsNo && r.1.goodsName == g.goodsName
    ensures r.1.minBidPrice == g.minBidPrice && r.1.bidCloseDate == g.bidCloseDate
    ensures forall x :: x in t.rows ==> x.id != r.1.id
  {
    var f := Favorite(t.nextId, u, g.historyNo, g.goodsNo, g.goodsName, g.minBidPrice, g.bidCloseDate, now);
    (Table(t.rows + [f], t.nextId + 1), f)
  }

  /** `findByUserId`: that owner's rows only, newest first. */
  function FindByUserId(t: Table, u: int): (r: seq<Favorite>)
    ensures forall x :: x in r <==> x in t.rows && x.userId == u
  {
    var m := Where(t.rows, OwnedBy(u));
    var r := KeyedSeq.Newest(m);
    forall x | x in m
      ensures x in r
    {
      var i :| 0 <= i < |m| && m[i] == x;
      assert r[|m| - 1 - i] == x;
    }
    forall x | x in r
      ensures x in m
    {
      var i :| 0 <= i < |r| && r[i] == x;
      assert m[|m| - 1 - i] == x;
    }
    r
  }

  /** `findById`: the row with that id, if any. */
  function FindById(t: Table, id: int): (r: Option<Favorite>)
    ensures r.Some? ==> r.value in t.rows && r.value.id == id
    ensures r.None? ==> forall x :: x in t.rows ==> x.id != id
  {
    var m := Where(t.rows, WithId(id));
    if |m| == 0 then None else assert m[0] in m; Some(m[0])
  }

  /** Ids are unique, so looking up a stored row's id finds that row. */
  lemma FindByIdUnique(t: Table, x: Favorite)
    requires Valid(t) && x in t.rows
    ensures FindById(t, x.id) == Some(x)
  {
    var y := FindById(t, x.id).value;
    var i :| 0 <= i < |t.rows| && t.rows[i] == x;
    var j :| 0 <= j < |t.rows| && t.rows[j] == y;
    assert i == j;
  }

  /** `delete`: remove the row with that id only if it belongs to `u`; report how many rows went. */
  function Delete(t: Table, id: int, u: int): (r: (Table, nat))
    requires Valid(t)
    ensures Valid(r.0) && r.0.nextId == t.nextId
    ensures forall x :: x in r.0.rows <==> x in t.rows && !(x.id == id && x.userId == u)
    ensures r.1 == |t.rows| - |r.0.rows|
    ensures r.1 == 0 <==> forall i :: 0 <= i < |t.rows| ==> !(t.rows[i].id == id && t.rows[i].userId == u)
  {
    var kept := Where(t.rows, KeptByDelete(id, u));
    WhereKeepsAll(t.rows, KeptByDelete(id, u));
    WhereIncreasing(t.rows, KeptByDelete(id, u), FavoriteId, t.nextId);
    (Table(kept, t.nextId), |t.rows| - |kept|)
  }

  /** `deleteByGoodsNo`: remove every row of `u` with that listing number; a null number matches none. */
  function DeleteByGoodsNo(t: Table, goodsNo: Option<string>, u: int): (r: (Table, nat))
    requires Valid(t)
    ensures Valid(r.0) && r.0.nextId == t.nextId
    ensures forall x :: x in r.0.rows <==> x in t.rows && !(goodsNo.Some? && x.goodsNo == goodsNo && x.userId == u)
    ensures r.1 == |t.rows| - |r.0.rows|
    ensures r.1 == 0 <==> forall i :: 0 <= i < |t.rows| ==> !(goodsNo.Some? && t.rows[i].goodsNo == goodsNo && t.rows[i].userId == u)
  {
    var kept := Where(t.rows, KeptByGoodsDelete(goodsNo, u));
    WhereKeepsAll(t.rows, KeptByGoodsDelete(goodsNo, u));
    WhereIncreasing(t.rows, KeptByGoodsDelete(goodsNo, u), FavoriteId, t.nextId);
    (Table(kept, t.nextId), |t.rows| - |kept|)
  }

  /**
   * `existsByUserIdAndHistoryNo`: the number of `u`'s rows with that history number, positive exactly
   * when there is one; a null number matches nothing.
   */
  function ExistsByUserIdAndHistoryNo(t: Table, u: int, h: Option<int>): (n: nat)
    ensures n <= |t.rows|
    ensures n > 0 <==> h.Some? && exists x :: x in t.rows && x.userId == u && x.historyNo == h
  {
    var m := Where(t.rows, OwnedWithHistory(u, h));
    assert |m| > 0 ==> m[0] in m;
    |m|
  }

  /** `countByUserId`: the number of `u`'s rows. */
  function CountByUserId(t: Table, u: int): (n: nat)
    ensures n == |FindByUserId(t, u)|
  {
    |Where(t.rows, OwnedBy(u))|
  }

  /** The error for a listing the user has already favourited. */
  const AlreadyFavorite: Exception := Unchecked(Some("이미 관심물건으로 등록되어 있습니다"))

  /** The error for a delete by id that removed nothing. */
  const NotFoundOrNotOwner: Exception := Unchecked(Some("관심물건을 찾을 수 없거나 삭제 권한이 없습니다"))

  /** The error for a delete by listing number that removed nothing. */
  const FavoriteNotFound: Exception := Unchecked(Some("관심물건을 찾을 수 없습니다"))

  /**
   * `addFavorite`: a listing with a history number the user already has is rejected; otherwise one
   * row is inserted under the caller's id. A null history number skips the check. The answer is the
   * request object with the generated id and the owner filled in; `NOW()` goes only into the row.
   */
  function AddFavorite(t: Table, u: int, g: Listing, now: int): (r: (Result<Echo, Exception>, Table))
    requires Valid(t)
    ensures Valid(r.1)
    ensures r.0.Failure? <==> g.historyNo.Some? && exists x :: x in t.rows && x.userId == u && x.historyNo == g.historyNo
    ensures r.0.Failure? ==> r == (Failure(AlreadyFavorite), t)
    ensures r.0.Success? ==>
      && r.0.value.userId == u && r.0.value.listing == g
      && (forall x :: x in t.rows ==> x.id != r.0.value.id)
      && r.1.rows == t.rows + [Favorite(r.0.value.id, u, g.historyNo, g.goodsNo, g.goodsName, g.minBidPrice,
                                        g.bidCloseDate, now)]
  {
    WhereNonEmpty(t.rows, OwnedWithHistory(u, g.historyNo));
    if g.historyNo.Some? && ExistsByUserIdAndHistoryNo(t, u, g.historyNo) > 0 then (Failure(AlreadyFavorite), t)
    else
      var ins := Insert(t, u, g, now);
      (Success(Echo(ins.1.id, u, g)), ins.0)
  }

  /** A listing without a history number can be favourited again and again. */
  lemma NullHistoryRepeats(t: Table, u: int, g: Listing, now: int, later: int)
    requires Valid(t) && g.historyNo.None?
    ensures var first := AddFavorite(t, u, g, now);
      && first.0.Success?
      && AddFavorite(first.1, u, g, later).0.Success?
      && |AddFavorite(first.1, u, g, later).1.rows| == |t.rows| + 2
  {
  }

  /** No user holds two favourites with the same history number (rows without one are not constrained). */
  ghost predicate NoDuplicateFavorites(t: Table) {
    forall i, j :: 0 <= i < j < |t.rows| && t.rows[i].historyNo.Some? && t.rows[i].userId == t.rows[j].userId ==>
      t.rows[i].historyNo != t.rows[j].historyNo
  }

  /** Run one after another, `addFavorite` keeps favourites free of duplicates. */
  lemma AddPreservesNoDuplicates(t: Table, u: int, g: Listing, now: int)
    requires Valid(t) && NoDuplicateFavorites(t)
    ensures NoDuplicateFavorites(AddFavorite(t, u, g, now).1)
  {
    var r := AddFavorite(t, u, g, now);
    if r.0.Success? {
      forall i, j | 0 <= i < j < |r.1.rows| && r.1.rows[i].historyNo.Some? && r.1.rows[i].userId == r.1.rows[j].userId
        ensures r.1.rows[i].historyNo != r.1.rows[j].historyNo
      {
        if j == |t.rows| {
          assert r.1.rows[i] in t.rows;
        }
      }
    }
  }

  /** `getFavoritesByUserId`: the mapper's list unchanged. */
  function GetFavoritesByUserId(t: Table, u: int): (r: seq<Favorite>)
    ensures forall x :: x in r <==> x in t.rows && x.userId == u
  {
    FindByUserId(t, u)
  }

  /** `deleteFavorite`: remove the caller's row with that id, or fail when no such row exists. */
  function DeleteFavorite(t: Table, id: int, u: int): (r: (Result<(), Exception>, Table))
    requires Valid(t)
    ensures Valid(r.1)
    ensures r.0.Failure? <==> forall i :: 0 <= i < |t.rows| ==> !(t.rows[i].id == id && t.rows[i].userId == u)
    ensures r.0.Failure? ==> r == (Failure(NotFoundOrNotOwner), t)
    ensures r.0.Success? ==> forall x :: x in r.1.rows <==> x in t.rows && !(x.id == id && x.userId == u)
  {
    var d := Delete(t, id, u);
    if d.1 == 0 then
      (Failure(NotFoundOrNotOwner), t)
    else (Success(()), d.0)
  }

  /** Deleting by id never touches another user's favourites, even when the id is theirs. */
  lemma DeleteOwnerScoped(t: Table, id: int, u: int, other: int)
    requires Valid(t) && other != u
    ensures FindByUserId(DeleteFavorite(t, id, u).1, other) == FindByUserId(t, other)
  {
    WhereWhere(t.rows, OwnedBy(other), KeptByDelete(id, u));
  }

  /** `deleteFavoriteByGoodsNo`: remove all of the caller's rows for that listing, or fail when there are none. */
  function DeleteFavoriteByGoodsNo(t: Table, goodsNo: Option<string>, u: int): (r: (Result<(), Exception>, Table))
    requires Valid(t)
    ensures Valid(r.1)
    ensures r.0.Failure? <==> forall i :: 0 <= i < |t.rows| ==> !(goodsNo.Some? && t.rows[i].goodsNo == goodsNo && t.rows[i].userId == u)
    ensures r.0.Failure? ==> r == (Failure(FavoriteNotFound), t)
    ensures r.0.Success? ==>
      forall x :: x in r.1.rows <==> x in t.rows && !(goodsNo.Some? && x.goodsNo == goodsNo && x.userId == u)
  {
    var d := DeleteByGoodsNo(t, goodsNo, u);
    if d.1 == 0 then
      (Failure(FavoriteNotFound), t)
    else (Success(()), d.0)
  }

  /** Deleting by listing number never touches another user's favourites. */
  lemma DeleteByGoodsNoOwnerScoped(t: Table, goodsNo: Option<string>, u: int, other: int)
    requires Valid(t) && other != u
    ensures FindByUserId(DeleteFavoriteByGoodsNo(t, goodsNo, u).1, other) == FindByUserId(t, other)
  {
    WhereWhere(t.rows, OwnedBy(other), KeptByGoodsDelete(goodsNo, u));
  }

  /** `isFavorite`: whether the count of matching rows is positive. */
  function IsFavorite(t: Table, u: int, h: Option<int>): (b: bool)
    ensures b <==> h.Some? && exists x :: x in t.rows && x.userId == u && x.historyNo == h
  {
    WhereNonEmpty(t.rows, OwnedWithHistory(u, h));
    ExistsByUserIdAndHistoryNo(t, u, h) > 0
  }

  /** `getFavoriteCount`: the number of the user's favourites. */
  function GetFavoriteCount(t: Table, u: int): (n: nat)
    ensures n == |GetFavoritesByUserId(t, u)|
  {
    CountByUserId(t, u)
  }

  /** A favourite just added is reported as a favourite and raises the user's count by one. */
  lemma AddThenIsFavorite(t: Table, u: int, g: Listing, now: int)
    requires Valid(t) && g.historyNo.Some?
    requires !IsFavorite(t, u, g.historyNo)
    ensures var r := AddFavorite(t, u, g, now);
      && r.0.Success?
      && IsFavorite(r.1, u, g.historyNo)
      && GetFavoriteCount(r.1, u) == GetFavoriteCount(t, u) + 1
  {
    var r := AddFavorite(t, u, g, now);
    WhereSnoc(t.rows, r.1.rows[|t.rows|], OwnedBy(u));
  }
}

=== FILE: formatting.dfy ===
/**
 * The display formatters shared by the goods table, the goods cards and the purchases page: the
 * thousands separator and the three variants of the compact-timestamp formatter.
 */
module Formatting {

  import opened Wrappers
  import opened Text
  import opened Tables

  /**
   * Whether the pattern `\B(?=(\d{3})+(?!\d))` matches just before digit `j` of an all-digit string:
   * strictly inside it, with a positive multiple of three digits from `j` to the end.
   */
  predicate CommaBefore(d: string, j: nat) {
    0 < j < |d| && (|d| - j) % 3 == 0
  }

  /** The replacement of every match by a comma, from digit `j` on. */
  function CommasFrom(d: string, j: nat): string
    requires j <= |d|
    decreases |d| - j
  {
    if j == |d| then ""
    else (if CommaBefore(d, j) then "," else "") + [d[j]] + CommasFrom(d, j + 1)
  }

  function Commas(d: string): string {
    CommasFrom(d, 0)
  }

  /**
   * `formatNumber` on an integer: a falsy value (null, undefined, 0) gives "0"; otherwise the decimal
   * string with a comma between digit groups. A leading minus sign is not a word character, so no
   * comma goes between it and the digits.
   */
  function FormatNumber(num: Option<int>): (r: string)
    ensures num.None? || num == Some(0) ==> r == "0"
    ensures num.Some? && num.value > 0 ==> StripCommas(r) == NatDigits(num.value) && WellGrouped(r)
    ensures num.Some? && num.value < 0 ==>
      |r| > 0 && r[0] == '-' && StripCommas(r[1..]) == NatDigits(-num.value) && WellGrouped(r[1..])
  {
    match num
    case None => "0"
    case Some(n) =>
      if n == 0 then "0"
      else
        var digits := NatDigits(if n > 0 then n else -n);
        GroupedDigits(digits);
        var g := Commas(digits);
        if n > 0 then g
        else
          assert ("-" + g)[1..] == g;
          "-" + g
  }

  function NotComma(c: char): bool {
    c != ','
  }

  /** The text with its commas deleted. */
  function StripCommas(s: string): string {
    Where(s, NotComma)
  }

  /**
   * Digits grouped by three from the right: a comma sits exactly where a multiple of four
   * characters remain, so every group after the first has three digits and the first has one to three.
   */
  ghost predicate WellGrouped(s: string) {
    && |s| % 4 != 0
    && (forall i :: 0 <= i < |s| ==> (s[i] == ',' <==> (|s| - i) % 4 == 0))
    && (forall i :: 0 <= i < |s| && s[i] != ',' ==> IsDigit(s[i]))
  }

  /** The reference grouping: split three digits off the right and group the rest. */
  function Group(d: string): string {
    if |d| <= 3 then d else Group(d[..|d| - 3]) + "," + d[|d| - 3..]
  }

  /** Comma insertion on a non-empty digit string stays invertible and well grouped. */
  lemma GroupedDigits(d: string)
    requires |d| > 0 && AllDigits(d)
    ensures StripCommas(Commas(d)) == d
    ensures WellGrouped(Commas(d))
  {
    CommasIsGroup(d);
    GroupStrips(d);
    GroupWellGrouped(d);
  }

  /** Positive numbers come back from their formatted text: delete the commas and read the digits. */
  lemma FormatNumberRoundTrip(n: nat)
    requires n > 0
    ensures DigitsValue(StripCommas(FormatNumber(Some(n)))) == n
  {
    NatDigitsRoundTrip(n);
  }

  /** A string of three digits or fewer gets no comma. */
  lemma {:induction false} ShortHasNoCommas(d: string, j: nat)
    requires j <= |d| <= 3
    ensures CommasFrom(d, j) == d[j..]
    decreases |d| - j
  {
    if j < |d| {
      ShortHasNoCommas(d, j + 1);
      assert d[j..] == [d[j]] + d[j + 1..];
    }
  }

  /** Appending three digits adds one comma before them and leaves the earlier commas in place. */
  lemma {:induction false} CommasSplit(p: string, q: string, j: nat)
    requires |q| == 3 && 0 < |p| && j <= |p|
    ensures CommasFrom(p + q, j) == CommasFrom(p, j) + "," + q
    decreases |p| - j
  {
    var d := p + q;
    if j == |p| {
      assert CommaBefore(d, j);
      assert !CommaBefore(d, j + 1) && !CommaBefore(d, j + 2);
      assert CommasFrom(d, j + 2) == [q[2]];
      assert CommasFrom(d, j + 1) == [q[1]] + [q[2]];
      assert CommasFrom(d, j) == "," + [q[0]] + [q[1]] + [q[2]];
      assert q == [q[0]] + [q[1]] + [q[2]];
    } else {
      CommasSplit(p, q, j + 1);
      assert CommaBefore(d, j) == CommaBefore(p, j);
      assert d[j] == p[j];
    }
  }

  /** The pattern-based insertion and the reference grouping agree. */
  lemma {:induction false} CommasIsGroup(d: string)
    ensures Commas(d) == Group(d)
    decreases |d|
  {
    if |d| <= 3 {
      ShortHasNoCommas(d, 0);
    } else {
      var p, q := d[..|d| - 3], d[|d| - 3..];
      assert d == p + q;
      CommasSplit(p, q, 0);
      CommasIsGroup(p);
    }
  }

  lemma {:induction false} GroupStrips(d: string)
    requires AllDigits(d)
    ensures StripCommas(Group(d)) == d
    decreases |d|, 1
  {
    if |d| <= 3 {
      DigitsHaveNoCommas(d);
    } else {
      GroupStep(d);
    }
  }

  /** One step of the grouping: the last three digits come back after the rest. */
  lemma {:induction false} GroupStep(d: string)
    requires AllDigits(d) && |d| > 3
    ensures StripCommas(Group(d)) == d
    decreases |d|, 0
  {
    var p, q := d[..|d| - 3], d[|d| - 3..];
    DigitsSplit(d, |d| - 3);
    GroupStrips(p);
    assert Group(d) == Group(p) + "," + q;
    StripJoined(Group(p), p, q);
    assert p + q == d;
  }

  lemma DigitsSplit(d: string, k: nat)
    requires AllDigits(d) && k <= |d|
    ensures AllDigits(d[..k]) && AllDigits(d[k..])
  {
    assert forall i :: 0 <= i < |d| - k ==> d[k..][i] == d[k + i];
  }

  /** Deleting the commas of `g + "," + q`, where `q` is digits, keeps `q` whole. */
  lemma StripJoined(g: string, p: string, q: string)
    requires StripCommas(g) == p && AllDigits(q)
    ensures StripCommas(g + "," + q) == p + q
  {
    WhereAppend(g + ",", q, NotComma);
    WhereSnoc(g, ',', NotComma);
    DigitsHaveNoCommas(q);
  }

  lemma DigitsHaveNoCommas(d: string)
    requires AllDigits(d)
    ensures StripCommas(d) == d
  {
    WhereAll(d, NotComma);
  }

  lemma {:induction false} GroupWellGrouped(d: string)
    requires |d| > 0 && AllDigits(d)
    ensures WellGrouped(Group(d))
    decreases |d|
  {
    if |d| > 3 {
      var p, q := d[..|d| - 3], d[|d| - 3..];
      GroupWellGrouped(p);
      GroupedJoin(Group(p), q);
    }
  }

  /** A well-grouped string, a comma and three more digits are well grouped. */
  lemma GroupedJoin(g: string, q: string)
    requires WellGrouped(g) && |q| == 3 && AllDigits(q)
    ensures WellGrouped(g + "," + q)
  {
    var s := g + "," + q;
    forall i | 0 <= i < |s|
      ensures s[i] == ',' <==> (|s| - i) % 4 == 0
      ensures s[i] != ',' ==> IsDigit(s[i])
    {
      if i < |g| {
        assert s[i] == g[i];
      } else if i > |g| {
        assert s[i] == q[i - |g| - 1];
      }
    }
  }

  /** A `YYYY-MM-DD` rendering: ten characters with hyphens at positions 4 and 7. */
  predicate DateShaped(r: string) {
    |r| == 10 && r[4] == '-' && r[7] == '-'
  }

  /** A `YYYY-MM-DD HH:mm` rendering: sixteen characters with the date, a space and a colon at 13. */
  predicate DateTimeShaped(r: string) {
    |r| == 16 && DateShaped(r[..10]) && r[10] == ' ' && r[13] == ':'
  }

  /** The characters a date rendering took from its input. */
  function DateDigits(r: string): string
    requires |r| >= 10
  {
    r[0..4] + r[5..7] + r[8..10]
  }

  /** The characters a date-and-time rendering took from its input. */
  function DateTimeDigits(r: string): string
    requires |r| >= 16
  {
    DateDigits(r) + r[11..13] + r[14..16]
  }

  /** Year, month and day of a compact timestamp, joined by hyphens. */
  function DatePart(s: string): (r: string)
    requires |s| >= 8
    ensures DateShaped(r) && DateDigits(r) == s[..8]
  {
    var r := s[0..4] + "-" + s[4..6] + "-" + s[6..8];
    assert r[0..4] == s[0..4] && r[5..7] == s[4..6] && r[8..10] == s[6..8];
    assert s[..8] == s[0..4] + s[4..6] + s[6..8];
    r
  }

  /** The date, then hour and minute joined by a colon. */
  function DateTimePart(s: string): (r: string)
    requires |s| >= 12
    ensures DateTimeShaped(r) && DateTimeDigits(r) == s[..12]
  {
    var date := DatePart(s);
    var r := date + " " + s[8..10] + ":" + s[10..12];
    assert r[..10] == date && r[0..4] == date[0..4] && r[5..7] == date[5..7] && r[8..10] == date[8..10];
    assert r[11..13] == s[8..10] && r[14..16] == s[10..12];
    assert s[..12] == s[..8] + s[8..10] + s[10..12];
    r
  }

  /**
   * The goods table's `formatDate`: "-" for a missing value or one under 8 characters; a date from
   * the first 8 characters below 12 characters; a date and time from the first 12 otherwise.
   */
  function TableDate(s: Option<string>): (r: string)
    ensures s.None? || |s.value| < 8 ==> r == "-"
    ensures s.Some? && 8 <= |s.value| < 12 ==> DateShaped(r) && DateDigits(r) == s.value[..8]
    ensures s.Some? && |s.value| >= 12 ==> DateTimeShaped(r) && DateTimeDigits(r) == s.value[..12]
  {
    match s
    case None => "-"
    case Some(v) =>
      if |v| < 8 then "-"
      else if |v| >= 12 then DateTimePart(v)
      else DatePart(v)
  }

  /** The goods card's `formatDate`: "-" for a missing value or one under 12 characters, else a date and time. */
  function CardDate(s: Option<string>): (r: string)
    ensures s.None? || |s.value| < 12 ==> r == "-"
    ensures s.Some? && |s.value| >= 12 ==> DateTimeShaped(r) && DateTimeDigits(r) == s.value[..12]
  {
    match s
    case None => "-"
    case Some(v) => if |v| < 12 then "-" else DateTimePart(v)
  }

  /** The mobile card's `formatDate`: "-" for a missing value or one under 8 characters, else only the date. */
  function MobileDate(s: Option<string>): (r: string)
    ensures s.None? || |s.value| < 8 ==> r == "-"
    ensures s.Some? && |s.value| >= 8 ==> DateShaped(r) && DateDigits(r) == s.value[..8]
  {
    match s
    case None => "-"
    case Some(v) => if |v| < 8 then "-" else DatePart(v)
  }

  /**
   * How the three variants relate: the card agrees with the table from 12 characters on and shows
   * "-" for 8 to 11 where the table shows a date; the mobile card shows the table's date part.
   */
  lemma DateVariants(v: string)
    ensures |v| >= 12 ==> CardDate(Some(v)) == TableDate(Some(v))
    ensures 8 <= |v| < 12 ==> CardDate(Some(v)) == "-" && TableDate(Some(v)) != "-"
    ensures |v| >= 8 ==> |TableDate(Some(v))| >= 10 && MobileDate(Some(v)) == TableDate(Some(v))[..10]
  {
    if |v| >= 12 {
      assert DateTimePart(v)[..10] == DatePart(v);
    }
  }

  /** Characters past the minutes (seconds, say) never reach the output. */
  lemma TrailingIgnored(v: string)
    requires |v| >= 12
    ensures TableDate(Some(v)) == TableDate(Some(v[..12]))
    ensures CardDate(Some(v)) == CardDate(Some(v[..12]))
    ensures MobileDate(Some(v)) == MobileDate(Some(v[..8]))
  {
    assert DateTimePart(v) == DateTimePart(v[..12]);
    assert DatePart(v) == DatePart(v[..8]);
  }
}

=== FILE: forms.dfy ===
/**
 * The account forms' client-side checks: what the register form and the profile form reject before
 * any request, and which request they send otherwise.
 */
module Forms {

  import opened Wrappers
  import opened Text
  import Users

  /** What a submit handler does: reject with a message, or send one request. */
  datatype Submission<R> = Rejected(message: string) | Send(request: R)

  /** The register form's four fields. */
  datatype RegisterForm = RegisterForm(email: string, password: string, passwordConfirm: string, username: string)

  /** What the register call receives. */
  datatype RegisterRequest = RegisterRequest(email: string, password: string, username: string)

  const PasswordMismatch: string := "비밀번호가 일치하지 않습니다."
  const PasswordTooShort: string := "비밀번호는 최소 6자 이상이어야 합니다."
  const UsernameTooShort: string := "사용자명은 최소 2자 이상이어야 합니다."

  /**
   * The register form's `handleSubmit`: a confirmation that differs is rejected first, then a
   * password under 6 characters, then a username under 2; otherwise email, password and username are sent.
   */
  function SubmitRegister(f: RegisterForm): (r: Submission<RegisterRequest>)
    ensures r.Send? <==> f.password == f.passwordConfirm && |f.password| >= 6 && |f.username| >= 2
    ensures f.password != f.passwordConfirm ==> r == Rejected(PasswordMismatch)
    ensures f.password == f.passwordConfirm && |f.password| < 6 ==> r == Rejected(PasswordTooShort)
    ensures f.password == f.passwordConfirm && |f.password| >= 6 && |f.username| < 2 ==> r == Rejected(UsernameTooShort)
    ensures r.Send? ==> r.request == RegisterRequest(f.email, f.password, f.username)
  {
    if f.password != f.passwordConfirm then Rejected(PasswordMismatch)
    else if |f.password| < 6 then Rejected(PasswordTooShort)
    else if |f.username| < 2 then Rejected(UsernameTooShort)
    else Send(RegisterRequest(f.email, f.password, f.username))
  }

  /** The confirmation only gates the request: two accepted forms that differ in it alone send the same request. */
  lemma ConfirmationNotSent(f: RegisterForm, confirm: string)
    requires SubmitRegister(f).Send? && SubmitRegister(f.(passwordConfirm := confirm)).Send?
    ensures SubmitRegister(f) == SubmitRegister(f.(passwordConfirm := confirm))
  {
  }

  /** The profile form: the username (null when the profile had none) and three password fields. */
  datatype ProfileForm = ProfileForm(username: Option<string>, currentPassword: string, newPassword: string, confirmPassword: string)

  const NewPasswordMismatch: string := "새 비밀번호가 일치하지 않습니다."
  const CurrentPasswordRequired: string := "현재 비밀번호를 입력해주세요."

  /**
   * The profile form's `handleUpdateSubmit`: with a new password, a differing confirmation is
   * rejected first and an empty current password next. The request always carries the username and
   * carries the two passwords only when a new one was typed; absent fields arrive as null.
   */
  function SubmitProfile(f: ProfileForm): (r: Submission<Users.UpdateRequest>)
    ensures f.newPassword != "" && f.newPassword != f.confirmPassword ==> r == Rejected(NewPasswordMismatch)
    ensures f.newPassword != "" && f.newPassword == f.confirmPassword && f.currentPassword == "" ==>
              r == Rejected(CurrentPasswordRequired)
    ensures r.Send? <==> f.newPassword == "" || (f.newPassword == f.confirmPassword && f.currentPassword != "")
    ensures r.Send? ==>
      && r.request.username == f.username
      && (r.request.newPassword.Some? <==> f.newPassword != "")
      && (r.request.currentPassword.Some? <==> f.newPassword != "")
      && (f.newPassword != "" ==> r.request.newPassword == Some(f.newPassword) && r.request.currentPassword == Some(f.currentPassword))
  {
    if f.newPassword != "" && f.newPassword != f.confirmPassword then Rejected(NewPasswordMismatch)
    else if f.newPassword != "" && f.currentPassword == "" then Rejected(CurrentPasswordRequired)
    else if f.newPassword != "" then Send(Users.UpdateRequest(f.username, Some(f.currentPassword), Some(f.newPassword)))
    else Send(Users.UpdateRequest(f.username, None, None))
  }

  /** After a successful update the three password fields are emptied and the username stays. */
  function AfterUpdate(f: ProfileForm): (r: ProfileForm)
    ensures r.username == f.username
    ensures r.currentPassword == "" && r.newPassword == "" && r.confirmPassword == ""
  {
    f.(currentPassword := "", newPassword := "", confirmPassword := "")
  }

  /** Submitting again right after a success sends the username alone. */
  lemma ResubmitSendsNameOnly(f: ProfileForm)
    ensures SubmitProfile(AfterUpdate(f)) == Send(Users.UpdateRequest(f.username, None, None))
  {
  }

  /**
   * The form checks for an empty field, the service for a blank one: a current password of spaces
   * passes the form and the service then rejects the change.
   */
  lemma BlankCurrentPasswordReachesService(f: ProfileForm, t: Users.Table, id: int, enc: Users.Encoder, now: int)
    requires Users.Valid(t) && Users.FindById(t, id).Some?
    requires f.newPassword == f.confirmPassword && !IsBlank(f.newPassword)
    requires f.currentPassword != "" && IsBlank(f.currentPassword)
    ensures SubmitProfile(f).Send?
    ensures Users.UpdateUser(t, id, SubmitProfile(f).request, enc, now).0 == Failure(Users.CurrentPasswordMissing)
  {
  }

  /**
   * A new password of spaces passes the form, yet the service ignores it: every stored password
   * stays as it was.
   */
  lemma BlankNewPasswordIgnored(f: ProfileForm, t: Users.Table, id: int, enc: Users.Encoder, now: int, i: nat)
    requires Users.Valid(t) && i < |t.rows|
    requires f.newPassword == f.confirmPassword && f.currentPassword != "" && IsBlank(f.newPassword)
    ensures SubmitProfile(f).Send?
    ensures Users.UpdateUser(t, id, SubmitProfile(f).request, enc, now).1.rows[i].password == t.rows[i].password
  {
    Users.UpdateWithoutNewPassword(t, id, SubmitProfile(f).request, enc, now, i);
  }
}

=== FILE: freshest.dfy ===
/**
 * The scheduler's selection of the freshest record per listing: items are grouped by goods number
 * (or, lacking one, by the decimal form of the history number), each group keeps the item with the
 * strictly greatest history number, groups keep the order in which their key was first seen, and at
 * most one hundred survivors are returned.
 */
module FreshestSelection {

  import opened Wrappers
  import opened Text
  import opened GoodsModel
  import KeyedSeq

  /** The most items a sync cycle keeps. */
  const Limit: nat := 100

  /** The grouping key: the goods number, or else `String.valueOf` of the history number. */
  function Key(g: Goods): string {
    match g.goodsNo
    case Some(no) => no
    case None => NullableLongString(g.historyNo)
  }

  /** Items without a goods number share a key exactly when their history numbers agree; all that lack both share "null". */
  lemma KeyOfHistory(a: Goods, b: Goods)
    requires a.goodsNo.None? && b.goodsNo.None?
    ensures Key(a) == Key(b) <==> a.historyNo == b.historyNo
    ensures a.historyNo.None? ==> Key(a) == "null"
  {
    if a.historyNo.Some? && b.historyNo.Some? && Key(a) == Key(b) {
      IntStringInjective(a.historyNo.value, b.historyNo.value);
    } else if a.historyNo.Some? {
      NullKeyDistinct(a.historyNo.value);
    } else if b.historyNo.Some? {
      NullKeyDistinct(b.historyNo.value);
    }
  }

  /** The history number a comparison uses: null counts as 0. */
  function History(g: Goods): int {
    g.historyNo.GetOr(0)
  }

  /** `isNewer`: strictly greater history number. */
  predicate IsNewer(candidate: Goods, existing: Goods) {
    History(candidate) > History(existing)
  }

  /** Every entry of the table is filed under its own item's key. */
  ghost predicate KeyedByItem(t: seq<(string, Goods)>) {
    forall i :: 0 <= i < |t| ==> t[i].0 == Key(t[i].1)
  }

  /** One iteration of the grouping loop: put the item when its key is new or it is newer than the kept one. */
  function Absorb(t: seq<(string, Goods)>, g: Goods): (r: seq<(string, Goods)>)
    requires KeyedSeq.DistinctKeys(t) && KeyedByItem(t)
    ensures KeyedSeq.DistinctKeys(r) && KeyedByItem(r)
    ensures KeyedSeq.HasKey(t, Key(g)) ==> |r| == |t|
    ensures !KeyedSeq.HasKey(t, Key(g)) ==> r == t + [(Key(g), g)]
    ensures forall i :: 0 <= i < |t| ==> r[i].0 == t[i].0
    ensures forall i :: 0 <= i < |r| ==> r[i] == (Key(g), g) || (i < |t| && r[i] == t[i])
  {
    var k := Key(g);
    match KeyedSeq.IndexOf(t, k)
    case None => KeyedSeq.Put(t, k, g)
    case Some(p) => if IsNewer(g, t[p].1) then KeyedSeq.Put(t, k, g) else t
  }

  /** The `LinkedHashMap` after the loop over `items`. */
  function Group(items: seq<Goods>): (t: seq<(string, Goods)>)
    ensures KeyedSeq.DistinctKeys(t) && KeyedByItem(t)
    ensures |t| <= |items|
  {
    if |items| == 0 then []
    else Absorb(Group(items[..|items| - 1]), items[|items| - 1])
  }

  /** The set of keys the items produce. */
  ghost function KeySet(items: seq<Goods>): set<string> {
    set j | 0 <= j < |items| :: Key(items[j])
  }

  /** `selectTop100`: an empty list for null or empty input, else the first hundred group survivors. */
  function SelectTop100(items: Option<seq<Goods>>): (r: seq<Goods>)
    ensures items.None? || |items.value| == 0 ==> r == []
    ensures |r| <= Limit
  {
    if items.None? || |items.value| == 0 then []
    else
      var survivors := KeyedSeq.Values(Group(items.value));
      survivors[..if |survivors| < Limit then |survivors| else Limit]
  }

  /** The table holds a key iff some item produces it. */
  lemma {:induction false} GroupKeys(items: seq<Goods>, k: string)
    ensures KeyedSeq.HasKey(Group(items), k) <==> exists j :: 0 <= j < |items| && Key(items[j]) == k
  {
    if |items| > 0 {
      var init := items[..|items| - 1];
      var x := items[|items| - 1];
      var t := Group(init);
      GroupKeys(init, k);
      AbsorbHasKey(t, x, k);
      SomeKeyOfSnoc(items, init, Key, k);
    }
  }

  /** Some item of a non-empty list has key `k` iff one before the last does or the last does. */
  lemma SomeKeyOfSnoc<T>(items: seq<T>, init: seq<T>, key: T -> string, k: string)
    requires |items| > 0 && init == items[..|items| - 1]
    ensures (exists j :: 0 <= j < |items| && key(items[j]) == k) <==>
      (exists j :: 0 <= j < |init| && key(init[j]) == k) || key(items[|items| - 1]) == k
  {
    if exists j :: 0 <= j < |init| && key(init[j]) == k {
      var j :| 0 <= j < |init| && key(init[j]) == k;
      assert items[j] == init[j];
    }
    if exists j :: 0 <= j < |items| && key(items[j]) == k {
      var j :| 0 <= j < |items| && key(items[j]) == k;
      if j < |init| {
        assert init[j] == items[j];
      }
    }
  }

  lemma AbsorbHasKey(t: seq<(string, Goods)>, g: Goods, k: string)
    requires KeyedSeq.DistinctKeys(t) && KeyedByItem(t)
    ensures KeyedSeq.HasKey(Absorb(t, g), k) <==> KeyedSeq.HasKey(t, k) || k == Key(g)
  {
    var r := Absorb(t, g);
    if KeyedSeq.HasKey(t, k) {
      var i :| 0 <= i < |t| && t[i].0 == k;
      assert r[i].0 == k;
    }
    if k == Key(g) && KeyedSeq.HasKey(t, k) {
    } else if k == Key(g) {
      assert r[|t|].0 == k;
    }
    if KeyedSeq.HasKey(r, k) && k != Key(g) {
      var i :| 0 <= i < |r| && r[i].0 == k;
      assert r[i] == t[i];
    }
  }

  /** Position `j` is where key `k` first appears among the items. */
  ghost predicate FirstAt(items: seq<Goods>, k: string, j: int) {
    0 <= j < |items| && Key(items[j]) == k && forall j' :: 0 <= j' < j ==> Key(items[j']) != k
  }

  /** Groups are ordered by the first appearance of their key; a replaced survivor does not move its group. */
  lemma {:induction false} GroupOrder(items: seq<Goods>)
    ensures var t := Group(items);
      forall i, i', j, j' :: 0 <= i < i' < |t| && FirstAt(items, t[i].0, j) && FirstAt(items, t[i'].0, j') ==> j < j'
  {
    if |items| > 0 {
      var init := items[..|items| - 1];
      var x := items[|items| - 1];
      var t0 := Group(init);
      var t := Group(items);
      GroupOrder(init);
      forall i, i', j, j' | 0 <= i < i' < |t| && FirstAt(items, t[i].0, j) && FirstAt(items, t[i'].0, j')
        ensures j < j'
      {
        assert i < |t0|;
        FirstInInit(items, t0, t[i].0, j, i);
        if i' < |t0| {
          FirstInInit(items, t0, t[i'].0, j', i');
          assert FirstAt(init, t0[i].0, j) && FirstAt(init, t0[i'].0, j');
        } else {
          GroupKeys(init, Key(x));
          assert t == t0 + [(Key(x), x)];
          assert items[|init|] == x;
          assert forall w :: 0 <= w < |init| ==> items[w] == init[w];
          assert j' == |init|;
        }
      }
    }
  }

  /** A key already in the table of the first `|items| - 1` items first appears among those items. */
  lemma FirstInInit(items: seq<Goods>, t0: seq<(string, Goods)>, k: string, j: int, i: nat)
    requires |items| > 0 && t0 == Group(items[..|items| - 1])
    requires i < |t0| && t0[i].0 == k && FirstAt(items, k, j)
    ensures j < |items| - 1 && FirstAt(items[..|items| - 1], k, j)
  {
    var init := items[..|items| - 1];
    GroupKeys(init, k);
    var w :| 0 <= w < |init| && Key(init[w]) == k;
    assert items[w] == init[w];
  }

  /**
   * `g` is the survivor the loop keeps for key `k`: no item with that key has a greater history number,
   * and `g` sits at a position where every earlier item with that key has a strictly smaller one.
   */
  ghost predicate Champion(items: seq<Goods>, k: string, g: Goods) {
    && Key(g) == k
    && (forall j :: 0 <= j < |items| && Key(items[j]) == k ==> History(items[j]) <= History(g))
    && exists j :: 0 <= j < |items| && items[j] == g &&
         forall j' :: 0 <= j' < j && Key(items[j']) == k ==> History(items[j']) < History(g)
  }

  /** Each group keeps its greatest history number, the earliest such item on a tie. */
  lemma {:induction false} GroupChampions(items: seq<Goods>)
    ensures var t := Group(items); forall i :: 0 <= i < |t| ==> Champion(items, t[i].0, t[i].1)
  {
    if |items| > 0 {
      var init := items[..|items| - 1];
      var x := items[|items| - 1];
      var t0 := Group(init);
      var t := Group(items);
      GroupChampions(init);
      forall i | 0 <= i < |t|
        ensures Champion(items, t[i].0, t[i].1)
      {
        ChampionStep(items, t0, i);
      }
    }
  }

  lemma ChampionStep(items: seq<Goods>, t0: seq<(string, Goods)>, i: nat)
    requires |items| > 0 && t0 == Group(items[..|items| - 1])
    requires forall i :: 0 <= i < |t0| ==> Champion(items[..|items| - 1], t0[i].0, t0[i].1)
    requires i < |Group(items)|
    ensures Champion(items, Group(items)[i].0, Group(items)[i].1)
  {
    var init := items[..|items| - 1];
    var x := items[|items| - 1];
    var k := Key(x);
    var t := Group(items);
    assert t == Absorb(t0, x);
    match KeyedSeq.IndexOf(t0, k)
    case None =>
      assert t == t0 + [(k, x)];
      if i < |t0| {
        assert t[i] == t0[i];
        ChampionKept(items, t0, i);
      } else {
        assert t[i] == (k, x);
        ChampionReplaced(items, t0);
      }
    case Some(p) =>
      if IsNewer(x, t0[p].1) {
        assert t == t0[p := (k, x)];
        if i == p {
          ChampionReplaced(items, t0);
        } else {
          assert t0[i].0 != t0[p].0;
          ChampionKept(items, t0, i);
        }
      } else {
        assert t == t0;
        if i != p {
          assert t0[i].0 != t0[p].0;
        }
        ChampionKept(items, t0, i);
      }
  }

  /** A survivor that the last item does not displace stays the survivor. */
  lemma ChampionKept(items: seq<Goods>, t0: seq<(string, Goods)>, i: nat)
    requires |items| > 0 && i < |t0| && Champion(items[..|items| - 1], t0[i].0, t0[i].1)
    requires Key(items[|items| - 1]) == t0[i].0 ==> History(items[|items| - 1]) <= History(t0[i].1)
    ensures Champion(items, t0[i].0, t0[i].1)
  {
    var init := items[..|items| - 1];
    var x := items[|items| - 1];
    var k := t0[i].0;
    var g := t0[i].1;
    var jw :| 0 <= jw < |init| && init[jw] == g &&
      forall j' :: 0 <= j' < jw && Key(init[j']) == k ==> History(init[j']) < History(g);
    assert forall j :: 0 <= j < |init| ==> items[j] == init[j];
    assert items[|init|] == x;
    assert items[jw] == g;
  }

  /** The last item, when it is put, is the new survivor of its key. */
  lemma ChampionReplaced(items: seq<Goods>, t0: seq<(string, Goods)>)
    requires |items| > 0 && t0 == Group(items[..|items| - 1])
    requires forall i :: 0 <= i < |t0| ==> Champion(items[..|items| - 1], t0[i].0, t0[i].1)
    requires var x := items[|items| - 1];
      KeyedSeq.HasKey(t0, Key(x)) ==> IsNewer(x, t0[KeyedSeq.IndexOf(t0, Key(x)).value].1)
    ensures Champion(items, Key(items[|items| - 1]), items[|items| - 1])
  {
    var init := items[..|items| - 1];
    var x := items[|items| - 1];
    var k := Key(x);
    if KeyedSeq.HasKey(t0, k) {
      var p := KeyedSeq.IndexOf(t0, k).value;
      assert Champion(init, t0[p].0, t0[p].1);
    } else {
      GroupKeys(init, k);
    }
    LastIsChampion(items, init);
  }

  /** The last item, newer than every earlier item with its key, is the survivor of that key. */
  lemma LastIsChampion(items: seq<Goods>, init: seq<Goods>)
    requires |items| > 0 && init == items[..|items| - 1]
    requires var x := items[|items| - 1];
      forall j :: 0 <= j < |init| && Key(init[j]) == Key(x) ==> History(init[j]) < History(x)
    ensures Champion(items, Key(items[|items| - 1]), items[|items| - 1])
  {
    assert forall j :: 0 <= j < |init| ==> items[j] == init[j];
  }

  /** Table entries after grouping items whose keys are already pairwise distinct: one per item, in order. */
  lemma {:induction false} GroupOfDistinct(items: seq<Goods>)
    requires forall j, j' :: 0 <= j < j' < |items| ==> Key(items[j]) != Key(items[j'])
    ensures KeyedSeq.Values(Group(items)) == items
  {
    if |items| > 0 {
      var init := items[..|items| - 1];
      var x := items[|items| - 1];
      GroupOfDistinct(init);
      GroupKeys(init, Key(x));
      assert KeyedSeq.Values(Group(items)) == KeyedSeq.Values(Group(init)) + [x];
    }
  }

  /** The grouped table has one entry per distinct key. */
  lemma GroupSize(items: seq<Goods>)
    ensures |Group(items)| == |KeySet(items)|
  {
    var t := Group(items);
    KeyedSeq.DistinctKeysCard(t);
    var tk := set i | 0 <= i < |t| :: t[i].0;
    forall k | k in KeySet(items)
      ensures k in tk
    {
      GroupKeys(items, k);
      var i :| 0 <= i < |t| && t[i].0 == k;
    }
    forall k | k in tk
      ensures k in KeySet(items)
    {
      GroupKeys(items, k);
    }
    assert tk == KeySet(items);
  }

  /** The selection has `min(100, number of distinct keys)` items. */
  lemma SelectLength(items: seq<Goods>)
    ensures |SelectTop100(Some(items))| == if |KeySet(items)| < Limit then |KeySet(items)| else Limit
  {
    GroupSize(items);
  }

  /**
   * Every selected item is the survivor of its key (so it occurs in the input), and the selected items
   * have pairwise distinct keys.
   */
  lemma SelectSurvivors(items: seq<Goods>)
    ensures var r := SelectTop100(Some(items));
      forall i :: 0 <= i < |r| ==> Champion(items, Key(r[i]), r[i])
    ensures var r := SelectTop100(Some(items));
      forall i, i' :: 0 <= i < i' < |r| ==> Key(r[i]) != Key(r[i'])
  {
    GroupChampions(items);
    var t := Group(items);
    var r := SelectTop100(Some(items));
    forall i | 0 <= i < |r|
      ensures Champion(items, Key(r[i]), r[i])
    {
      SelectedEntry(items, i);
    }
    SelectDistinctKeys(items);
  }

  /** The selected items have pairwise distinct keys. */
  lemma SelectDistinctKeys(items: seq<Goods>)
    ensures var r := SelectTop100(Some(items));
      forall i, i' :: 0 <= i < i' < |r| ==> Key(r[i]) != Key(r[i'])
  {
    var r := SelectTop100(Some(items));
    forall i, i' | 0 <= i < i' < |r|
      ensures Key(r[i]) != Key(r[i'])
    {
      SelectedEntry(items, i);
      SelectedEntry(items, i');
    }
  }

  /** The `i`-th selected item is the `i`-th survivor of the table, filed under its own key. */
  lemma SelectedEntry(items: seq<Goods>, i: nat)
    requires i < |SelectTop100(Some(items))|
    ensures var t := Group(items);
      i < |t| && SelectTop100(Some(items))[i] == t[i].1 && Key(t[i].1) == t[i].0
  {
  }

  /** Selected items appear in the order their keys first appear in the input. */
  lemma SelectOrder(items: seq<Goods>)
    ensures var r := SelectTop100(Some(items));
      forall i, i', j, j' :: 0 <= i < i' < |r| && FirstAt(items, Key(r[i]), j) && FirstAt(items, Key(r[i']), j') ==> j < j'
  {
    GroupOrder(items);
    var r := SelectTop100(Some(items));
    forall i, i', j, j' | 0 <= i < i' < |r| && FirstAt(items, Key(r[i]), j) && FirstAt(items, Key(r[i']), j')
      ensures j < j'
    {
      SelectedEntry(items, i);
      SelectedEntry(items, i');
    }
  }

  /** Selecting from a selection changes nothing. */
  lemma SelectIdempotent(items: Option<seq<Goods>>)
    ensures SelectTop100(Some(SelectTop100(items))) == SelectTop100(items)
  {
    var r := SelectTop100(items);
    if |r| > 0 {
      SelectDistinctKeys(items.value);
      GroupOfDistinct(r);
      assert KeyedSeq.Values(Group(r)) == r;
    }
  }
}

=== FILE: goods.dfy ===
/**
 * Record shapes of one listing: the decoded wire record of the external listings API, and the
 * internal `Goods` record the sync works on. Every field may be absent (null).
 */
module GoodsModel {

  import opened Wrappers

  /** One `<item>` of the XML response, bound field by name. */
  datatype ItemRaw = ItemRaw(
    historyNo: Option<int>,         // CLTR_HSTR_NO
    goodsNo: Option<string>,        // CLTR_MNMT_NO
    goodsName: Option<string>,      // CLTR_NM
    goodsDetail: Option<string>,    // GOODS_NM
    appraisalPrice: Option<int>,    // APSL_ASES_AVG_AMT
    minBidPrice: Option<int>,       // MIN_BID_PRC
    bidStartDate: Option<string>,   // PBCT_BEGN_DTM
    bidCloseDate: Option<string>,   // PBCT_CLS_DTM
    noticeNo: Option<string>,       // PBCT_NO
    statusName: Option<string>,     // PBCT_CLTR_STAT_NM
    address: Option<string>,        // LDNM_ADRS
    roadAddress: Option<string>,    // NMRD_ADRS
    saleTypeCode: Option<string>,   // DPSL_MTD_CD
    saleTypeName: Option<string>,   // DPSL_MTD_NM
    bidMethodName: Option<string>,  // BID_MTD_NM
    categoryName: Option<string>,   // CTGR_FULL_NM
    inquiryCount: Option<int>,      // IQRY_CNT
    favoriteCount: Option<int>,     // USCBD_CNT
    feeRate: Option<string>,        // FEE_RATE
    imageFiles: Option<string>      // CLTR_IMG_FILES
  )

  datatype HeaderRaw = HeaderRaw(resultCode: Option<string>, resultMsg: Option<string>)

  /** `<body>`: a possibly absent item list whose entries may themselves be null. */
  datatype BodyRaw = BodyRaw(
    items: Option<seq<Option<ItemRaw>>>,
    numOfRows: Option<int>,
    pageNo: Option<int>,
    totalCount: Option<int>
  )

  datatype ResponseRaw = ResponseRaw(header: Option<HeaderRaw>, body: Option<BodyRaw>)

  /** The internal listing record. */
  datatype Goods = Goods(
    historyNo: Option<int>,
    goodsNo: Option<string>,
    goodsName: Option<string>,
    goodsDetail: Option<string>,
    appraisalPrice: Option<int>,
    minBidPrice: Option<int>,
    bidStartDate: Option<string>,
    bidCloseDate: Option<string>,
    noticeNo: Option<string>,
    statusName: Option<string>,
    address: Option<string>,
    roadAddress: Option<string>,
    saleTypeCode: Option<string>,
    saleTypeName: Option<string>,
    bidMethodName: Option<string>,
    categoryName: Option<string>,
    inquiryCount: Option<int>,
    favoriteCount: Option<int>,
    feeRate: Option<string>,
    imageFiles: Option<string>
  )

  datatype Header = Header(resultCode: Option<string>, resultMsg: Option<string>)

  /** The mapped body; its item list is never null. */
  datatype Body = Body(items: seq<Goods>, numOfRows: Option<int>, pageNo: Option<int>, totalCount: Option<int>)

  datatype GoodsResponse = GoodsResponse(header: Option<Header>, body: Option<Body>)
}

=== FILE: goods_table.dfy ===
/**
 * The goods table's view state: the sort icon shown in a column header and the expanded key. A row
 * renders expanded when its history number equals that key, so when the key is null every row with
 * a null history number renders expanded.
 */
module GoodsTableView {

  import opened Wrappers
  import opened ListPage

  const Unsorted: string := "⇅"
  const Ascending: string := "↑"
  const Descending: string := "↓"

  /** `getSortIcon`: a neutral icon on every column but the sorted one, which shows its direction. */
  function SortIcon(s: SortState, field: string): (icon: string)
    ensures icon == Unsorted <==> s.field != field
    ensures icon == Ascending <==> s.field == field && s.order == Asc
    ensures icon == Descending <==> s.field == field && s.order == Desc
  {
    assert Unsorted[0] != Ascending[0] && Unsorted[0] != Descending[0] && Ascending[0] != Descending[0];
    if s.field != field then Unsorted
    else match s.order
      case Asc => Ascending
      case Desc => Descending
  }

  /**
   * A click on a header changes that header's icon and leaves every other header neutral: the sort
   * toggle and the icon agree.
   */
  lemma ClickChangesIcon(s: SortState, field: string, other: string)
    requires other != field
    ensures SortIcon(HandleSort(s, field), field) != SortIcon(s, field)
    ensures SortIcon(HandleSort(s, field), field) != Unsorted
    ensures SortIcon(HandleSort(s, field), other) == Unsorted
  {
  }

  /**
   * `handleRowClick`: clicking the expanded row collapses it; clicking any other row expands that
   * one instead. Rows are keyed by history number, which may be null, and so may the expanded key.
   */
  function RowClick(expanded: Option<int>, item: Option<int>): (r: Option<int>)
    ensures expanded == item ==> r == None
    ensures expanded != item ==> r == item
  {
    if expanded == item then None else item
  }

  /**
   * Two clicks on the same row: an expanded row comes back expanded, and any other row ends collapsed
   * with nothing expanded.
   */
  lemma RowClickTwice(expanded: Option<int>, item: Option<int>)
    ensures RowClick(RowClick(expanded, item), item) == (if expanded == item then expanded else None)
  {
  }
}

=== FILE: keyed.dfy ===
/**
 * Insertion-ordered tables of keyed entries with pairwise distinct keys. They stand for Java's
 * `LinkedHashMap` and for SQL tables whose rows come back in insertion order.
 */
module KeyedSeq {

  import opened Wrappers

  /**
   * Rows newest first: the rows in reverse table order. Over rows whose `created_at` never decreases
   * along the table, this is one order `ORDER BY created_at DESC` may return; rows with equal
   * timestamps come latest-inserted first.
   */
  function Newest<T>(s: seq<T>): (r: seq<T>)
    ensures |r| == |s|
    ensures forall i :: 0 <= i < |s| ==> r[i] == s[|s| - 1 - i]
  {
    if |s| == 0 then [] else [s[|s| - 1]] + Newest(s[..|s| - 1])
  }

  /** Timestamps that never decrease along the rows. */
  ghost predicate Ascending<T>(s: seq<T>, stamp: T -> int) {
    forall i, j :: 0 <= i < j < |s| ==> stamp(s[i]) <= stamp(s[j])
  }

  /** Reversing rows whose timestamps never decrease lists them by timestamp, latest first. */
  lemma NewestDescending<T>(s: seq<T>, stamp: T -> int)
    requires Ascending(s, stamp)
    ensures var r := Newest(s); forall i, j :: 0 <= i < j < |r| ==> stamp(r[i]) >= stamp(r[j])
  {
    var r := Newest(s);
    forall i, j | 0 <= i < j < |r|
      ensures stamp(r[i]) >= stamp(r[j])
    {
      assert r[i] == s[|s| - 1 - i] && r[j] == s[|s| - 1 - j];
    }
  }

  /** Keys of the table, in table order. */
  function Keys<K, V>(t: seq<(K, V)>): (r: seq<K>)
    ensures |r| == |t|
    ensures forall i :: 0 <= i < |t| ==> r[i] == t[i].0
  {
    seq(|t|, i requires 0 <= i < |t| => t[i].0)
  }

  /** Values of the table, in table order (`LinkedHashMap.values()`). */
  function Values<K, V>(t: seq<(K, V)>): (r: seq<V>)
    ensures |r| == |t|
    ensures forall i :: 0 <= i < |t| ==> r[i] == t[i].1
  {
    seq(|t|, i requires 0 <= i < |t| => t[i].1)
  }

  ghost predicate DistinctKeys<K, V>(t: seq<(K, V)>) {
    forall i, j :: 0 <= i < j < |t| ==> t[i].0 != t[j].0
  }

  predicate HasKey<K(==), V>(t: seq<(K, V)>, k: K) {
    exists i :: 0 <= i < |t| && t[i].0 == k
  }

  /** Position of the first entry with key `k`, searching from `from`. */
  function IndexFrom<K(==), V>(t: seq<(K, V)>, k: K, from: nat): (r: Option<nat>)
    requires from <= |t|
    ensures r.None? ==> forall i :: from <= i < |t| ==> t[i].0 != k
    ensures r.Some? ==> from <= r.value < |t| && t[r.value].0 == k
    ensures r.Some? ==> forall i :: from <= i < r.value ==> t[i].0 != k
    decreases |t| - from
  {
    if from == |t| then None
    else if t[from].0 == k then Some(from)
    else IndexFrom(t, k, from + 1)
  }

  /** `map.get(k)` as a position: the first entry with key `k`, if any. */
  function IndexOf<K(==), V>(t: seq<(K, V)>, k: K): (r: Option<nat>)
    ensures r.None? <==> !HasKey(t, k)
    ensures r.Some? ==> r.value < |t| && t[r.value].0 == k
    ensures r.Some? ==> forall i :: 0 <= i < r.value ==> t[i].0 != k
  {
    IndexFrom(t, k, 0)
  }

  /**
   * `map.put(k, v)` on a `LinkedHashMap`: an existing key keeps its position and takes the new value,
   * a new key goes to the end.
   */
  function Put<K(==), V>(t: seq<(K, V)>, k: K, v: V): (r: seq<(K, V)>)
    ensures HasKey(t, k) ==> |r| == |t|
    ensures !HasKey(t, k) ==> r == t + [(k, v)]
    ensures forall i :: 0 <= i < |t| && t[i].0 != k ==> r[i] == t[i]
    ensures exists i :: 0 <= i < |r| && r[i] == (k, v)
    ensures DistinctKeys(t) ==> DistinctKeys(r)
    ensures forall i :: 0 <= i < |r| ==> r[i] == (k, v) || (i < |t| && r[i] == t[i])
    ensures forall i :: 0 <= i < |t| ==> r[i].0 == t[i].0
  {
    match IndexOf(t, k)
    case None => var r := t + [(k, v)]; assert r[|t|] == (k, v); r
    case Some(p) => var r := t[p := (k, v)]; assert r[p] == (k, v); r
  }

  /** `Put` adds exactly the written key to the key set. */
  lemma PutHasKey<K, V>(t: seq<(K, V)>, k: K, v: V, k': K)
    ensures HasKey(Put(t, k, v), k') <==> HasKey(t, k') || k' == k
  {
    var r := Put(t, k, v);
    if HasKey(t, k') {
      var i :| 0 <= i < |t| && t[i].0 == k';
      assert r[i].0 == k';
    }
    if HasKey(r, k') && k' != k {
      var i :| 0 <= i < |r| && r[i].0 == k';
      assert i < |t| && r[i] == t[i];
    }
  }

  /** In a table with distinct keys, the entry holding a key is the only one. */
  lemma UniqueEntry<K, V>(t: seq<(K, V)>, i: nat, j: nat)
    requires DistinctKeys(t)
    requires i < |t| && j < |t| && t[i].0 == t[j].0
    ensures i == j
  {
  }

  /** Lookup after `Put`: the written key maps to the written value, every other key is untouched. */
  lemma PutLookup<K, V>(t: seq<(K, V)>, k: K, v: V, k': K)
    requires DistinctKeys(t)
    ensures var r := Put(t, k, v);
      && (k' == k ==> IndexOf(r, k').Some? && r[IndexOf(r, k').value].1 == v)
      && (k' != k ==> (IndexOf(r, k').Some? <==> IndexOf(t, k').Some?))
      && (k' != k && IndexOf(t, k').Some? ==> IndexOf(r, k') == IndexOf(t, k'))
  {
    var r := Put(t, k, v);
    if k' == k {
      var p := IndexOf(r, k').value;
      var w :| 0 <= w < |r| && r[w] == (k, v);
      UniqueEntry(r, p, w);
    } else if IndexOf(t, k').Some? {
      var p := IndexOf(t, k').value;
      assert r[p] == t[p];
      assert HasKey(r, k');
      var q := IndexOf(r, k').value;
      assert r[q].0 == k' && q < |t| && r[q] == t[q];
      UniqueEntry(t, p, q);
    }
  }

  /** The number of distinct keys of a table with distinct keys is its length. */
  lemma {:induction false} DistinctKeysCard<K, V>(t: seq<(K, V)>)
    requires DistinctKeys(t)
    ensures |set i | 0 <= i < |t| :: t[i].0| == |t|
  {
    if |t| > 0 {
      var u := t[..|t| - 1];
      DistinctKeysCard(u);
      var su := set i | 0 <= i < |u| :: u[i].0;
      var st := set i | 0 <= i < |t| :: t[i].0;
      assert st == su + {t[|t| - 1].0};
      assert t[|t| - 1].0 !in su;
    }
  }
}

=== FILE: list_page.dfy ===
/**
 * The list page's pure logic: dropping empty filters before a query, the page count, the window of
 * page buttons, the sort toggle and the client-side comparator.
 */
module ListPage {

  import opened Wrappers
  import opened Tables

  /** Rows per page. */
  const RowsPerPage: int := 20

  /** The most page buttons shown at once. */
  const MaxPages: int := 10

  /** A filter entry: field name and the text typed into it. */
  type Filter = (string, string)

  function HasValue(e: Filter): bool {
    e.1 != ""
  }

  /**
   * `cleanFilters`: keep the entries whose value is not the empty string, in their order. Only the
   * empty string is dropped; a value of spaces is sent as it is.
   */
  function CleanFilters(filters: seq<Filter>): (r: seq<Filter>)
    ensures |r| <= |filters|
    ensures forall e :: e in r <==> e in filters && e.1 != ""
  {
    Where(filters, HasValue)
  }

  /** Cleaning is idempotent: a cleaned filter set has nothing left to drop. */
  lemma CleanFiltersIdempotent(filters: seq<Filter>)
    ensures CleanFilters(CleanFilters(filters)) == CleanFilters(filters)
  {
    WhereWhere(filters, HasValue, HasValue);
  }

  /** Nothing is dropped exactly when every entry has a non-empty value. */
  lemma CleanFiltersKeepsAll(filters: seq<Filter>)
    ensures CleanFilters(filters) == filters <==> forall i :: 0 <= i < |filters| ==> filters[i].1 != ""
  {
    WhereKeepsAll(filters, HasValue);
    if forall i :: 0 <= i < |filters| ==> filters[i].1 != "" {
      WhereAll(filters, HasValue);
    }
  }

  /**
   * The count shown: the reported `totalCount`, unless it is missing or 0, in which case the number
   * of items on the page.
   */
  function DisplayedCount(totalCount: Option<int>, items: nat): (n: int)
    ensures totalCount.Some? && totalCount.value != 0 ==> n == totalCount.value
    ensures totalCount.None? || totalCount == Some(0) ==> n == items
  {
    match totalCount
    case Some(c) => if c != 0 then c else items
    case None => items
  }

  /**
   * `Math.ceil(totalCount / 20)`, written as a negated floor of the negated quotient: the least
   * number of 20-row pages that holds every row.
   */
  function TotalPages(totalCount: int): (pages: int)
    ensures pages * RowsPerPage >= totalCount
    ensures (pages - 1) * RowsPerPage < totalCount
    ensures totalCount >= 0 ==> pages >= 0
    ensures totalCount > 0 ==> pages >= 1
  {
    -((-totalCount) / RowsPerPage)
  }

  function Max(a: int, b: int): int {
    if a >= b then a else b
  }

  function Min(a: int, b: int): int {
    if a <= b then a else b
  }

  /**
   * The first and last page of the window: it starts at page 1 or later, ends at `totalPages` or
   * earlier, spans up to ten pages, and covers `pageNo` when that is a real page.
   */
  function Window(pageNo: int, totalPages: int): (w: (int, int))
    ensures 1 <= w.0 && w.1 <= totalPages
    ensures Max(0, w.1 - w.0 + 1) == Max(0, Min(MaxPages, totalPages))
    ensures 1 <= pageNo <= totalPages ==> w.0 <= pageNo <= w.1
  {
    var start := Max(1, pageNo - MaxPages / 2);
    var end := Min(totalPages, start + MaxPages - 1);
    if end - start + 1 < MaxPages then (Max(1, end - MaxPages + 1), end) else (start, end)
  }

  /**
   * `getPageNumbers`: a run of consecutive page numbers around `pageNo`, at most ten long, inside
   * `[1, totalPages]`, that holds `pageNo` whenever it is a real page.
   */
  method GetPageNumbers(pageNo: int, totalPages: int) returns (pages: seq<int>)
    ensures forall k :: 0 <= k < |pages| ==> pages[k] == pages[0] + k
    ensures forall k :: 0 <= k < |pages| ==> 1 <= pages[k] <= totalPages
    ensures |pages| == Max(0, Min(MaxPages, totalPages))
    ensures 1 <= pageNo <= totalPages ==> exists k :: 0 <= k < |pages| && pages[k] == pageNo
  {
    var w := Window(pageNo, totalPages);
    var startPage, endPage := w.0, w.1;
    pages := [];
    var i := startPage;
    while i <= endPage
      invariant startPage <= i <= Max(startPage, endPage + 1)
      invariant |pages| == i - startPage
      invariant forall k :: 0 <= k < |pages| ==> pages[k] == startPage + k
    {
      pages := pages + [i];
      i := i + 1;
    }
    if 1 <= pageNo <= totalPages {
      assert pages[pageNo - startPage] == pageNo;
    }
  }

  /** Sort direction. */
  datatype Order = Asc | Desc

  /** The sort state: the field name (empty when unsorted) and the direction. */
  datatype SortState = SortState(field: string, order: Order)

  /** The page opens unsorted, descending. */
  const InitialSort: SortState := SortState("", Desc)

  /** `handleSort`: the current field flips direction; another field becomes current, descending. */
  function HandleSort(s: SortState, field: string): (r: SortState)
    ensures r.field == field
    ensures s.field == field ==> r.order != s.order
    ensures s.field != field ==> r.order == Desc
  {
    if s.field == field then SortState(field, if s.order == Asc then Desc else Asc)
    else SortState(field, Desc)
  }

  /** Two clicks on the current field restore the state; two clicks on a new field leave it ascending. */
  lemma SortTwice(s: SortState, field: string)
    ensures s.field == field ==> HandleSort(HandleSort(s, field), field) == s
    ensures s.field != field ==> HandleSort(HandleSort(s, field), field) == SortState(field, Asc)
  {
  }

  /** A field value as the browser sees it: a number, a string, or anything else (null, missing). */
  datatype Value = Number(n: int) | Text(s: string) | Other

  /**
   * The comparator handed to `sort`: numbers by difference, strings by the locale comparison (given
   * as a parameter), and any other pairing as equal. Descending swaps the operands.
   */
  function Compare(order: Order, a: Value, b: Value, localeCompare: (string, string) -> int): (c: int)
    ensures a.Number? && b.Number? ==> (c < 0 <==> (if order == Asc then a.n < b.n else b.n < a.n))
    ensures a.Number? && b.Number? ==> (c == 0 <==> a.n == b.n)
    ensures !(a.Number? && b.Number?) && !(a.Text? && b.Text?) ==> c == 0
  {
    match (a, b)
    case (Number(x), Number(y)) => if order == Asc then x - y else y - x
    case (Text(x), Text(y)) => if order == Asc then localeCompare(x, y) else localeCompare(y, x)
    case _ => 0
  }

  /** Descending is ascending with the operands swapped, and on numbers the comparator is antisymmetric. */
  lemma CompareDescIsSwapped(a: Value, b: Value, localeCompare: (string, string) -> int)
    ensures Compare(Desc, a, b, localeCompare) == Compare(Asc, b, a, localeCompare)
    ensures a.Number? && b.Number? ==> Compare(Asc, a, b, localeCompare) == -Compare(Asc, b, a, localeCompare)
  {
  }
}

=== FILE: onbid_api.dfy ===
/**
 * The client of the external listings API: query construction from optional filters, the HTTP fetch,
 * XML decoding and the wrapping of their failures into business errors. URI parsing with the GET
 * request, the XML decoder and the URL encoder are opaque functions of the `Endpoint`.
 */
module OnbidApi {

  import opened Wrappers
  import opened Text
  import opened GoodsModel
  import opened Errors
  import OnbidMapping

  /** The twelve optional filters of the full `getGoodsList`, in argument order. */
  datatype Filters = Filters(
    ctgrHirkId: Option<string>,
    sido: Option<string>,
    sgk: Option<string>,
    emd: Option<string>,
    goodsPriceFrom: Option<string>,
    goodsPriceTo: Option<string>,
    openPriceFrom: Option<string>,
    openPriceTo: Option<string>,
    cltrNm: Option<string>,
    pbctBegnDtm: Option<string>,
    pbctClsDtm: Option<string>,
    cltrMnmtNo: Option<string>
  )

  /** The optional query parameters, one per filter. */
  datatype FilterName =
    | CtgrHirkId | Sido | Sgk | Emd | GoodsPriceFrom | GoodsPriceTo
    | OpenPriceFrom | OpenPriceTo | CltrNm | PbctBegnDtm | PbctClsDtm | CltrMnmtNo

  /** Number of optional filters. */
  const FilterCount: nat := 12

  /** The filter appended at position `k`: the order in which the source appends the optional parameters. */
  function FilterAt(k: nat): FilterName
    requires k < FilterCount
  {
    if k == 0 then CtgrHirkId else if k == 1 then Sido else if k == 2 then Sgk else if k == 3 then Emd
    else if k == 4 then GoodsPriceFrom else if k == 5 then GoodsPriceTo else if k == 6 then OpenPriceFrom
    else if k == 7 then OpenPriceTo else if k == 8 then CltrNm else if k == 9 then PbctBegnDtm
    else if k == 10 then PbctClsDtm else CltrMnmtNo
  }

  /** Position of a filter in the append order. */
  function Rank(n: FilterName): (k: nat)
    ensures k < FilterCount && FilterAt(k) == n
  {
    match n
    case CtgrHirkId => 0
    case Sido => 1
    case Sgk => 2
    case Emd => 3
    case GoodsPriceFrom => 4
    case GoodsPriceTo => 5
    case OpenPriceFrom => 6
    case OpenPriceTo => 7
    case CltrNm => 8
    case PbctBegnDtm => 9
    case PbctClsDtm => 10
    case CltrMnmtNo => 11
  }

  /** The query name of each filter. */
  function FilterKey(n: FilterName): string {
    match n
    case CtgrHirkId => "CTGR_HIRK_ID"
    case Sido => "SIDO"
    case Sgk => "SGK"
    case Emd => "EMD"
    case GoodsPriceFrom => "GOODS_PRICE_FROM"
    case GoodsPriceTo => "GOODS_PRICE_TO"
    case OpenPriceFrom => "OPEN_PRICE_FROM"
    case OpenPriceTo => "OPEN_PRICE_TO"
    case CltrNm => "CLTR_NM"
    case PbctBegnDtm => "PBCT_BEGN_DTM"
    case PbctClsDtm => "PBCT_CLS_DTM"
    case CltrMnmtNo => "CLTR_MNMT_NO"
  }

  /** The only filters whose values go through `URLEncoder.encode`. */
  predicate IsEncoded(n: FilterName) {
    n in {Sido, Sgk, Emd, CltrNm, CltrMnmtNo}
  }

  /** The argument that feeds each filter parameter. */
  function FilterValue(f: Filters, n: FilterName): Option<string> {
    match n
    case CtgrHirkId => f.ctgrHirkId
    case Sido => f.sido
    case Sgk => f.sgk
    case Emd => f.emd
    case GoodsPriceFrom => f.goodsPriceFrom
    case GoodsPriceTo => f.goodsPriceTo
    case OpenPriceFrom => f.openPriceFrom
    case OpenPriceTo => f.openPriceTo
    case CltrNm => f.cltrNm
    case PbctBegnDtm => f.pbctBegnDtm
    case PbctClsDtm => f.pbctClsDtm
    case CltrMnmtNo => f.cltrMnmtNo
  }

  /** `isNotEmpty`: not null and not blank after `trim()`. */
  predicate IsNotEmpty(s: Option<string>) {
    s.Some? && !IsBlank(s.value)
  }

  /** A filter is dropped exactly when it is null or consists only of characters `trim()` removes. */
  lemma IsNotEmptyMeaning(s: Option<string>)
    ensures !IsNotEmpty(s) <==> s.None? || forall i :: 0 <= i < |s.value| ==> IsTrimmed(s.value[i])
  {
    if s.Some? {
      BlankIffAllTrimmed(s.value);
    }
  }

  datatype ParamName = ServiceKey | NumOfRows | PageNo | SaleMethod | FilterParam(filter: FilterName)

  /** One `name=value` query parameter. */
  datatype Param = Param(name: ParamName, value: string)

  function ParamKey(n: ParamName): string {
    match n
    case ServiceKey => "serviceKey"
    case NumOfRows => "numOfRows"
    case PageNo => "pageNo"
    case SaleMethod => "DPSL_MTD_CD"
    case FilterParam(f) => FilterKey(f)
  }

  /** The four parameters every request starts with: the key, the page size, the page and the sale-not-lease code. */
  function FixedParams(apiKey: string, numOfRows: int, pageNo: int): seq<Param> {
    [Param(ServiceKey, apiKey), Param(NumOfRows, IntString(numOfRows)),
     Param(PageNo, IntString(pageNo)), Param(SaleMethod, "0001")]
  }

  /** The non-empty filters at or after position `from`, in `FilterOrder`. */
  function Selected(f: Filters, from: nat): (sel: seq<FilterName>)
    requires from <= FilterCount
    ensures forall k :: 0 <= k < |sel| ==> from <= Rank(sel[k]) && IsNotEmpty(FilterValue(f, sel[k]))
    ensures forall n :: from <= Rank(n) && IsNotEmpty(FilterValue(f, n)) ==> n in sel
    ensures forall k, k' :: 0 <= k < k' < |sel| ==> Rank(sel[k]) < Rank(sel[k'])
    decreases FilterCount - from
  {
    if from == FilterCount then []
    else
      var n := FilterAt(from);
      var rest := Selected(f, from + 1);
      RankDetermines(from);
      if IsNotEmpty(FilterValue(f, n)) then [n] + rest else rest
  }

  /** Only the filter at a position has that position. */
  lemma RankDetermines(k: nat)
    requires k < FilterCount
    ensures Rank(FilterAt(k)) == k
    ensures forall m :: Rank(m) == k ==> m == FilterAt(k)
  {
    forall m | Rank(m) == k
      ensures m == FilterAt(k)
    {
      assert FilterAt(Rank(m)) == m;
    }
  }

  /** The parameter appended for a filter: encoded or raw, never trimmed. */
  function FilterParamOf(n: FilterName, value: string, urlEncode: string -> string): Param {
    Param(FilterParam(n), if IsEncoded(n) then urlEncode(value) else value)
  }

  /** One parameter per non-empty filter, in the append order. */
  function FilterParams(f: Filters, urlEncode: string -> string): (r: seq<Param>)
    ensures |r| == |Selected(f, 0)|
    ensures forall k :: 0 <= k < |r| ==> r[k].name == FilterParam(Selected(f, 0)[k])
    ensures forall k :: 0 <= k < |r| ==>
              r[k] == FilterParamOf(Selected(f, 0)[k], FilterValue(f, Selected(f, 0)[k]).value, urlEncode)
  {
    var sel := Selected(f, 0);
    seq(|sel|, k requires 0 <= k < |sel| => FilterParamOf(sel[k], FilterValue(f, sel[k]).value, urlEncode))
  }

  /** The parameter sequence of `getGoodsList`: the fixed four, then the filter parameters. */
  function QueryParams(apiKey: string, pageNo: int, numOfRows: int, f: Filters, urlEncode: string -> string)
    : seq<Param>
  {
    FixedParams(apiKey, numOfRows, pageNo) + FilterParams(f, urlEncode)
  }

  /** A filter's parameter is appended iff the filter is not null and not blank. */
  lemma FilterParamsPresence(f: Filters, urlEncode: string -> string, n: FilterName)
    ensures var r := FilterParams(f, urlEncode);
      (exists k :: 0 <= k < |r| && r[k].name == FilterParam(n)) <==> IsNotEmpty(FilterValue(f, n))
  {
    NamesOf(Selected(f, 0), FilterParams(f, urlEncode), n);
  }

  /** A parameter list that names the selected filters one by one names exactly the selected filters. */
  lemma NamesOf(sel: seq<FilterName>, r: seq<Param>, n: FilterName)
    requires |r| == |sel| && forall k :: 0 <= k < |r| ==> r[k].name == FilterParam(sel[k])
    ensures (exists k :: 0 <= k < |r| && r[k].name == FilterParam(n)) <==> n in sel
  {
    if n in sel {
      var k :| 0 <= k < |sel| && sel[k] == n;
      assert r[k].name == FilterParam(n);
    }
  }

  /** An appended filter parameter carries the filter's untrimmed value, encoded or raw. */
  lemma FilterParamsValue(f: Filters, urlEncode: string -> string, n: FilterName)
    ensures var r := FilterParams(f, urlEncode);
      forall k :: 0 <= k < |r| && r[k].name == FilterParam(n) ==>
        r[k] == FilterParamOf(n, FilterValue(f, n).value, urlEncode)
  {
  }

  /** Filter parameters follow the append order, so none is appended twice. */
  lemma FilterParamsOrdered(f: Filters, urlEncode: string -> string)
    ensures var r := FilterParams(f, urlEncode);
      forall k, k' :: 0 <= k < k' < |r| ==> r[k].name.FilterParam? && Rank(r[k].name.filter) < Rank(r[k'].name.filter)
  {
  }

  /** The query is the four fixed parameters followed by the filter parameters. */
  lemma QueryParamsShape(apiKey: string, pageNo: int, numOfRows: int, f: Filters, urlEncode: string -> string)
    ensures var r := QueryParams(apiKey, pageNo, numOfRows, f, urlEncode);
      |r| == 4 + |FilterParams(f, urlEncode)| && r[..4] == FixedParams(apiKey, numOfRows, pageNo)
    ensures var r := QueryParams(apiKey, pageNo, numOfRows, f, urlEncode);
      forall i :: 0 <= i < 4 ==> !r[i].name.FilterParam?
    ensures var r := QueryParams(apiKey, pageNo, numOfRows, f, urlEncode);
      forall i :: 4 <= i < |r| ==> r[i] == FilterParams(f, urlEncode)[i - 4]
  {
    FixedThenFilters(FixedParams(apiKey, numOfRows, pageNo), FilterParams(f, urlEncode));
  }

  lemma FixedThenFilters(fixed: seq<Param>, fp: seq<Param>)
    requires |fixed| == 4 && forall i :: 0 <= i < 4 ==> !fixed[i].name.FilterParam?
    ensures var r := fixed + fp; |r| == 4 + |fp| && r[..4] == fixed
    ensures var r := fixed + fp; forall i :: 0 <= i < 4 ==> !r[i].name.FilterParam?
    ensures var r := fixed + fp; forall i :: 4 <= i < |r| ==> r[i] == fp[i - 4]
  {
    ConcatParts(fixed, fp);
  }

  lemma ConcatParts<T>(a: seq<T>, b: seq<T>)
    ensures (a + b)[..|a|] == a
    ensures forall i :: 0 <= i < |a| ==> (a + b)[i] == a[i]
    ensures forall i :: |a| <= i < |a + b| ==> (a + b)[i] == b[i - |a|]
  {
  }

  /** No fixed parameter is a filter parameter. */
  lemma FixedHasNoFilters(apiKey: string, numOfRows: int, pageNo: int)
    ensures var fixed := FixedParams(apiKey, numOfRows, pageNo);
      forall i :: 0 <= i < |fixed| ==> !fixed[i].name.FilterParam?
  {
  }

  /** After the four fixed parameters, a filter's parameter appears iff the filter is not empty. */
  lemma QueryFilterPresence(apiKey: string, pageNo: int, numOfRows: int, f: Filters, urlEncode: string -> string,
                            n: FilterName)
    ensures var r := QueryParams(apiKey, pageNo, numOfRows, f, urlEncode);
      (exists i :: 0 <= i < |r| && r[i].name == FilterParam(n)) <==> IsNotEmpty(FilterValue(f, n))
  {
    var fixed := FixedParams(apiKey, numOfRows, pageNo);
    var fp := FilterParams(f, urlEncode);
    FixedHasNoFilters(apiKey, numOfRows, pageNo);
    FilterParamsPresence(f, urlEncode, n);
    OffsetNames(fixed, fp, QueryParams(apiKey, pageNo, numOfRows, f, urlEncode), n, IsNotEmpty(FilterValue(f, n)));
  }

  /**
   * A filter's parameter carries the untrimmed value, URL-encoded exactly for SIDO, SGK, EMD, CLTR_NM and
   * CLTR_MNMT_NO.
   */
  lemma QueryFilterValue(apiKey: string, pageNo: int, numOfRows: int, f: Filters, urlEncode: string -> string,
                         n: FilterName)
    requires IsNotEmpty(FilterValue(f, n))
    ensures var r := QueryParams(apiKey, pageNo, numOfRows, f, urlEncode);
      forall i :: 0 <= i < |r| && r[i].name == FilterParam(n) ==>
        r[i].value == (if IsEncoded(n) then urlEncode(FilterValue(f, n).value) else FilterValue(f, n).value)
  {
    var fixed := FixedParams(apiKey, numOfRows, pageNo);
    var fp := FilterParams(f, urlEncode);
    FixedHasNoFilters(apiKey, numOfRows, pageNo);
    FilterParamsValue(f, urlEncode, n);
    OffsetValues(fixed, fp, QueryParams(apiKey, pageNo, numOfRows, f, urlEncode), n,
                 FilterParamOf(n, FilterValue(f, n).value, urlEncode));
  }

  /** Parameters that are not filters in front of a list do not change which filters it names. */
  lemma OffsetNames(fixed: seq<Param>, fp: seq<Param>, r: seq<Param>, n: FilterName, present: bool)
    requires r == fixed + fp
    requires forall i :: 0 <= i < |fixed| ==> !fixed[i].name.FilterParam?
    requires (exists k :: 0 <= k < |fp| && fp[k].name == FilterParam(n)) <==> present
    ensures (exists i :: 0 <= i < |r| && r[i].name == FilterParam(n)) <==> present
  {
    if exists i :: 0 <= i < |r| && r[i].name == FilterParam(n) {
      var i :| 0 <= i < |r| && r[i].name == FilterParam(n);
      assert r[i] == fp[i - |fixed|];
    }
    if exists k :: 0 <= k < |fp| && fp[k].name == FilterParam(n) {
      var k :| 0 <= k < |fp| && fp[k].name == FilterParam(n);
      assert r[|fixed| + k] == fp[k];
    }
  }

  /** ... and do not change the parameter a filter is sent as. */
  lemma OffsetValues(fixed: seq<Param>, fp: seq<Param>, r: seq<Param>, n: FilterName, p: Param)
    requires r == fixed + fp
    requires forall i :: 0 <= i < |fixed| ==> !fixed[i].name.FilterParam?
    requires forall k :: 0 <= k < |fp| && fp[k].name == FilterParam(n) ==> fp[k] == p
    ensures forall i :: 0 <= i < |r| && r[i].name == FilterParam(n) ==> r[i] == p
  {
    forall i | 0 <= i < |r| && r[i].name == FilterParam(n)
      ensures r[i] == p
    {
      assert r[i] == fp[i - |fixed|];
    }
  }

  /** Appended filter parameters come in the fixed append order, so no filter is appended twice. */
  lemma QueryOrder(apiKey: string, pageNo: int, numOfRows: int, f: Filters, urlEncode: string -> string,
                   i: nat, i': nat, n: FilterName, n': FilterName)
    requires var r := QueryParams(apiKey, pageNo, numOfRows, f, urlEncode);
      i < i' < |r| && r[i].name == FilterParam(n) && r[i'].name == FilterParam(n')
    ensures Rank(n) < Rank(n')
  {
    var fp := FilterParams(f, urlEncode);
    QueryParamsShape(apiKey, pageNo, numOfRows, f, urlEncode);
    FilterParamsOrdered(f, urlEncode);
    assert 4 <= i;
  }

  /** The four-argument overload: all other filters are null. */
  function ShortFilters(ctgrHirkId: Option<string>, sido: Option<string>): Filters {
    Filters(ctgrHirkId, sido, None, None, None, None, None, None, None, None, None, None)
  }

  /** Only the first two filters can be non-empty in the short overload. */
  lemma ShortSelection(ctgr: Option<string>, sido: Option<string>)
    ensures var sel := Selected(ShortFilters(ctgr, sido), 0);
      |sel| <= 2 && forall k :: 0 <= k < |sel| ==> sel[k] in {CtgrHirkId, Sido}
  {
    var f := ShortFilters(ctgr, sido);
    OnlyFirstTwo(f, Selected(f, 0));
  }

  lemma OnlyFirstTwo(f: Filters, sel: seq<FilterName>)
    requires forall n :: n !in {CtgrHirkId, Sido} ==> FilterValue(f, n).None?
    requires forall k :: 0 <= k < |sel| ==> IsNotEmpty(FilterValue(f, sel[k]))
    requires forall k, k' :: 0 <= k < k' < |sel| ==> Rank(sel[k]) < Rank(sel[k'])
    ensures |sel| <= 2 && forall k :: 0 <= k < |sel| ==> sel[k] in {CtgrHirkId, Sido}
  {
    forall k | 0 <= k < |sel|
      ensures Rank(sel[k]) < 2
    {
      assert sel[k] in {CtgrHirkId, Sido};
    }
    if |sel| > 0 {
      RankAtLeastIndex(sel);
      assert Rank(sel[|sel| - 1]) >= |sel| - 1;
    }
  }

  /** In a strictly rank-increasing selection, the `k`-th filter has rank at least `k`. */
  lemma {:induction false} RankAtLeastIndex(sel: seq<FilterName>)
    requires forall k, k' :: 0 <= k < k' < |sel| ==> Rank(sel[k]) < Rank(sel[k'])
    ensures forall k :: 0 <= k < |sel| ==> Rank(sel[k]) >= k
  {
    if |sel| > 0 {
      var init := sel[..|sel| - 1];
      RankAtLeastIndex(init);
      assert forall k :: 0 <= k < |init| ==> init[k] == sel[k];
      if |sel| > 1 {
        assert Rank(sel[|sel| - 2]) < Rank(sel[|sel| - 1]);
      }
    }
  }

  /** With every filter null, the query is just the four fixed parameters. */
  lemma NoFilterQuery(apiKey: string, pageNo: int, numOfRows: int, f: Filters, urlEncode: string -> string)
    requires forall n :: FilterValue(f, n).None?
    ensures QueryParams(apiKey, pageNo, numOfRows, f, urlEncode) == FixedParams(apiKey, numOfRows, pageNo)
  {
    var sel := Selected(f, 0);
    assert |sel| == 0 || IsNotEmpty(FilterValue(f, sel[0]));
    assert FilterParams(f, urlEncode) == [];
  }

  /** Through the four-argument overload only CTGR_HIRK_ID and SIDO can follow the fixed parameters. */
  lemma ShortOverloadParams(apiKey: string, pageNo: int, numOfRows: int, ctgr: Option<string>, sido: Option<string>,
                            urlEncode: string -> string)
    ensures var r := QueryParams(apiKey, pageNo, numOfRows, ShortFilters(ctgr, sido), urlEncode);
      |r| <= 6 && forall i :: 4 <= i < |r| ==> r[i].name in {FilterParam(CtgrHirkId), FilterParam(Sido)}
  {
    var f := ShortFilters(ctgr, sido);
    QueryParamsShape(apiKey, pageNo, numOfRows, f, urlEncode);
    ShortSelection(ctgr, sido);
  }

  /** One parameter as it appears in the URL. */
  function Render(p: Param): string {
    ParamKey(p.name) + "=" + p.value
  }

  /** Items rendered one by one and joined with `&`. */
  function JoinWith<T>(ps: seq<T>, render: T -> string): string {
    if |ps| == 0 then ""
    else JoinWith(ps[..|ps| - 1], render) + (if |ps| == 1 then "" else "&") + render(ps[|ps| - 1])
  }

  /** `name=value` pairs joined with `&`. */
  function JoinParams(ps: seq<Param>): string {
    JoinWith(ps, Render)
  }

  /** The request URL: the configured endpoint, `?`, then the joined parameters. */
  function RequestUrl(apiUrl: string, ps: seq<Param>): string {
    apiUrl + "?" + JoinParams(ps)
  }

  lemma PrefixOfConcat(a: string, b: string)
    ensures (a + b)[..|a|] == a
  {
  }

  /** Joining a longer list extends the joined prefix. */
  lemma {:induction false} JoinPrefix<T>(ps: seq<T>, render: T -> string, n: nat)
    requires n <= |ps|
    ensures |JoinWith(ps[..n], render)| <= |JoinWith(ps, render)|
    ensures JoinWith(ps, render)[..|JoinWith(ps[..n], render)|] == JoinWith(ps[..n], render)
    decreases |ps|
  {
    if n == |ps| {
      assert ps[..n] == ps;
    } else {
      var front := ps[..|ps| - 1];
      JoinPrefix(front, render, n);
      assert front[..n] == ps[..n];
      var a := JoinWith(front, render);
      var b := (if |ps| == 1 then "" else "&") + render(ps[|ps| - 1]);
      assert JoinWith(ps, render) == a + b;
      PrefixOfConcat(a, b);
      var c := JoinWith(ps[..n], render);
      assert a[..|c|] == c;
      assert (a + b)[..|c|] == a[..|c|];
    }
  }

  /** A URL built from more parameters extends the URL built from a prefix of them. */
  lemma UrlExtends<T>(apiUrl: string, a: seq<T>, b: seq<T>, render: T -> string)
    ensures var short := apiUrl + "?" + JoinWith(a, render);
      var long := apiUrl + "?" + JoinWith(a + b, render);
      |short| <= |long| && long[..|short|] == short
  {
    assert (a + b)[..|a|] == a;
    JoinPrefix(a + b, render, |a|);
    var x := JoinWith(a, render);
    var y := JoinWith(a + b, render);
    var p := apiUrl + "?";
    assert (p + y)[..|p + x|] == p + y[..|x|];
  }

  /** Every request URL starts with the endpoint followed by the four fixed parameters. */
  lemma UrlPrefix(apiUrl: string, apiKey: string, pageNo: int, numOfRows: int, f: Filters, urlEncode: string -> string)
    ensures var fixed := RequestUrl(apiUrl, FixedParams(apiKey, numOfRows, pageNo));
      var url := RequestUrl(apiUrl, QueryParams(apiKey, pageNo, numOfRows, f, urlEncode));
      |fixed| <= |url| && url[..|fixed|] == fixed
  {
    UrlExtends(apiUrl, FixedParams(apiKey, numOfRows, pageNo), FilterParams(f, urlEncode), Render);
  }

  /** The opaque collaborators of the client. */
  datatype Endpoint = Endpoint(
    apiUrl: string,
    apiKey: string,
    /** `URLEncoder.encode(_, UTF_8)`. */
    urlEncode: string -> string,
    /** `URI.create` then `RestTemplate.getForObject`: the (possibly null) body, or the failure's message. */
    httpGet: string -> Result<Option<string>, Option<string>>,
    /** `XmlMapper.readValue`: the decoded (possibly null) response, or the decoder's message. */
    readXml: string -> Result<Option<ResponseRaw>, Option<string>>
  )

  /** The URL the full `getGoodsList` requests. */
  function GoodsListUrl(ep: Endpoint, pageNo: int, numOfRows: int, f: Filters): string {
    RequestUrl(ep.apiUrl, QueryParams(ep.apiKey, pageNo, numOfRows, f, ep.urlEncode))
  }

  /** `getGoodsList`: any failure while building the URI or fetching becomes EXTERNAL_API_ERROR. */
  function GetGoodsList(ep: Endpoint, pageNo: int, numOfRows: int, f: Filters): (r: Result<Option<string>, Exception>)
    ensures var fetched := ep.httpGet(GoodsListUrl(ep, pageNo, numOfRows, f));
      && (fetched.Success? ==> r == Success(fetched.value))
      && (fetched.Failure? ==> r.Failure? && r.error.BusinessException? && r.error.errorCode == ExternalApiError)
  {
    match ep.httpGet(GoodsListUrl(ep, pageNo, numOfRows, f))
    case Success(body) => Success(body)
    case Failure(m) => Failure(Business(ExternalApiError, Some("Onbid API 호출 실패: " + Str(m))))
  }

  /**
   * `parseXmlToGoodsResponse`: a decoder failure becomes XML_PARSE_ERROR. A null body is not a decoder
   * failure: `readValue` rejects it with an unchecked exception that is not wrapped.
   */
  function ParseXml(ep: Endpoint, xml: Option<string>): (r: Result<GoodsModel.GoodsResponse, Exception>)
    ensures xml.None? ==> r.Failure? && r.error.Unchecked?
    ensures xml.Some? && ep.readXml(xml.value).Failure? ==>
              r.Failure? && r.error.BusinessException? && r.error.errorCode == XmlParseError
    ensures xml.Some? && ep.readXml(xml.value).Success? ==>
              r == Success(OnbidMapping.ToDomain(ep.readXml(xml.value).value))
  {
    match xml
    case None => Failure(Unchecked(Some("argument \"content\" is null")))
    case Some(x) =>
      match ep.readXml(x)
      case Failure(m) => Failure(Business(XmlParseError, Some("XML 파싱 실패: " + Str(m))))
      case Success(raw) => Success(OnbidMapping.ToDomain(raw))
  }

  /** `getGoodsListParsed` with all twelve filters. */
  function GetGoodsListParsed(ep: Endpoint, pageNo: int, numOfRows: int, f: Filters)
    : Result<GoodsModel.GoodsResponse, Exception>
  {
    var xml :- GetGoodsList(ep, pageNo, numOfRows, f);
    ParseXml(ep, xml)
  }

  /**
   * `getGoodsItems`: the items of the parsed body, or an empty list when the body is absent. A fetch
   * failure surfaces as EXTERNAL_API_ERROR, a null HTTP body as the decoder's unwrapped unchecked
   * exception, and a decoder failure as XML_PARSE_ERROR.
   */
  function GetGoodsItems(ep: Endpoint, pageNo: int, numOfRows: int, ctgrHirkId: Option<string>, sido: Option<string>)
    : (r: Result<seq<Goods>, Exception>)
    ensures var fetched := ep.httpGet(GoodsListUrl(ep, pageNo, numOfRows, ShortFilters(ctgrHirkId, sido)));
      && (fetched.Failure? ==> r.Failure? && r.error.BusinessException? && r.error.errorCode == ExternalApiError)
      && (fetched.Success? && fetched.value.None? ==> r.Failure? && r.error.Unchecked?)
      && (fetched.Success? && fetched.value.Some? && ep.readXml(fetched.value.value).Failure? ==>
            r.Failure? && r.error.BusinessException? && r.error.errorCode == XmlParseError)
      && (fetched.Success? && fetched.value.Some? && ep.readXml(fetched.value.value).Success? ==>
            var raw := ep.readXml(fetched.value.value).value;
            && (raw.None? || raw.value.body.None? ==> r == Success([]))
            && (raw.Some? && raw.value.body.Some? ==>
                  r == Success(OnbidMapping.ToDomainList(raw.value.body.value.items))))
  {
    var response :- GetGoodsListParsed(ep, pageNo, numOfRows, ShortFilters(ctgrHirkId, sido));
    match response.body
    case None => Success([])
    case Some(b) => Success(b.items)
  }
}

=== FILE: onbid_mapping.dfy ===
/** The null-tolerant conversion of the decoded XML response into the internal response shape. */
module OnbidMapping {

  import opened Wrappers
  import opened GoodsModel

  /** `mapItem`: a field-for-field copy; nothing is validated, a null history number included. */
  function MapItem(raw: ItemRaw): Goods {
    Goods(raw.historyNo, raw.goodsNo, raw.goodsName, raw.goodsDetail, raw.appraisalPrice, raw.minBidPrice,
          raw.bidStartDate, raw.bidCloseDate, raw.noticeNo, raw.statusName, raw.address, raw.roadAddress,
          raw.saleTypeCode, raw.saleTypeName, raw.bidMethodName, raw.categoryName, raw.inquiryCount,
          raw.favoriteCount, raw.feeRate, raw.imageFiles)
  }

  /** The wire record a listing would be decoded from: the reverse of `MapItem`. */
  function ItemOf(g: Goods): ItemRaw {
    ItemRaw(g.historyNo, g.goodsNo, g.goodsName, g.goodsDetail, g.appraisalPrice, g.minBidPrice,
            g.bidStartDate, g.bidCloseDate, g.noticeNo, g.statusName, g.address, g.roadAddress,
            g.saleTypeCode, g.saleTypeName, g.bidMethodName, g.categoryName, g.inquiryCount,
            g.favoriteCount, g.feeRate, g.imageFiles)
  }

  /**
   * `MapItem` loses and invents nothing: it is a bijection between wire records and listings, so every
   * field, a null history number included, passes through unchanged.
   */
  lemma MapItemBijective(raw: ItemRaw, g: Goods)
    ensures ItemOf(MapItem(raw)) == raw
    ensures MapItem(ItemOf(g)) == g
    ensures MapItem(raw).historyNo == raw.historyNo && MapItem(raw).goodsNo == raw.goodsNo
  {
  }

  /** Number of non-null entries. */
  function CountPresent(raws: seq<Option<ItemRaw>>): (n: nat)
    ensures n <= |raws|
  {
    if |raws| == 0 then 0
    else CountPresent(raws[..|raws| - 1]) + (if raws[|raws| - 1].Some? then 1 else 0)
  }

  /**
   * `toDomainList`: a null or empty list maps to an empty list; otherwise the null entries are dropped
   * and each remaining entry is mapped, keeping order.
   */
  function ToDomainList(raws: Option<seq<Option<ItemRaw>>>): (r: seq<Goods>)
    ensures raws.None? ==> r == []
    ensures raws.Some? ==> |r| == CountPresent(raws.value)
    ensures raws.Some? ==> forall i :: 0 <= i < |raws.value| && raws.value[i].Some? ==>
              CountPresent(raws.value[..i]) < |r| && r[CountPresent(raws.value[..i])] == MapItem(raws.value[i].value)
  {
    match raws
    case None => []
    case Some(rs) => MapPresent(rs)
  }

  function MapPresent(rs: seq<Option<ItemRaw>>): (r: seq<Goods>)
    ensures |r| == CountPresent(rs)
    ensures forall i :: 0 <= i < |rs| && rs[i].Some? ==>
              CountPresent(rs[..i]) < |r| && r[CountPresent(rs[..i])] == MapItem(rs[i].value)
  {
    if |rs| == 0 then []
    else
      var front := rs[..|rs| - 1];
      var r := MapPresent(front) + (if rs[|rs| - 1].Some? then [MapItem(rs[|rs| - 1].value)] else []);
      assert forall i :: 0 <= i < |front| ==> rs[..i] == front[..i];
      assert rs[..|rs| - 1] == front;
      r
  }

  /** Every listing the list mapping produces comes from a non-null entry of the input. */
  lemma {:induction false} ToDomainListSources(rs: seq<Option<ItemRaw>>, j: nat)
    requires j < |ToDomainList(Some(rs))|
    ensures exists i :: 0 <= i < |rs| && rs[i].Some? && ToDomainList(Some(rs))[j] == MapItem(rs[i].value)
  {
    var front := rs[..|rs| - 1];
    var r := MapPresent(rs);
    if j < |MapPresent(front)| {
      ToDomainListSources(front, j);
      var i :| 0 <= i < |front| && front[i].Some? && MapPresent(front)[j] == MapItem(front[i].value);
      assert rs[i] == front[i];
      assert r[j] == MapPresent(front)[j];
    } else {
      assert rs[|rs| - 1].Some? && r[j] == MapItem(rs[|rs| - 1].value);
    }
  }

  /** `mapHeader`. */
  function MapHeader(h: Option<HeaderRaw>): (r: Option<Header>)
    ensures r.None? <==> h.None?
    ensures h.Some? ==> r.value.resultCode == h.value.resultCode && r.value.resultMsg == h.value.resultMsg
  {
    match h
    case None => None
    case Some(raw) => Some(Header(raw.resultCode, raw.resultMsg))
  }

  /** `mapBody`. */
  function MapBody(b: Option<BodyRaw>): (r: Option<Body>)
    ensures r.None? <==> b.None?
    ensures b.Some? ==> r.value.items == ToDomainList(b.value.items)
    ensures b.Some? ==> r.value.numOfRows == b.value.numOfRows && r.value.pageNo == b.value.pageNo
                        && r.value.totalCount == b.value.totalCount
  {
    match b
    case None => None
    case Some(raw) => Some(Body(ToDomainList(raw.items), raw.numOfRows, raw.pageNo, raw.totalCount))
  }

  /** `toDomain`: a null response maps to an empty response with neither header nor body. */
  function ToDomain(raw: Option<ResponseRaw>): (r: GoodsResponse)
    ensures raw.None? ==> r.header.None? && r.body.None?
    ensures raw.Some? ==> r.header == MapHeader(raw.value.header) && r.body == MapBody(raw.value.body)
  {
    match raw
    case None => GoodsResponse(None, None)
    case Some(x) => GoodsResponse(MapHeader(x.header), MapBody(x.body))
  }
}

=== FILE: purchase_ledger.dfy ===
/**
 * The purchase ledger: the `purchases` table, the checked purchase service (validation, then a
 * duplicate check, then an insert) and its unchecked variant. Calls run one after another; the
 * check and the insert are separate statements, so exclusivity holds only for sequential use.
 */
module PurchaseLedger {

  import opened Wrappers
  import opened Errors
  import KeyedSeq

  /** A ledger row: generated id, the listing's history number, the price and the status text. */
  datatype Purchase = Purchase(id: int, historyNo: Option<int>, purchasePrice: Option<int>, purchaseStatus: Option<string>)

  /** The table and its auto-increment counter. */
  datatype Ledger = Ledger(rows: seq<Purchase>, nextId: int)

  /** A purchase request; either field may be null. */
  datatype PurchaseRequest = PurchaseRequest(historyNo: Option<int>, purchasePrice: Option<int>)

  /** The status every created purchase gets. */
  const Completed: string := "COMPLETED"

  /** Generated ids increase with insertion order and stay below the counter. */
  ghost predicate Valid(l: Ledger) {
    && (forall i, j :: 0 <= i < j < |l.rows| ==> l.rows[i].id < l.rows[j].id)
    && (forall i :: 0 <= i < |l.rows| ==> l.rows[i].id < l.nextId)
  }

  /** `insert`: one row with a fresh id; nothing makes `history_no` unique. */
  function Insert(l: Ledger, historyNo: Option<int>, price: Option<int>, status: Option<string>): (r: (Ledger, Purchase))
    requires Valid(l)
    ensures Valid(r.0)
    ensures r.0.rows == l.rows + [r.1]
    ensures r.1.historyNo == historyNo && r.1.purchasePrice == price && r.1.purchaseStatus == status
    ensures forall x :: x in l.rows ==> x.id != r.1.id
  {
    var p := Purchase(l.nextId, historyNo, price, status);
    (Ledger(l.rows + [p], l.nextId + 1), p)
  }

  /** The rows with history number `h`, in table order. */
  function RowsFor(rows: seq<Purchase>, h: int): (r: seq<Purchase>)
    ensures forall x :: x in r <==> x in rows && x.historyNo == Some(h)
    ensures (forall i :: 0 <= i < |rows| ==> rows[i].historyNo != Some(h)) ==> r == []
  {
    if |rows| == 0 then []
    else RowsFor(rows[..|rows| - 1], h) + (if rows[|rows| - 1].historyNo == Some(h) then [rows[|rows| - 1]] else [])
  }

  /** `findByHistoryNo`: the rows for that listing, newest first; a null key matches nothing. */
  function FindByHistoryNo(l: Ledger, h: Option<int>): (r: seq<Purchase>)
    ensures forall x :: x in r <==> x in l.rows && h.Some? && x.historyNo == h
  {
    match h
    case None => []
    case Some(v) =>
      var m := RowsFor(l.rows, v);
      var r := KeyedSeq.Newest(m);
      assert forall x :: x in r <==> x in m by {
        forall x | x in m ensures x in r {
          var i :| 0 <= i < |m| && m[i] == x;
          assert r[|m| - 1 - i] == x;
        }
      }
      r
  }

  /** `findAll`: every row, newest first. */
  function FindAll(l: Ledger): (r: seq<Purchase>)
    ensures |r| == |l.rows| && forall x :: x in r <==> x in l.rows
  {
    var r := KeyedSeq.Newest(l.rows);
    assert forall x :: x in l.rows ==> x in r by {
      forall x | x in l.rows ensures x in r {
        var i :| 0 <= i < |l.rows| && l.rows[i] == x;
        assert r[|l.rows| - 1 - i] == x;
      }
    }
    r
  }

  /** `deleteAll`: empty the table and report how many rows went. */
  function DeleteAll(l: Ledger): (r: (Ledger, nat))
    requires Valid(l)
    ensures Valid(r.0) && r.0.rows == [] && r.1 == |FindAll(l)|
  {
    (Ledger([], l.nextId), |l.rows|)
  }

  /** `countByHistoryNo`: `COUNT(*)` over the rows with that history number. */
  function CountByHistoryNo(l: Ledger, h: Option<int>): (n: nat)
    ensures n <= |l.rows|
    ensures n > 0 <==> h.Some? && exists i :: 0 <= i < |l.rows| && l.rows[i].historyNo == h
  {
    match h
    case None => 0
    case Some(v) => CountRows(l.rows, v)
  }

  /** The number of rows with history number `h`: none exactly when no row has it. */
  function CountRows(rows: seq<Purchase>, h: int): (n: nat)
    ensures n <= |rows|
    ensures n == 0 <==> forall i :: 0 <= i < |rows| ==> rows[i].historyNo != Some(h)
  {
    if |rows| == 0 then 0
    else CountRows(rows[..|rows| - 1], h) + (if rows[|rows| - 1].historyNo == Some(h) then 1 else 0)
  }

  /** The count query and the list query agree: the count is the length of the list. */
  lemma CountIsFindLength(l: Ledger, h: Option<int>)
    ensures CountByHistoryNo(l, h) == |FindByHistoryNo(l, h)|
  {
    if h.Some? {
      CountRowsFor(l.rows, h.value);
    }
  }

  lemma {:induction false} CountRowsFor(rows: seq<Purchase>, h: int)
    ensures CountRows(rows, h) == |RowsFor(rows, h)|
  {
    if |rows| > 0 {
      CountRowsFor(rows[..|rows| - 1], h);
    }
  }

  lemma CountRowsSnoc(rows: seq<Purchase>, x: Purchase, h: int)
    ensures CountRows(rows + [x], h) == CountRows(rows, h) + (if x.historyNo == Some(h) then 1 else 0)
  {
    assert (rows + [x])[..|rows|] == rows;
  }

  /** The count is positive exactly when some row carries that history number. */
  lemma CountPositive(l: Ledger, h: int)
    ensures CountByHistoryNo(l, Some(h)) > 0 <==> exists x :: x in l.rows && x.historyNo == Some(h)
  {
    CountIsFindLength(l, Some(h));
    var r := FindByHistoryNo(l, Some(h));
    if |r| > 0 {
      assert r[0] in r;
    }
  }

  /** The error for a missing history number or price. */
  const MissingFields: Exception := Business(InvalidRequest, Some("historyNo와 purchasePrice는 필수입니다."))

  /** The error for a listing that already has a purchase. */
  const AlreadyPurchased: Exception := Business(DuplicatedPurchase, Some("이미 구매가 완료된 물건입니다."))

  /**
   * Checked `createPurchase`: null fields are rejected first, then a listing that already has a
   * purchase, and otherwise one COMPLETED row is inserted. The goods store is never consulted.
   */
  function CreatePurchase(l: Ledger, req: PurchaseRequest): (r: (Result<Purchase, Exception>, Ledger))
    requires Valid(l)
    ensures Valid(r.1)
    ensures req.historyNo.None? || req.purchasePrice.None? ==> r == (Failure(MissingFields), l)
    ensures req.historyNo.Some? && req.purchasePrice.Some? && CountByHistoryNo(l, req.historyNo) > 0 ==>
              r == (Failure(AlreadyPurchased), l)
    ensures r.0.Success? ==>
              && r.1.rows == l.rows + [r.0.value]
              && r.0.value.historyNo == req.historyNo && r.0.value.purchasePrice == req.purchasePrice
              && r.0.value.purchaseStatus == Some(Completed)
  {
    if req.historyNo.None? || req.purchasePrice.None? then (Failure(MissingFields), l)
    else if CountByHistoryNo(l, req.historyNo) > 0 then (Failure(AlreadyPurchased), l)
    else
      var ins := Insert(l, req.historyNo, req.purchasePrice, Some(Completed));
      (Success(ins.1), ins.0)
  }

  /** A complete request for a listing without purchases always succeeds, whatever goods exist. */
  lemma FirstPurchaseSucceeds(l: Ledger, req: PurchaseRequest)
    requires Valid(l)
    requires req.historyNo.Some? && req.purchasePrice.Some?
    requires forall x :: x in l.rows ==> x.historyNo != req.historyNo
    ensures CreatePurchase(l, req).0.Success?
    ensures FindByHistoryNo(CreatePurchase(l, req).1, req.historyNo) == [CreatePurchase(l, req).0.value]
  {
    var h := req.historyNo.value;
    CountPositive(l, h);
    var r := CreatePurchase(l, req);
    OnlyRow(l.rows, r.0.value, h);
    assert KeyedSeq.Newest([r.0.value]) == [r.0.value];
  }

  /** A row appended to rows without its history number is the only row for it. */
  lemma OnlyRow(rows: seq<Purchase>, x: Purchase, h: int)
    requires x.historyNo == Some(h) && forall y :: y in rows ==> y.historyNo != Some(h)
    ensures RowsFor(rows + [x], h) == [x]
  {
    forall i | 0 <= i < |rows|
      ensures rows[i].historyNo != Some(h)
    {
      assert rows[i] in rows;
    }
    assert RowsFor(rows, h) == [];
    RowsForSnoc(rows, x, h);
  }

  lemma RowsForSnoc(rows: seq<Purchase>, x: Purchase, h: int)
    ensures RowsFor(rows + [x], h) == RowsFor(rows, h) + (if x.historyNo == Some(h) then [x] else [])
  {
    assert (rows + [x])[..|rows|] == rows;
  }

  /** At most one purchase per listing (rows without a history number are not constrained). */
  ghost predicate AtMostOnePerListing(l: Ledger) {
    forall i, j :: 0 <= i < j < |l.rows| && l.rows[i].historyNo.Some? ==> l.rows[i].historyNo != l.rows[j].historyNo
  }

  /** Run one after another, checked purchases keep at most one purchase per listing. */
  lemma CreatePreservesAtMostOne(l: Ledger, req: PurchaseRequest)
    requires Valid(l) && AtMostOnePerListing(l)
    ensures AtMostOnePerListing(CreatePurchase(l, req).1)
  {
    var r := CreatePurchase(l, req);
    if r.0.Success? {
      var h := req.historyNo.value;
      CountPositive(l, h);
      forall i, j | 0 <= i < j < |r.1.rows| && r.1.rows[i].historyNo.Some?
        ensures r.1.rows[i].historyNo != r.1.rows[j].historyNo
      {
        if j == |l.rows| {
          assert r.1.rows[i] in l.rows;
        }
      }
    }
  }

  /** `resetAllPurchases`: empty the ledger and report how many rows went. */
  function ResetAllPurchases(l: Ledger): (r: (nat, Ledger))
    requires Valid(l)
    ensures r.1.rows == [] && r.0 == |l.rows|
  {
    var d := DeleteAll(l);
    (d.1, d.0)
  }

  /** Unchecked `createPurchase`: always inserts one COMPLETED row, with no null or duplicate check. */
  function CreatePurchaseUnchecked(l: Ledger, req: PurchaseRequest): (r: (Purchase, Ledger))
    requires Valid(l)
    ensures Valid(r.1) && r.1.rows == l.rows + [r.0]
    ensures r.0.historyNo == req.historyNo && r.0.purchasePrice == req.purchasePrice
    ensures r.0.purchaseStatus == Some(Completed)
  {
    var ins := Insert(l, req.historyNo, req.purchasePrice, Some(Completed));
    (ins.1, ins.0)
  }

  /** Two unchecked purchases of the same listing leave two more rows for it. */
  lemma UncheckedTwiceTwoRows(l: Ledger, req: PurchaseRequest)
    requires Valid(l) && req.historyNo.Some?
    ensures var first := CreatePurchaseUnchecked(l, req);
      var second := CreatePurchaseUnchecked(first.1, req);
      CountByHistoryNo(second.1, req.historyNo) == CountByHistoryNo(l, req.historyNo) + 2
  {
    var first := CreatePurchaseUnchecked(l, req);
    var second := CreatePurchaseUnchecked(first.1, req);
    var h := req.historyNo.value;
    CountRowsSnoc(l.rows, first.0, h);
    CountRowsSnoc(first.1.rows, second.0, h);
  }
}

=== FILE: purchases_page.dfy ===
/**
 * The purchases page's status badge: the label and the colour classes for a purchase status.
 */
module PurchasesPage {

  import opened Wrappers
  import PurchaseLedger

  /** The statuses the badge knows. */
  predicate Known(status: Option<string>) {
    status == Some("COMPLETED") || status == Some("PENDING") || status == Some("CANCELLED")
  }

  const GrayBadge: string := "bg-gray-100 text-gray-800"

  /** `getStatusText`: Korean labels for the known statuses; any other status (null too) as it is. */
  function StatusText(status: Option<string>): (r: Option<string>)
    ensures status == Some("COMPLETED") ==> r == Some("완료")
    ensures status == Some("PENDING") ==> r == Some("대기중")
    ensures status == Some("CANCELLED") ==> r == Some("취소됨")
    ensures Known(status) ==> r.Some? && r != status
    ensures !Known(status) ==> r == status
  {
    match status
    case Some(v) =>
      if v == "COMPLETED" then Some("완료")
      else if v == "PENDING" then Some("대기중")
      else if v == "CANCELLED" then Some("취소됨")
      else status
    case None => status
  }

  /** `getStatusColor`: green, yellow and red for the known statuses; gray for every other. */
  function StatusColor(status: Option<string>): (r: string)
    ensures status == Some("COMPLETED") ==> r == "bg-green-100 text-green-800"
    ensures status == Some("PENDING") ==> r == "bg-yellow-100 text-yellow-800"
    ensures status == Some("CANCELLED") ==> r == "bg-red-100 text-red-800"
    ensures Known(status) <==> r != GrayBadge
  {
    match status
    case Some(v) =>
      if v == "COMPLETED" then "bg-green-100 text-green-800"
      else if v == "PENDING" then "bg-yellow-100 text-yellow-800"
      else if v == "CANCELLED" then "bg-red-100 text-red-800"
      else GrayBadge
    case None => GrayBadge
  }

  /**
   * Both maps treat the same statuses as known: a status gets a translated label exactly when it
   * gets a colour, and the three known statuses get three different labels and colours.
   */
  lemma SameKnownStatuses(a: Option<string>, b: Option<string>)
    ensures StatusText(a) != a <==> StatusColor(a) != GrayBadge
    ensures Known(a) && Known(b) && a != b ==> StatusText(a) != StatusText(b) && StatusColor(a) != StatusColor(b)
  {
  }

  /** Every purchase the checked service creates shows as done, in green. */
  lemma CreatedPurchaseShowsDone()
    ensures StatusText(Some(PurchaseLedger.Completed)) == Some("완료")
    ensures StatusColor(Some(PurchaseLedger.Completed)) == "bg-green-100 text-green-800"
  {
  }
}

=== FILE: replace_store.dfy ===
/**
 * The replace-all goods store: a single `goods` table of six columns plus a generated id and the
 * `created_at` the database stamps, which every save wipes and refills. `now` stands for the database
 * clock, which does not run backwards. Rows come back newest first. A failing statement is chosen by
 * a fault parameter.
 */
module ReplaceStore {

  import opened Wrappers
  import opened Text
  import opened GoodsModel
  import opened Errors
  import KeyedSeq

  /** The six stored columns (`convertToEntity` output, id not yet generated). */
  datatype Entity = Entity(
    historyNo: Option<int>,
    goodsName: Option<string>,
    minBidPrice: Option<int>,
    appraisalPrice: Option<int>,
    bidCloseDate: Option<string>,
    address: Option<string>
  )

  /** A stored row: the generated id, the six columns and the insert time. */
  datatype Row = Row(id: int, cols: Entity, createdAt: int)

  /** The table and the next value of its auto-increment counter. */
  datatype Table = Table(rows: seq<Row>, nextId: int)

  function CreatedAt(x: Row): int {
    x.createdAt
  }

  /**
   * Generated ids increase with insertion order and stay below the counter; insert times never
   * decrease with insertion order.
   */
  ghost predicate Valid(t: Table) {
    && (forall i, j :: 0 <= i < j < |t.rows| ==> t.rows[i].id < t.rows[j].id)
    && (forall i :: 0 <= i < |t.rows| ==> t.rows[i].id < t.nextId)
    && KeyedSeq.Ascending(t.rows, CreatedAt)
  }

  /** No row was inserted after `now`. */
  ghost predicate NotAfter(t: Table, now: int) {
    forall i :: 0 <= i < |t.rows| ==> t.rows[i].createdAt <= now
  }

  /** `convertToEntity`: keep only the six columns that are stored. */
  function ConvertToEntity(g: Goods): Entity {
    Entity(g.historyNo, g.goodsName, g.minBidPrice, g.appraisalPrice, g.bidCloseDate, g.address)
  }

  /** Two items store the same columns exactly when they agree on the six stored fields; the rest is lost. */
  lemma ConvertKeepsSix(a: Goods, b: Goods)
    ensures ConvertToEntity(a) == ConvertToEntity(b) <==>
      && a.historyNo == b.historyNo && a.goodsName == b.goodsName && a.minBidPrice == b.minBidPrice
      && a.appraisalPrice == b.appraisalPrice && a.bidCloseDate == b.bidCloseDate && a.address == b.address
  {
  }

  /**
   * `insert`: one new row with a generated id, stamped `now` by the column default; there is no
   * conflict clause, so duplicates are kept.
   */
  function Insert(t: Table, e: Entity, now: int): (r: Table)
    requires Valid(t) && NotAfter(t, now)
    ensures Valid(r) && NotAfter(r, now)
    ensures |r.rows| == |t.rows| + 1 && r.rows[..|t.rows|] == t.rows
    ensures r.rows[|t.rows|].cols == e && r.rows[|t.rows|].createdAt == now
    ensures forall x :: x in t.rows ==> x.id != r.rows[|t.rows|].id
  {
    Table(t.rows + [Row(t.nextId, e, now)], t.nextId + 1)
  }

  /** `findAll`: every row, newest `created_at` first. */
  function FindAll(t: Table): (r: seq<Row>)
    requires Valid(t)
    ensures |r| == |t.rows| && forall x :: x in r <==> x in t.rows
    ensures forall i, j :: 0 <= i < j < |r| ==> r[i].createdAt >= r[j].createdAt
  {
    var r := KeyedSeq.Newest(t.rows);
    KeyedSeq.NewestDescending(t.rows, CreatedAt);
    forall x | x in t.rows
      ensures x in r
    {
      var i :| 0 <= i < |t.rows| && t.rows[i] == x;
      assert r[|t.rows| - 1 - i] == x;
    }
    r
  }

  /**
   * A newly inserted row heads `findAll`; the earlier listing follows unchanged. Rows stamped with the
   * same time as the new one come after it.
   */
  lemma FindAllAfterInsert(t: Table, e: Entity, now: int)
    requires Valid(t) && NotAfter(t, now)
    ensures FindAll(Insert(t, e, now)) == [Row(t.nextId, e, now)] + FindAll(t)
  {
    var r := Insert(t, e, now);
    assert r.rows[..|t.rows|] == t.rows;
  }

  /** The rows whose `history_no` equals `h`, in table order. */
  function Matching(rows: seq<Row>, h: int): (r: seq<Row>)
    ensures |r| <= |rows|
    ensures forall x :: x in r <==> x in rows && x.cols.historyNo == Some(h)
  {
    if |rows| == 0 then []
    else Matching(rows[..|rows| - 1], h) + (if rows[|rows| - 1].cols.historyNo == Some(h) then [rows[|rows| - 1]] else [])
  }

  /** MyBatis `selectOne` rejecting more than one row. */
  function TooManyResults(found: nat): Exception {
    Unchecked(Some("Expected one result (or null) to be returned by selectOne(), but found: " + IntString(found)))
  }

  /**
   * `findByHistoryNo`: no row (also for a null key, which SQL equality never matches), the one matching
   * row, or an error when several rows match, since nothing makes `history_no` unique.
   */
  function FindByHistoryNo(t: Table, h: Option<int>): (r: Result<Option<Row>, Exception>)
    ensures r.Success? && r.value.Some? ==> r.value.value in t.rows && r.value.value.cols.historyNo == h
    ensures r.Success? && r.value.None? ==> forall x :: x in t.rows ==> x.cols.historyNo != h || h.None?
    ensures r.Failure? ==> h.Some? && r == Failure(TooManyResults(|Matching(t.rows, h.value)|))
    ensures h.Some? && |Matching(t.rows, h.value)| > 1 ==> r.Failure?
    ensures h.Some? && |Matching(t.rows, h.value)| == 1 ==> r.Success? && r.value.Some?
    ensures (forall x :: x in t.rows ==> x.cols.historyNo != h) ==> r == Success(None)
  {
    match h
    case None => Success(None)
    case Some(v) =>
      var m := Matching(t.rows, v);
      if |m| == 0 then Success(None)
      else assert m[0] in m; if |m| == 1 then Success(Some(m[0])) else Failure(TooManyResults(|m|))
  }

  /** A key present in exactly one row is found; a key present in none is reported absent, never as an error. */
  lemma FindUnique(t: Table, h: int)
    requires |Matching(t.rows, h)| <= 1
    ensures FindByHistoryNo(t, Some(h)).Success?
    ensures FindByHistoryNo(t, Some(h)).value.Some? <==> exists x :: x in t.rows && x.cols.historyNo == Some(h)
  {
    var m := Matching(t.rows, h);
    if exists x :: x in t.rows && x.cols.historyNo == Some(h) {
      var x :| x in t.rows && x.cols.historyNo == Some(h);
      assert x in m;
    }
  }

  /** `count`: the number of rows. */
  function Count(t: Table): (n: nat)
    requires Valid(t)
    ensures n == |FindAll(t)|
  {
    |t.rows|
  }

  /** `deleteAll`: remove every row and report how many were removed; the id counter is not reset. */
  function DeleteAll(t: Table): (r: (Table, nat))
    requires Valid(t)
    ensures Valid(r.0) && r.0.rows == [] && r.1 == Count(t)
    ensures r.0.nextId == t.nextId
  {
    (Table([], t.nextId), |t.rows|)
  }

  /**
   * Where the store fails during one service call: the wipe (with the driver's possibly null message)
   * and the positions of the items whose insert fails.
   */
  datatype Faults = Faults(wipeFault: Option<Option<string>>, failingInserts: set<int>)

  /** Whether the item at position `i` is inserted: it has a history number and its insert does not fail. */
  predicate Saves(items: seq<Goods>, failing: set<int>, i: int)
    requires 0 <= i < |items|
  {
    items[i].historyNo.Some? && i !in failing
  }

  /** The columns stored for the first `n` items, in input order. */
  function SavedPrefix(items: seq<Goods>, failing: set<int>, n: nat): seq<Entity>
    requires n <= |items|
  {
    if n == 0 then []
    else SavedPrefix(items, failing, n - 1) + (if Saves(items, failing, n - 1) then [ConvertToEntity(items[n - 1])] else [])
  }

  /** The positions of the items that are saved. */
  ghost function SavedIndices(items: seq<Goods>, failing: set<int>, n: nat): set<int>
    requires n <= |items|
  {
    set i | 0 <= i < n && Saves(items, failing, i)
  }

  /** Every item saved has a history number, and the saved columns are those of items from the input. */
  lemma {:induction false} SavedPrefixSources(items: seq<Goods>, failing: set<int>, n: nat)
    requires n <= |items|
    ensures |SavedPrefix(items, failing, n)| == |SavedIndices(items, failing, n)| <= n
    ensures forall e :: e in SavedPrefix(items, failing, n) ==>
      e.historyNo.Some? && exists i :: 0 <= i < n && i !in failing && e == ConvertToEntity(items[i])
  {
    if n > 0 {
      SavedPrefixSources(items, failing, n - 1);
      var before := SavedIndices(items, failing, n - 1);
      if Saves(items, failing, n - 1) {
        assert SavedIndices(items, failing, n) == before + {n - 1};
      } else {
        assert SavedIndices(items, failing, n) == before;
      }
    }
  }

  /** The columns of a table's rows, in table order. */
  function Columns(rows: seq<Row>): (r: seq<Entity>)
    ensures |r| == |rows| && forall i :: 0 <= i < |rows| ==> r[i] == rows[i].cols
  {
    seq(|rows|, i requires 0 <= i < |rows| => rows[i].cols)
  }

  /**
   * Replace-all `saveGoodsListToDB`: wipe the table, then insert every item that has a history number,
   * skipping items whose insert fails. A failing wipe is rethrown wrapped and leaves the table as it was.
   */
  method SaveGoodsList(t: Table, goods: Option<seq<Goods>>, faults: Faults, now: int)
    returns (r: Result<int, Exception>, t': Table)
    requires Valid(t)
    ensures Valid(t')
    ensures faults.wipeFault.Some? ==>
      t' == t && r == Failure(Unchecked(Some("물건 데이터 저장 실패: " + Str(faults.wipeFault.value))))
    ensures faults.wipeFault.None? && (goods.None? || |goods.value| == 0) ==> r == Success(0) && t'.rows == []
    ensures faults.wipeFault.None? && goods.Some? ==>
      && r.Success? && r.value == |t'.rows|
      && Columns(t'.rows) == SavedPrefix(goods.value, faults.failingInserts, |goods.value|)
  {
    if faults.wipeFault.Some? {
      return Failure(Unchecked(Some("물건 데이터 저장 실패: " + Str(faults.wipeFault.value)))), t;
    }
    var wiped := DeleteAll(t);
    t' := wiped.0;
    if goods.None? || |goods.value| == 0 {
      return Success(0), t';
    }
    var items := goods.value;
    var saved := 0;
    var i := 0;
    while i < |items|
      invariant 0 <= i <= |items|
      invariant Valid(t') && NotAfter(t', now)
      invariant saved == |t'.rows|
      invariant Columns(t'.rows) == SavedPrefix(items, faults.failingInserts, i)
    {
      if items[i].historyNo.Some? && i !in faults.failingInserts {
        var before := t'.rows;
        t' := Insert(t', ConvertToEntity(items[i]), now);
        assert t'.rows[..|before|] == before;
        assert Columns(t'.rows) == Columns(before) + [ConvertToEntity(items[i])];
        saved := saved + 1;
      }
      i := i + 1;
    }
    r := Success(saved);
  }

  /** The number a successful save reports is the number of input items that have a history number and do not fail. */
  lemma SaveCount(goods: seq<Goods>, failing: set<int>, rows: seq<Row>)
    requires Columns(rows) == SavedPrefix(goods, failing, |goods|)
    ensures |rows| == |SavedIndices(goods, failing, |goods|)| <= |goods|
    ensures forall x :: x in rows ==> x.cols.historyNo.Some?
  {
    SavedPrefixSources(goods, failing, |goods|);
    forall x | x in rows
      ensures x.cols.historyNo.Some?
    {
      var k :| 0 <= k < |rows| && rows[k] == x;
      assert Columns(rows)[k] in SavedPrefix(goods, failing, |goods|);
    }
  }

  /**
   * Replace-all `getGoodsByHistoryNo`: the mapper's answer unchanged. A miss is no row, never a
   * GOODS_NOT_FOUND error; several rows with the key make MyBatis fail with too many results.
   */
  function GetGoodsByHistoryNo(t: Table, h: Option<int>): (r: Result<Option<Row>, Exception>)
    ensures h.None? || (forall x :: x in t.rows ==> x.cols.historyNo != h) ==> r == Success(None)
    ensures h.Some? && |Matching(t.rows, h.value)| == 1 ==>
      r.Success? && r.value.Some? && r.value.value in t.rows && r.value.value.cols.historyNo == h
    ensures h.Some? && |Matching(t.rows, h.value)| > 1 ==> r == Failure(TooManyResults(|Matching(t.rows, h.value)|))
    ensures r.Failure? ==> !r.error.BusinessException?
  {
    FindByHistoryNo(t, h)
  }

  /** `deleteAllGoods`: the removed count, or the driver's failure rethrown wrapped with the table unchanged. */
  function DeleteAllGoods(t: Table, fault: Option<Option<string>>): (r: (Result<nat, Exception>, Table))
    requires Valid(t)
    ensures fault.None? ==> r.0 == Success(Count(t)) && r.1.rows == []
    ensures fault.Some? ==> r.1 == t && r.0 == Failure(Unchecked(Some("물건 데이터 삭제 실패: " + Str(fault.value))))
  {
    match fault
    case Some(m) => (Failure(Unchecked(Some("물건 데이터 삭제 실패: " + Str(m)))), t)
    case None => var d := DeleteAll(t); (Success(d.1), d.0)
  }
}

=== FILE: sync_cycle.dfy ===
/**
 * One run of the scheduled sync: fetch the first 9999 listings with no filters, keep the freshest
 * record per listing (at most one hundred), replace the stored goods with them, and only then record
 * the sync time. Any exception ends the run with the status untouched.
 */
module SyncCycle {

  import opened Wrappers
  import opened GoodsModel
  import opened Errors
  import OnbidApi
  import FreshestSelection
  import ReplaceStore
  import SyncStatus

  /** How a run ended: normally with the number of rows saved, or with the exception it caught. */
  datatype Outcome = Completed(synced: int) | Aborted(error: Exception)

  /** The state a run reads and writes: the goods table and the sync status cell. */
  datatype World = World(store: ReplaceStore.Table, status: SyncStatus.Status)

  /** Page and page size the scheduler asks for. */
  const FirstPage: int := 1
  const PageSize: int := 9999

  /** The request a run sends: page 1, 9999 rows, no filter at all. */
  lemma CycleRequestHasNoFilters(ep: OnbidApi.Endpoint)
    ensures OnbidApi.QueryParams(ep.apiKey, FirstPage, PageSize, OnbidApi.ShortFilters(None, None), ep.urlEncode)
            == OnbidApi.FixedParams(ep.apiKey, PageSize, FirstPage)
  {
    OnbidApi.NoFilterQuery(ep.apiKey, FirstPage, PageSize, OnbidApi.ShortFilters(None, None), ep.urlEncode);
  }

  /** `syncLatestGoods`. */
  method SyncLatestGoods(w: World, ep: OnbidApi.Endpoint, faults: ReplaceStore.Faults, now: int)
    returns (o: Outcome, w': World)
    requires ReplaceStore.Valid(w.store)
    ensures ReplaceStore.Valid(w'.store)
    ensures o.Aborted? ==> w' == w
    ensures o.Completed? ==> w'.status == SyncStatus.MarkSynced(w.status, now)
    ensures o.Completed? ==> 0 <= o.synced <= FreshestSelection.Limit && o.synced == |w'.store.rows|
    ensures var fetched := OnbidApi.GetGoodsItems(ep, FirstPage, PageSize, None, None);
      && (fetched.Failure? ==> o == Aborted(fetched.error))
      && (fetched.Success? && faults.wipeFault.Some? ==> o.Aborted? && o.error.Unchecked?)
      && (fetched.Success? && faults.wipeFault.None? ==>
            o.Completed? &&
            ReplaceStore.Columns(w'.store.rows) ==
              (var latest := FreshestSelection.SelectTop100(Some(fetched.value));
               ReplaceStore.SavedPrefix(latest, faults.failingInserts, |latest|)))
  {
    var fetched := OnbidApi.GetGoodsItems(ep, FirstPage, PageSize, None, None);
    if fetched.Failure? {
      return Aborted(fetched.error), w;
    }
    var latest := FreshestSelection.SelectTop100(Some(fetched.value));
    var saved, store := ReplaceStore.SaveGoodsList(w.store, Some(latest), faults, now);
    if saved.Failure? {
      return Aborted(saved.error), w;
    }
    ReplaceStore.SaveCount(latest, faults.failingInserts, store.rows);
    o := Completed(saved.value);
    w' := World(store, SyncStatus.MarkSynced(w.status, now));
  }
}

=== FILE: sync_status.dfy ===
/**
 * The in-memory record of the last completed sync. Times are whole seconds on one clock; the current
 * time is a parameter rather than a read of the wall clock.
 */
module SyncStatus {

  import opened Wrappers

  /** The single cell: the time of the last completed sync, if any. */
  datatype Status = Status(lastSyncedAt: Option<int>)

  /** Before any sync. */
  const Initial: Status := Status(None)

  /** Seconds between a sync and the next one (`plusMinutes(1)`). */
  const Interval: int := 60

  /** `markSynced`: overwrite the cell, with no check that time moves forward. */
  function MarkSynced(s: Status, syncedAt: int): Status {
    Status(Some(syncedAt))
  }

  /** `getLastSyncedAt`. */
  function LastSyncedAt(s: Status): Option<int> {
    s.lastSyncedAt
  }

  /** `getNextSyncAt`: one minute after the last sync, absent before the first. */
  function NextSyncAt(s: Status): (r: Option<int>)
    ensures r.Some? <==> LastSyncedAt(s).Some?
    ensures r.Some? ==> r.value - LastSyncedAt(s).value == Interval
  {
    match s.lastSyncedAt
    case None => None
    case Some(last) => Some(last + Interval)
  }

  /** `getSecondsUntilNextSync`: −1 before the first sync, else the seconds left, never negative. */
  function SecondsUntilNextSync(s: Status, now: int): (r: int)
    ensures r == -1 <==> LastSyncedAt(s).None?
    ensures LastSyncedAt(s).Some? ==>
              r >= 0 && r >= NextSyncAt(s).value - now && (r == 0 || r == NextSyncAt(s).value - now)
  {
    match NextSyncAt(s)
    case None => -1
    case Some(next) => if next - now > 0 then next - now else 0
  }

  /** Before any sync, neither time is known and the countdown reads −1 at every instant. */
  lemma NeverSynced(now: int)
    ensures LastSyncedAt(Initial).None? && NextSyncAt(Initial).None?
    ensures SecondsUntilNextSync(Initial, now) == -1
  {
  }

  /**
   * The last write wins: the cell after a sync depends only on that sync's time, whatever came
   * before, even an earlier write with a later time.
   */
  lemma LastWriteWins(s: Status, s': Status, earlier: int, t: int)
    ensures LastSyncedAt(MarkSynced(MarkSynced(s, earlier), t)) == Some(t)
    ensures MarkSynced(MarkSynced(s, earlier), t) == MarkSynced(s', t)
  {
  }

  /** Once synced at `t`, the countdown stays within one interval from `t` on, and is full exactly at `t`. */
  lemma CountdownWindow(s: Status, t: int, now: int)
    requires t <= now
    ensures 0 <= SecondsUntilNextSync(MarkSynced(s, t), now) <= Interval
    ensures now == t ==> SecondsUntilNextSync(MarkSynced(s, t), now) == Interval
    ensures now >= t + Interval ==> SecondsUntilNextSync(MarkSynced(s, t), now) == 0
  {
  }
}

=== FILE: tables.dfy ===
/**
 * Rows of a table in insertion order, and `WHERE` filters over them. The filters are what the
 * mappers' `SELECT ... WHERE` and `DELETE ... WHERE` statements keep or remove.
 */
module Tables {

  /** The rows satisfying `p`, in table order. */
  function Where<T(!new)>(rows: seq<T>, p: T -> bool): (r: seq<T>)
    ensures |r| <= |rows|
    ensures forall x :: x in r <==> x in rows && p(x)
  {
    if |rows| == 0 then []
    else Where(rows[..|rows| - 1], p) + (if p(rows[|rows| - 1]) then [rows[|rows| - 1]] else [])
  }

  lemma WhereSnoc<T(!new)>(rows: seq<T>, x: T, p: T -> bool)
    ensures Where(rows + [x], p) == Where(rows, p) + (if p(x) then [x] else [])
  {
    assert (rows + [x])[..|rows|] == rows;
  }

  /** Filtering distributes over concatenation. */
  lemma {:induction false} WhereAppend<T(!new)>(a: seq<T>, b: seq<T>, p: T -> bool)
    ensures Where(a + b, p) == Where(a, p) + Where(b, p)
  {
    if |b| > 0 {
      var init := b[..|b| - 1];
      var last := b[|b| - 1];
      WhereAppend(a, init, p);
      assert a + b == (a + init) + [last];
      assert b == init + [last];
      WhereSnoc(a + init, last, p);
      WhereSnoc(init, last, p);
    } else {
      assert a + b == a;
    }
  }

  /** A filter every row passes keeps the rows as they are. */
  lemma {:induction false} WhereAll<T(!new)>(rows: seq<T>, p: T -> bool)
    requires forall i :: 0 <= i < |rows| ==> p(rows[i])
    ensures Where(rows, p) == rows
  {
    if |rows| > 0 {
      var init := rows[..|rows| - 1];
      WhereAll(init, p);
      assert init + [rows[|rows| - 1]] == rows;
    }
  }

  /** Filtering twice, where the first filter keeps everything the second wants, is filtering once. */
  lemma {:induction false} WhereWhere<T(!new)>(rows: seq<T>, p: T -> bool, q: T -> bool)
    requires forall x :: p(x) ==> q(x)
    ensures Where(Where(rows, q), p) == Where(rows, p)
  {
    if |rows| > 0 {
      var init := rows[..|rows| - 1];
      var last := rows[|rows| - 1];
      WhereWhere(init, p, q);
      if q(last) {
        assert Where(rows, q) == Where(init, q) + [last];
        WhereSnoc(Where(init, q), last, p);
      } else {
        assert !p(last);
        assert Where(rows, q) == Where(init, q);
      }
    }
  }

  /** Keys that increase along the rows and stay below `bound`. */
  ghost predicate Increasing<T>(rows: seq<T>, key: T -> int, bound: int) {
    && (forall i, j :: 0 <= i < j < |rows| ==> key(rows[i]) < key(rows[j]))
    && (forall i :: 0 <= i < |rows| ==> key(rows[i]) < bound)
  }

  /** Filtering keeps keys increasing and below their bound. */
  lemma {:induction false} WhereIncreasing<T(!new)>(rows: seq<T>, p: T -> bool, key: T -> int, bound: int)
    requires Increasing(rows, key, bound)
    ensures Increasing(Where(rows, p), key, bound)
  {
    if |rows| > 0 {
      var init := rows[..|rows| - 1];
      var last := rows[|rows| - 1];
      WhereIncreasing(init, p, key, key(last));
      var w := Where(init, p);
      if p(last) {
        var r := w + [last];
        assert Where(rows, p) == r;
        forall i | 0 <= i < |r|
          ensures key(r[i]) < bound
        {
          if i < |w| {
            assert r[i] == w[i];
          }
        }
      } else {
        assert Where(rows, p) == w;
      }
    }
  }

  /** A filter removes nothing exactly when every row passes it. */
  lemma {:induction false} WhereKeepsAll<T(!new)>(rows: seq<T>, p: T -> bool)
    ensures |Where(rows, p)| == |rows| <==> forall i :: 0 <= i < |rows| ==> p(rows[i])
  {
    if |rows| > 0 {
      var init := rows[..|rows| - 1];
      WhereKeepsAll(init, p);
      if |Where(rows, p)| == |rows| {
        assert p(rows[|rows| - 1]);
      }
    }
  }

  /** A filter selects something exactly when some row passes it. */
  lemma WhereNonEmpty<T(!new)>(rows: seq<T>, p: T -> bool)
    ensures |Where(rows, p)| > 0 <==> exists x :: x in rows && p(x)
  {
    var w := Where(rows, p);
    if |w| > 0 {
      assert w[0] in w;
    }
    if exists x :: x in rows && p(x) {
      var x :| x in rows && p(x);
      assert x in w;
    }
  }
}

=== FILE: text.dfy ===
/** String helpers with the exact semantics of the Java and JavaScript library calls the source relies on. */
module Text {

  import opened Wrappers

  /** `Character` test used by `String.trim()`: every code unit at or below U+0020 is trimmed. */
  predicate IsTrimmed(c: char) {
    c <= ' '
  }

  /** `String.trim()`: drops trimmed characters from both ends. */
  function Trim(s: string): (r: string)
    decreases |s|
  {
    if |s| == 0 then s
    else if IsTrimmed(s[0]) then Trim(s[1..])
    else if IsTrimmed(s[|s| - 1]) then Trim(s[..|s| - 1])
    else s
  }

  /** `s.trim().isEmpty()`. */
  predicate IsBlank(s: string) {
    Trim(s) == ""
  }

  /** A string is blank exactly when every character of it is trimmed by `String.trim()`. */
  lemma {:induction false} BlankIffAllTrimmed(s: string)
    ensures IsBlank(s) <==> forall i :: 0 <= i < |s| ==> IsTrimmed(s[i])
    decreases |s|
  {
    if |s| == 0 {
    } else if IsTrimmed(s[0]) {
      BlankIffAllTrimmed(s[1..]);
      assert forall i :: 1 <= i < |s| ==> s[i] == s[1..][i - 1];
    } else if IsTrimmed(s[|s| - 1]) {
      BlankIffAllTrimmed(s[..|s| - 1]);
      assert !IsTrimmed(s[..|s| - 1][0]);
    } else {
      assert !IsTrimmed(s[0]);
    }
  }

  predicate IsDigit(c: char) {
    '0' <= c <= '9'
  }

  predicate AllDigits(s: string) {
    forall i :: 0 <= i < |s| ==> IsDigit(s[i])
  }

  function DigitChar(d: nat): (c: char)
    requires d < 10
    ensures IsDigit(c)
  {
    ['0', '1', '2', '3', '4', '5', '6', '7', '8', '9'][d]
  }

  function DigitValue(c: char): (d: nat)
    requires IsDigit(c)
    ensures d < 10
  {
    (c as int) - ('0' as int)
  }

  /** Decimal digits of a natural number, no leading zeros ("0" for zero), as `Long.toString` prints it. */
  function NatDigits(n: nat): (r: string)
    ensures |r| > 0 && AllDigits(r)
    ensures n > 0 ==> r[0] != '0'
  {
    if n < 10 then [DigitChar(n)] else NatDigits(n / 10) + [DigitChar(n % 10)]
  }

  /** Value of a string of decimal digits. */
  function DigitsValue(s: string): nat
    requires AllDigits(s)
  {
    if |s| == 0 then 0 else DigitsValue(s[..|s| - 1]) * 10 + DigitValue(s[|s| - 1])
  }

  lemma DigitValueOfChar(d: nat)
    requires d < 10
    ensures DigitValue(DigitChar(d)) == d
  {
  }

  /** Reading the printed digits back gives the number: the decimal form loses nothing. */
  lemma {:induction false} NatDigitsRoundTrip(n: nat)
    ensures DigitsValue(NatDigits(n)) == n
  {
    if n < 10 {
      DigitValueOfChar(n);
    } else {
      NatDigitsRoundTrip(n / 10);
      DigitValueOfChar(n % 10);
      var s := NatDigits(n);
      assert s[..|s| - 1] == NatDigits(n / 10);
    }
  }

  /** `String.valueOf(long)` / `Long.toString`: optional minus sign, then the digits. */
  function IntString(n: int): (r: string)
    ensures |r| > 0
    ensures n >= 0 ==> r == NatDigits(n)
    ensures n < 0 ==> r == "-" + NatDigits(-n)
  {
    if n < 0 then "-" + NatDigits(-n) else NatDigits(n)
  }

  /** Java string concatenation of a possibly null string: null prints as "null". */
  function Str(m: Option<string>): string {
    m.GetOr("null")
  }

  /** `String.valueOf(Object)` on a boxed `Long`: null prints as "null". */
  function NullableLongString(n: Option<int>): (r: string)
  {
    match n
    case None => "null"
    case Some(v) => IntString(v)
  }

  /** The shape `IntString` prints: an optional minus sign, then at least one digit. */
  predicate IntShaped(s: string) {
    |s| > 0 && (if s[0] == '-' then AllDigits(s[1..]) else AllDigits(s))
  }

  /** The value of an integer's printed form, as `Long.parseLong` reads it. */
  function IntValue(s: string): int
    requires IntShaped(s)
  {
    if s[0] == '-' then 0 - DigitsValue(s[1..]) else DigitsValue(s)
  }

  lemma SignedValue(d: string)
    requires |d| > 0 && AllDigits(d)
    ensures IntShaped("-" + d) && IntValue("-" + d) == 0 - DigitsValue(d)
  {
    assert ("-" + d)[1..] == d;
  }

  lemma UnsignedValue(d: string)
    requires |d| > 0 && AllDigits(d)
    ensures IntShaped(d) && IntValue(d) == DigitsValue(d)
  {
    assert IsDigit(d[0]);
  }

  /** Reading an integer's printed form back gives the integer. */
  lemma IntStringRoundTrip(n: int)
    ensures IntShaped(IntString(n)) && IntValue(IntString(n)) == n
  {
    if n < 0 {
      var m: nat := -n;
      var d := NatDigits(m);
      assert IntString(n) == "-" + d;
      NatDigitsRoundTrip(m);
      SignedValue(d);
    } else {
      UnsignedValue(NatDigits(n));
      NatDigitsRoundTrip(n);
    }
  }

  lemma IntStringInjective(a: int, b: int)
    requires IntString(a) == IntString(b)
    ensures a == b
  {
    IntStringRoundTrip(a);
    IntStringRoundTrip(b);
  }

  /** No decimal form of a number spells "null", so a null history number never shares a key with a real one. */
  lemma NullKeyDistinct(n: int)
    ensures IntString(n) != "null"
  {
    var s := IntString(n);
    if n < 0 {
      assert s[0] == '-';
    } else {
      assert IsDigit(s[0]);
    }
  }
}

=== FILE: upsert_store.dfy ===
/**
 * The upsert goods store: `goods_basic` and `goods_price`, each keyed uniquely by `history_no`.
 * A write inserts a new row or overwrites the stored columns of the existing one. Reads join every
 * basic row with its price row, if any. Rows come back newest first, and creation order is the
 * order in which keys were first inserted. `now` stands for `CURRENT_TIMESTAMP`, a clock that does
 * not run backwards.
 */
module UpsertStore {

  import opened Wrappers
  import opened Text
  import opened GoodsModel
  import opened Errors
  import opened KeyedSeq
  import PurchaseLedger

  /** The seven descriptive columns of `goods_basic`. */
  datatype Basic = Basic(
    goodsName: Option<string>,
    statusName: Option<string>,
    saleTypeName: Option<string>,
    categoryName: Option<string>,
    bidStartDate: Option<string>,
    bidCloseDate: Option<string>,
    address: Option<string>
  )

  /** The five price and statistics columns of `goods_price`. */
  datatype Price = Price(
    minBidPrice: Option<int>,
    appraisalPrice: Option<int>,
    feeRate: Option<string>,
    inquiryCount: Option<int>,
    favoriteCount: Option<int>
  )

  /** The price columns a LEFT JOIN yields for a basic row without a price row. */
  const NullPrice: Price := Price(None, None, None, None, None)

  /** A `goods_basic` row besides its key. */
  datatype BasicRow = BasicRow(id: int, basic: Basic, createdAt: int, updatedAt: int)

  /** A `goods_price` row besides its key. */
  datatype PriceRow = PriceRow(id: int, price: Price, updatedAt: int)

  /** Both tables, each a sequence of (history number, row) in creation order, and their id counters. */
  datatype Store = Store(
    basics: seq<(int, BasicRow)>,
    prices: seq<(int, PriceRow)>,
    nextBasicId: int,
    nextPriceId: int
  )

  /** Creation times never decrease in table order. */
  ghost predicate CreatedInOrder(basics: seq<(int, BasicRow)>) {
    forall i, j :: 0 <= i < j < |basics| ==> basics[i].1.createdAt <= basics[j].1.createdAt
  }

  /**
   * The unique keys hold, generated ids stay below their counters, and `created_at` never decreases
   * in creation order.
   */
  ghost predicate Valid(s: Store) {
    && DistinctKeys(s.basics) && DistinctKeys(s.prices)
    && (forall i :: 0 <= i < |s.basics| ==> s.basics[i].1.id < s.nextBasicId)
    && (forall i :: 0 <= i < |s.prices| ==> s.prices[i].1.id < s.nextPriceId)
    && CreatedInOrder(s.basics)
  }

  /** No basic row was created after `now`. */
  ghost predicate NotAfter(s: Store, now: int) {
    forall i :: 0 <= i < |s.basics| ==> s.basics[i].1.createdAt <= now
  }

  /** `convertToBasicEntity`: the seven descriptive fields (the history number travels as the key). */
  function ConvertToBasic(g: Goods): Basic {
    Basic(g.goodsName, g.statusName, g.saleTypeName, g.categoryName, g.bidStartDate, g.bidCloseDate, g.address)
  }

  /** `convertToPriceEntity`: the five price and statistics fields. */
  function ConvertToPrice(g: Goods): Price {
    Price(g.minBidPrice, g.appraisalPrice, g.feeRate, g.inquiryCount, g.favoriteCount)
  }

  /** The two records together keep exactly twelve of the item's fields; all others are lost. */
  lemma ConvertSplits(a: Goods, b: Goods)
    ensures ConvertToBasic(a) == ConvertToBasic(b) && ConvertToPrice(a) == ConvertToPrice(b) <==>
      && a.goodsName == b.goodsName && a.statusName == b.statusName && a.saleTypeName == b.saleTypeName
      && a.categoryName == b.categoryName && a.bidStartDate == b.bidStartDate
      && a.bidCloseDate == b.bidCloseDate && a.address == b.address
      && a.minBidPrice == b.minBidPrice && a.appraisalPrice == b.appraisalPrice && a.feeRate == b.feeRate
      && a.inquiryCount == b.inquiryCount && a.favoriteCount == b.favoriteCount
  {
  }

  /** The basic row stored under `h`, if any. */
  function BasicOf(s: Store, h: int): (r: Option<BasicRow>)
    ensures r.Some? <==> HasKey(s.basics, h)
  {
    match IndexOf(s.basics, h)
    case None => None
    case Some(p) => Some(s.basics[p].1)
  }

  /** The price row stored under `h`, if any. */
  function PriceOf(s: Store, h: int): (r: Option<PriceRow>)
    ensures r.Some? <==> HasKey(s.prices, h)
  {
    match IndexOf(s.prices, h)
    case None => None
    case Some(p) => Some(s.prices[p].1)
  }

  /** The descriptive columns stored under `h`, if any. */
  function BasicFields(s: Store, h: int): Option<Basic> {
    match BasicOf(s, h)
    case None => None
    case Some(row) => Some(row.basic)
  }

  /** The price columns stored under `h`, if any. */
  function PriceFields(s: Store, h: int): Option<Price> {
    match PriceOf(s, h)
    case None => None
    case Some(row) => Some(row.price)
  }

  /**
   * `upsertBasic`: insert a row for `h`, or on a key conflict overwrite all seven columns with the new
   * values (a null overwrites too, nothing is merged) and refresh `updated_at`. The id, `created_at`
   * and the row's place stay as they were.
   */
  function UpsertBasic(s: Store, h: int, b: Basic, now: int): (r: Store)
    requires Valid(s) && NotAfter(s, now)
    ensures Valid(r) && NotAfter(r, now)
    ensures r.prices == s.prices && r.nextPriceId == s.nextPriceId
    ensures BasicOf(r, h).Some? && BasicOf(r, h).value.basic == b && BasicOf(r, h).value.updatedAt == now
    ensures BasicOf(s, h).Some? ==>
      && BasicOf(r, h).value.id == BasicOf(s, h).value.id
      && BasicOf(r, h).value.createdAt == BasicOf(s, h).value.createdAt
      && Keys(r.basics) == Keys(s.basics)
    ensures BasicOf(s, h).None? ==> r.basics == s.basics + [(h, BasicRow(s.nextBasicId, b, now, now))]
  {
    var row := match BasicOf(s, h)
      case None => BasicRow(s.nextBasicId, b, now, now)
      case Some(prev) => BasicRow(prev.id, b, prev.createdAt, now);
    var basics := Put(s.basics, h, row);
    PutLookup(s.basics, h, row, h);
    if BasicOf(s, h).Some? then
      assert Keys(basics) == Keys(s.basics);
      assert forall i :: 0 <= i < |basics| ==> basics[i].1.createdAt == s.basics[i].1.createdAt;
      s.(basics := basics)
    else
      s.(basics := basics, nextBasicId := s.nextBasicId + 1)
  }

  /** `upsertPrice`: the same for the five price columns, which a conflict overwrites. */
  function UpsertPrice(s: Store, h: int, p: Price, now: int): (r: Store)
    requires Valid(s)
    ensures Valid(r) && (NotAfter(s, now) ==> NotAfter(r, now))
    ensures r.basics == s.basics && r.nextBasicId == s.nextBasicId
    ensures PriceOf(r, h).Some? && PriceOf(r, h).value.price == p && PriceOf(r, h).value.updatedAt == now
    ensures PriceOf(s, h).Some? ==> PriceOf(r, h).value.id == PriceOf(s, h).value.id && Keys(r.prices) == Keys(s.prices)
    ensures PriceOf(s, h).None? ==> r.prices == s.prices + [(h, PriceRow(s.nextPriceId, p, now))]
  {
    var row := match PriceOf(s, h)
      case None => PriceRow(s.nextPriceId, p, now)
      case Some(prev) => PriceRow(prev.id, p, now);
    var prices := Put(s.prices, h, row);
    PutLookup(s.prices, h, row, h);
    if PriceOf(s, h).Some? then
      assert Keys(prices) == Keys(s.prices);
      s.(prices := prices)
    else
      s.(prices := prices, nextPriceId := s.nextPriceId + 1)
  }

  /** An upsert of one key leaves every other key's basic row as it was. */
  lemma UpsertBasicOthers(s: Store, h: int, b: Basic, now: int, h': int)
    requires Valid(s) && NotAfter(s, now) && h' != h
    ensures BasicOf(UpsertBasic(s, h, b, now), h') == BasicOf(s, h')
  {
    var row := match BasicOf(s, h)
      case None => BasicRow(s.nextBasicId, b, now, now)
      case Some(prev) => BasicRow(prev.id, b, prev.createdAt, now);
    PutLookup(s.basics, h, row, h');
  }

  /** An upsert of one key leaves every other key's price row as it was. */
  lemma UpsertPriceOthers(s: Store, h: int, p: Price, now: int, h': int)
    requires Valid(s) && h' != h
    ensures PriceOf(UpsertPrice(s, h, p, now), h') == PriceOf(s, h')
  {
    var row := match PriceOf(s, h)
      case None => PriceRow(s.nextPriceId, p, now)
      case Some(prev) => PriceRow(prev.id, p, now);
    PutLookup(s.prices, h, row, h');
  }

  /** Repeating the same upsert at the same instant changes nothing. */
  lemma UpsertBasicIdempotent(s: Store, h: int, b: Basic, now: int)
    requires Valid(s) && NotAfter(s, now)
    ensures UpsertBasic(UpsertBasic(s, h, b, now), h, b, now) == UpsertBasic(s, h, b, now)
  {
    var r1 := UpsertBasic(s, h, b, now);
    var p := IndexOf(r1.basics, h).value;
    assert r1.basics[p := r1.basics[p]] == r1.basics;
  }

  /** Repeating the same price upsert at the same instant changes nothing. */
  lemma UpsertPriceIdempotent(s: Store, h: int, p: Price, now: int)
    requires Valid(s)
    ensures UpsertPrice(UpsertPrice(s, h, p, now), h, p, now) == UpsertPrice(s, h, p, now)
  {
    var r1 := UpsertPrice(s, h, p, now);
    var q := IndexOf(r1.prices, h).value;
    assert r1.prices[q := r1.prices[q]] == r1.prices;
  }

  /** A row of the joined read: the basic row, its key, and the price columns of the matching price row. */
  datatype GoodsEntity = GoodsEntity(id: int, historyNo: int, basic: Basic, price: Price, createdAt: int, updatedAt: int)

  /** `LEFT JOIN goods_price ON history_no` for one basic row: no price row gives null price columns. */
  function Join(s: Store, e: (int, BasicRow)): (r: GoodsEntity)
    ensures r.historyNo == e.0 && r.basic == e.1.basic && r.id == e.1.id
    ensures PriceOf(s, e.0).None? ==> r.price == NullPrice
    ensures PriceOf(s, e.0).Some? ==> r.price == PriceOf(s, e.0).value.price
  {
    GoodsEntity(e.1.id, e.0, e.1.basic,
      match PriceOf(s, e.0) case None => NullPrice case Some(p) => p.price,
      e.1.createdAt, e.1.updatedAt)
  }

  /** `findAll`: one joined row per basic row, newest `created_at` first. */
  function FindAll(s: Store): (r: seq<GoodsEntity>)
    ensures |r| == |s.basics|
    ensures forall i :: 0 <= i < |r| ==> r[i] == Join(s, s.basics[|s.basics| - 1 - i])
  {
    var nb := Newest(s.basics);
    seq(|nb|, i requires 0 <= i < |nb| => Join(s, nb[i]))
  }

  /**
   * `findAll` lists exactly the stored keys of `goods_basic`: a key held only by a price row never
   * shows up, and every basic row shows up whether or not it has a price row.
   */
  lemma FindAllKeys(s: Store, h: int)
    ensures (exists k :: 0 <= k < |FindAll(s)| && FindAll(s)[k].historyNo == h) <==> HasKey(s.basics, h)
  {
    var r := FindAll(s);
    var n := |s.basics|;
    if HasKey(s.basics, h) {
      var i :| 0 <= i < n && s.basics[i].0 == h;
      assert r[n - 1 - i].historyNo == h;
    }
  }

  /** Every row `findAll` returns carries the stored columns of its key, and null prices when no price row exists. */
  lemma FindAllContents(s: Store, x: GoodsEntity)
    requires Valid(s) && x in FindAll(s)
    ensures BasicOf(s, x.historyNo).Some? && x.basic == BasicOf(s, x.historyNo).value.basic
    ensures x.createdAt == BasicOf(s, x.historyNo).value.createdAt
    ensures x.price == (if PriceOf(s, x.historyNo).Some? then PriceOf(s, x.historyNo).value.price else NullPrice)
  {
    var r := FindAll(s);
    var n := |s.basics|;
    var k :| 0 <= k < |r| && r[k] == x;
    var i := n - 1 - k;
    assert x == Join(s, s.basics[i]);
    var p := IndexOf(s.basics, x.historyNo).value;
    UniqueEntry(s.basics, i, p);
  }

  /** Re-upserting an existing key keeps the order of `findAll`: a row does not move when it is refreshed. */
  lemma UpsertKeepsOrder(s: Store, h: int, b: Basic, now: int)
    requires Valid(s) && NotAfter(s, now) && HasKey(s.basics, h)
    ensures var before := FindAll(s);
      var after := FindAll(UpsertBasic(s, h, b, now));
      |after| == |before| && forall i :: 0 <= i < |after| ==> after[i].historyNo == before[i].historyNo
  {
    SameKeysSameOrder(s, UpsertBasic(s, h, b, now));
  }

  /** Two stores whose basic rows have the same keys in the same order list the same keys. */
  lemma SameKeysSameOrder(s: Store, t: Store)
    requires Keys(t.basics) == Keys(s.basics)
    ensures |FindAll(t)| == |FindAll(s)|
    ensures forall i :: 0 <= i < |FindAll(t)| ==> FindAll(t)[i].historyNo == FindAll(s)[i].historyNo
  {
    var n := |s.basics|;
    forall i | 0 <= i < n
      ensures FindAll(t)[i].historyNo == FindAll(s)[i].historyNo
    {
      assert Keys(t.basics)[n - 1 - i] == Keys(s.basics)[n - 1 - i];
    }
  }

  /** `findAll` lists rows by `created_at`, latest first. */
  lemma FindAllNewestFirst(s: Store)
    requires Valid(s)
    ensures var r := FindAll(s); forall i, j :: 0 <= i < j < |r| ==> r[i].createdAt >= r[j].createdAt
  {
    var r := FindAll(s);
    var n := |s.basics|;
    forall i, j | 0 <= i < j < |r|
      ensures r[i].createdAt >= r[j].createdAt
    {
      assert r[i].createdAt == s.basics[n - 1 - i].1.createdAt;
      assert r[j].createdAt == s.basics[n - 1 - j].1.createdAt;
    }
  }

  /**
   * A key inserted for the first time heads `findAll`: it is stamped `now`, no earlier row is later,
   * and among rows stamped alike the latest inserted comes first.
   */
  lemma NewKeyFirst(s: Store, h: int, b: Basic, now: int)
    requires Valid(s) && NotAfter(s, now) && !HasKey(s.basics, h)
    ensures FindAll(UpsertBasic(s, h, b, now))[0].historyNo == h
    ensures FindAll(UpsertBasic(s, h, b, now))[0].basic == b
  {
  }

  /**
   * `findByHistoryNo`: the joined row of that key, if stored. A null key matches nothing, since SQL
   * equality with null is never true.
   */
  function FindByHistoryNo(s: Store, h: Option<int>): (r: Option<GoodsEntity>)
    ensures r.Some? <==> h.Some? && HasKey(s.basics, h.value)
    ensures r.Some? ==> r.value.historyNo == h.value
  {
    match h
    case None => None
    case Some(v) =>
      match IndexOf(s.basics, v)
      case None => None
      case Some(p) => Some(Join(s, s.basics[p]))
  }

  /** The keyed lookup returns exactly the row `findAll` lists for that key. */
  lemma FindByAgreesWithFindAll(s: Store, x: GoodsEntity)
    requires Valid(s) && x in FindAll(s)
    ensures FindByHistoryNo(s, Some(x.historyNo)) == Some(x)
  {
    var r := FindAll(s);
    var n := |s.basics|;
    var k :| 0 <= k < |r| && r[k] == x;
    var i := n - 1 - k;
    var p := IndexOf(s.basics, x.historyNo).value;
    UniqueEntry(s.basics, i, p);
  }

  /** `count`: the number of basic rows only; price rows are not counted. */
  function Count(s: Store): (n: nat)
    ensures n == |FindAll(s)|
  {
    |s.basics|
  }

  /** `deleteAllPrices`: empty `goods_price` only and report how many rows went. */
  function DeleteAllPrices(s: Store): (r: (Store, nat))
    requires Valid(s)
    ensures Valid(r.0) && r.0.prices == [] && r.1 == |s.prices|
    ensures r.0.basics == s.basics && Count(r.0) == Count(s)
  {
    (s.(prices := []), |s.prices|)
  }

  /** `deleteAllBasics`: empty `goods_basic` only and report how many rows went. */
  function DeleteAllBasics(s: Store): (r: (Store, nat))
    requires Valid(s)
    ensures Valid(r.0) && r.0.basics == [] && r.1 == Count(s)
    ensures r.0.prices == s.prices
  {
    (s.(basics := []), |s.basics|)
  }

  /** Once the price rows are gone, every listed row carries null price columns. */
  lemma PricesGoneNullPrices(s: Store)
    requires Valid(s)
    ensures forall x :: x in FindAll(DeleteAllPrices(s).0) ==> x.price == NullPrice
  {
    var t := DeleteAllPrices(s).0;
    forall x | x in FindAll(t)
      ensures x.price == NullPrice
    {
      FindAllContents(t, x);
    }
  }

  /** The error `GoodsNotFoundException` carries for a history number, printed as "null" when absent. */
  function NotFound(h: Option<int>): Exception {
    Business(GoodsNotFound, Some("물건이력번호 " + NullableLongString(h) + " 번을 찾을 수 없습니다."))
  }

  /** `getGoodsByHistoryNo`: the joined row, or GOODS_NOT_FOUND; it never answers with nothing. */
  function GetGoodsByHistoryNo(s: Store, h: Option<int>): (r: Result<GoodsEntity, Exception>)
    ensures r.Success? <==> h.Some? && HasKey(s.basics, h.value)
    ensures r.Success? ==> r.value.historyNo == h.value
    ensures r.Failure? ==> r.error.BusinessException? && r.error.errorCode == GoodsNotFound
  {
    match FindByHistoryNo(s, h)
    case None => Failure(NotFound(h))
    case Some(x) => Success(x)
  }

  /** After an upsert, the lookup of that key succeeds with the written columns. */
  lemma GetAfterUpsert(s: Store, h: int, b: Basic, p: Price, now: int)
    requires Valid(s) && NotAfter(s, now)
    ensures var t := UpsertPrice(UpsertBasic(s, h, b, now), h, p, now);
      && GetGoodsByHistoryNo(t, Some(h)).Success?
      && GetGoodsByHistoryNo(t, Some(h)).value.basic == b
      && GetGoodsByHistoryNo(t, Some(h)).value.price == p
  {
  }

  /** Where the store fails during one save: the positions whose basic upsert or price upsert throws. */
  datatype Faults = Faults(basicFails: set<int>, priceFails: set<int>)

  /** Whether the item at position `i` reaches the basic upsert and it succeeds. */
  predicate WritesBasic(items: seq<Goods>, f: Faults, i: int)
    requires 0 <= i < |items|
  {
    items[i].historyNo.Some? && i !in f.basicFails
  }

  /** Whether the item at position `i` is synced: both of its upserts succeed. */
  predicate Synced(items: seq<Goods>, f: Faults, i: int)
    requires 0 <= i < |items|
  {
    WritesBasic(items, f, i) && i !in f.priceFails
  }

  /** The positions of the items that are synced. */
  ghost function SyncedIndices(items: seq<Goods>, f: Faults, n: nat): set<int>
    requires n <= |items|
  {
    set i | 0 <= i < n && Synced(items, f, i)
  }

  /** The number of synced items among the first `n`, counted as the loop counts them. */
  function SyncedCount(items: seq<Goods>, f: Faults, n: nat): nat
    requires n <= |items|
  {
    if n == 0 then 0 else SyncedCount(items, f, n - 1) + (if Synced(items, f, n - 1) then 1 else 0)
  }

  /** The running count is the number of synced positions. */
  lemma {:induction false} SyncedCountIsCard(items: seq<Goods>, f: Faults, n: nat)
    requires n <= |items|
    ensures SyncedCount(items, f, n) == |SyncedIndices(items, f, n)|
  {
    if n > 0 {
      SyncedCountIsCard(items, f, n - 1);
      SyncedStep(items, f, n - 1);
    }
  }

  /** The position of the last of the first `n` items whose basic upsert wrote key `h`. */
  function LastBasicWrite(items: seq<Goods>, f: Faults, n: nat, h: int): (r: Option<nat>)
    requires n <= |items|
    ensures r.Some? ==> r.value < n && WritesBasic(items, f, r.value) && items[r.value].historyNo == Some(h)
    ensures r.Some? ==> forall j :: r.value < j < n && items[j].historyNo == Some(h) ==> !WritesBasic(items, f, j)
    ensures r.None? ==> forall j :: 0 <= j < n && items[j].historyNo == Some(h) ==> !WritesBasic(items, f, j)
  {
    if n == 0 then None
    else if WritesBasic(items, f, n - 1) && items[n - 1].historyNo == Some(h) then Some(n - 1)
    else LastBasicWrite(items, f, n - 1, h)
  }

  /** The position of the last of the first `n` items whose price upsert wrote key `h`. */
  function LastPriceWrite(items: seq<Goods>, f: Faults, n: nat, h: int): (r: Option<nat>)
    requires n <= |items|
    ensures r.Some? ==> r.value < n && Synced(items, f, r.value) && items[r.value].historyNo == Some(h)
    ensures r.Some? ==> forall j :: r.value < j < n && items[j].historyNo == Some(h) ==> !Synced(items, f, j)
    ensures r.None? ==> forall j :: 0 <= j < n && items[j].historyNo == Some(h) ==> !Synced(items, f, j)
  {
    if n == 0 then None
    else if Synced(items, f, n - 1) && items[n - 1].historyNo == Some(h) then Some(n - 1)
    else LastPriceWrite(items, f, n - 1, h)
  }

  /** The descriptive columns expected under `h` after the first `n` items: the last write wins. */
  function ExpectedBasic(s: Store, items: seq<Goods>, f: Faults, n: nat, h: int): Option<Basic>
    requires n <= |items|
  {
    match LastBasicWrite(items, f, n, h)
    case None => BasicFields(s, h)
    case Some(j) => Some(ConvertToBasic(items[j]))
  }

  /** The price columns expected under `h` after the first `n` items. */
  function ExpectedPrice(s: Store, items: seq<Goods>, f: Faults, n: nat, h: int): Option<Price>
    requires n <= |items|
  {
    match LastPriceWrite(items, f, n, h)
    case None => PriceFields(s, h)
    case Some(j) => Some(ConvertToPrice(items[j]))
  }

  /**
   * One pass of the loop of `saveGoodsListToDB` for the item at position `i`: an item without a history
   * number is skipped; otherwise the basic upsert runs and, if it did not throw, the price upsert.
   */
  function SaveItem(s: Store, g: Goods, i: int, f: Faults, now: int): (r: Store)
    requires Valid(s) && NotAfter(s, now)
    ensures Valid(r) && NotAfter(r, now)
  {
    match g.historyNo
    case None => s
    case Some(k) =>
      if i in f.basicFails then s
      else
        var withBasic := UpsertBasic(s, k, ConvertToBasic(g), now);
        if i in f.priceFails then withBasic else UpsertPrice(withBasic, k, ConvertToPrice(g), now)
  }

  /** One item changes only the columns of its own key, and only through the upserts that succeed. */
  lemma SaveItemEffect(s: Store, g: Goods, i: int, f: Faults, now: int, h: int)
    requires Valid(s) && NotAfter(s, now)
    ensures BasicFields(SaveItem(s, g, i, f, now), h) ==
      (if g.historyNo == Some(h) && i !in f.basicFails then Some(ConvertToBasic(g)) else BasicFields(s, h))
    ensures PriceFields(SaveItem(s, g, i, f, now), h) ==
      (if g.historyNo == Some(h) && i !in f.basicFails && i !in f.priceFails then Some(ConvertToPrice(g))
       else PriceFields(s, h))
  {
    SaveItemBasic(s, g, i, f, now, h);
    SaveItemPrice(s, g, i, f, now, h);
  }

  /** The basic half of `SaveItemEffect`. */
  lemma SaveItemBasic(s: Store, g: Goods, i: int, f: Faults, now: int, h: int)
    requires Valid(s) && NotAfter(s, now)
    ensures BasicFields(SaveItem(s, g, i, f, now), h) ==
      (if g.historyNo == Some(h) && i !in f.basicFails then Some(ConvertToBasic(g)) else BasicFields(s, h))
  {
    if g.historyNo.Some? && i !in f.basicFails && h != g.historyNo.value {
      UpsertBasicOthers(s, g.historyNo.value, ConvertToBasic(g), now, h);
    }
  }

  /** The price half of `SaveItemEffect`. */
  lemma SaveItemPrice(s: Store, g: Goods, i: int, f: Faults, now: int, h: int)
    requires Valid(s) && NotAfter(s, now)
    ensures PriceFields(SaveItem(s, g, i, f, now), h) ==
      (if g.historyNo == Some(h) && i !in f.basicFails && i !in f.priceFails then Some(ConvertToPrice(g))
       else PriceFields(s, h))
  {
    if g.historyNo.Some? && i !in f.basicFails && h != g.historyNo.value {
      var k := g.historyNo.value;
      UpsertBasicOthers(s, k, ConvertToBasic(g), now, h);
      if i !in f.priceFails {
        UpsertPriceOthers(UpsertBasic(s, k, ConvertToBasic(g), now), k, ConvertToPrice(g), now, h);
      }
    }
  }

  /**
   * Upsert-policy `saveGoodsListToDB`: nothing is wiped. Each item with a history number gets a basic
   * upsert and then a price upsert; a throwing upsert skips the rest of that item only. The count is
   * the number of items whose two upserts both succeeded.
   */
  method SaveGoodsListToDB(s: Store, goods: Option<seq<Goods>>, f: Faults, now: int) returns (count: int, s': Store)
    requires Valid(s) && NotAfter(s, now)
    ensures Valid(s') && NotAfter(s', now)
    ensures goods.None? || |goods.value| == 0 ==> count == 0 && s' == s
    ensures goods.Some? ==> count == |SyncedIndices(goods.value, f, |goods.value|)| <= |goods.value|
    ensures goods.Some? ==> forall h :: BasicFields(s', h) == ExpectedBasic(s, goods.value, f, |goods.value|, h)
    ensures goods.Some? ==> forall h :: PriceFields(s', h) == ExpectedPrice(s, goods.value, f, |goods.value|, h)
  {
    if goods.None? || |goods.value| == 0 {
      return 0, s;
    }
    count, s' := SaveEach(s, goods.value, f, now);
    SyncedCountIsCard(goods.value, f, |goods.value|);
    SyncedBound(goods.value, f, |goods.value|);
  }

  /** The loop of `saveGoodsListToDB` over a non-empty list. */
  method SaveEach(s: Store, items: seq<Goods>, f: Faults, now: int) returns (count: int, s': Store)
    requires Valid(s) && NotAfter(s, now)
    ensures Valid(s') && NotAfter(s', now)
    ensures count == SyncedCount(items, f, |items|)
    ensures forall h :: BasicFields(s', h) == ExpectedBasic(s, items, f, |items|, h)
    ensures forall h :: PriceFields(s', h) == ExpectedPrice(s, items, f, |items|, h)
  {
    count := 0;
    s' := s;
    var i := 0;
    NothingSaved(s, items, f, now);
    while i < |items|
      invariant 0 <= i <= |items|
      invariant Saved(s, items, f, i, s', now)
      invariant count == SyncedCount(items, f, i)
    {
      var synced;
      s', synced := SaveOne(s, items, f, i, s', now);
      if synced {
        count := count + 1;
      }
      i := i + 1;
    }
  }

  /** The store holds what saving the first `n` items leaves. */
  ghost predicate Saved(s0: Store, items: seq<Goods>, f: Faults, n: nat, s: Store, now: int)
    requires n <= |items|
  {
    && Valid(s) && NotAfter(s, now)
    && (forall h :: BasicFields(s, h) == ExpectedBasic(s0, items, f, n, h))
    && (forall h :: PriceFields(s, h) == ExpectedPrice(s0, items, f, n, h))
  }

  /** Before the first item the store is as it was. */
  lemma NothingSaved(s: Store, items: seq<Goods>, f: Faults, now: int)
    requires Valid(s) && NotAfter(s, now)
    ensures Saved(s, items, f, 0, s, now)
  {
  }

  /** The body of the loop for item `i`: what it keeps true of the store, and whether the item counts. */
  method SaveOne(s0: Store, items: seq<Goods>, f: Faults, i: nat, s: Store, now: int) returns (r: Store, synced: bool)
    requires i < |items| && Saved(s0, items, f, i, s, now)
    ensures Saved(s0, items, f, i + 1, r, now)
    ensures SyncedCount(items, f, i + 1) == SyncedCount(items, f, i) + (if synced then 1 else 0)
    ensures synced == Synced(items, f, i)
  {
    SaveItemExpected(s0, items, f, i, s, now);
    r := SaveItem(s, items[i], i, f, now);
    synced := Synced(items, f, i);
  }

  /** Saving item `i` over a store that holds what the first `i` items leave gives what the first `i + 1` leave. */
  lemma SaveItemExpected(s0: Store, items: seq<Goods>, f: Faults, i: nat, s: Store, now: int)
    requires i < |items| && Valid(s) && NotAfter(s, now)
    requires forall h :: BasicFields(s, h) == ExpectedBasic(s0, items, f, i, h)
    requires forall h :: PriceFields(s, h) == ExpectedPrice(s0, items, f, i, h)
    ensures forall h :: BasicFields(SaveItem(s, items[i], i, f, now), h) == ExpectedBasic(s0, items, f, i + 1, h)
    ensures forall h :: PriceFields(SaveItem(s, items[i], i, f, now), h) == ExpectedPrice(s0, items, f, i + 1, h)
  {
    forall h
      ensures BasicFields(SaveItem(s, items[i], i, f, now), h) == ExpectedBasic(s0, items, f, i + 1, h)
      ensures PriceFields(SaveItem(s, items[i], i, f, now), h) == ExpectedPrice(s0, items, f, i + 1, h)
    {
      SaveItemEffect(s, items[i], i, f, now, h);
    }
  }

  /** The synced set grows by one exactly when item `i` is synced. */
  lemma SyncedStep(items: seq<Goods>, f: Faults, i: nat)
    requires i < |items|
    ensures |SyncedIndices(items, f, i + 1)| == |SyncedIndices(items, f, i)| + (if Synced(items, f, i) then 1 else 0)
  {
    assert i !in SyncedIndices(items, f, i);
    assert SyncedIndices(items, f, i + 1) ==
      SyncedIndices(items, f, i) + (if Synced(items, f, i) then {i} else {});
  }

  /** The count never exceeds the number of items looked at. */
  lemma {:induction false} SyncedBound(items: seq<Goods>, f: Faults, n: nat)
    requires n <= |items|
    ensures |SyncedIndices(items, f, n)| <= n
  {
    if n > 0 {
      SyncedBound(items, f, n - 1);
      SyncedStep(items, f, n - 1);
    }
  }

  /**
   * An item whose basic upsert succeeds but whose price upsert fails is not counted, yet, when no later
   * item writes its key, its descriptive columns are what the store holds for that key.
   */
  lemma PriceFailureKeepsBasic(s: Store, items: seq<Goods>, f: Faults, j: nat)
    requires j < |items| && WritesBasic(items, f, j) && j in f.priceFails
    requires forall k :: j < k < |items| ==> items[k].historyNo != items[j].historyNo
    ensures j !in SyncedIndices(items, f, |items|)
    ensures ExpectedBasic(s, items, f, |items|, items[j].historyNo.value) == Some(ConvertToBasic(items[j]))
  {
    var h := items[j].historyNo.value;
    var w := LastBasicWrite(items, f, |items|, h);
    assert w.Some? && w.value == j;
  }

  /** Items without a history number never touch the store and are never counted. */
  lemma NullKeySkipped(s: Store, items: seq<Goods>, f: Faults, j: nat, h: int)
    requires j < |items| && items[j].historyNo.None?
    ensures j !in SyncedIndices(items, f, |items|)
    ensures LastBasicWrite(items, f, |items|, h) != Some(j) && LastPriceWrite(items, f, |items|, h) != Some(j)
  {
  }

  /**
   * `deleteAllGoods`: purchases, then prices, then basics, reporting the number of basic rows. A driver
   * failure becomes DATABASE_ERROR and the enclosing transaction leaves every table as it was.
   */
  function DeleteAllGoods(s: Store, l: PurchaseLedger.Ledger, fault: Option<Option<string>>)
    : (r: (Result<nat, Exception>, Store, PurchaseLedger.Ledger))
    requires Valid(s) && PurchaseLedger.Valid(l)
    ensures fault.None? ==>
      && r.0 == Success(Count(s)) && r.1.basics == [] && r.1.prices == [] && r.2.rows == []
      && Valid(r.1) && PurchaseLedger.Valid(r.2)
    ensures fault.Some? ==>
      && r.1 == s && r.2 == l
      && r.0 == Failure(Business(DatabaseError, Some("물건 데이터 삭제 실패: " + Str(fault.value))))
  {
    match fault
    case Some(m) => (Failure(Business(DatabaseError, Some("물건 데이터 삭제 실패: " + Str(m)))), s, l)
    case None =>
      var purchases := PurchaseLedger.DeleteAll(l);
      var prices := DeleteAllPrices(s);
      var basics := DeleteAllBasics(prices.0);
      (Success(basics.1), basics.0, purchases.0)
  }
}

=== FILE: users.dfy ===
/**
 * User accounts: the `users` table and the account service. The password encoder and the token
 * issuer are library calls whose workings are not visible, so they are parameters. Each call runs alone.
 */
module Users {

  import opened Wrappers
  import opened Text
  import opened Errors
  import opened Tables

  /** A stored user: generated id, email, encoded password, display name and the two timestamps. */
  datatype User = User(id: int, email: Option<string>, password: string, username: Option<string>, createdAt: int, updatedAt: int)

  /** The table and its auto-increment counter. */
  datatype Table = Table(rows: seq<User>, nextId: int)

  /** The password encoder: a one-way `encode` and the `matches(raw, encoded)` check. */
  datatype Encoder = Encoder(encode: string -> string, matches: (string, string) -> bool)

  /** The public view of a user (`UserResponse.from`); the creation time is unknown right after registration. */
  datatype UserResponse = UserResponse(id: int, email: Option<string>, username: Option<string>, createdAt: Option<int>)

  /** What a successful login returns. */
  datatype LoginResponse = LoginResponse(token: string, tokenType: string, userId: int, username: Option<string>, email: Option<string>)

  /** An update request; any field may be null. */
  datatype UpdateRequest = UpdateRequest(username: Option<string>, currentPassword: Option<string>, newPassword: Option<string>)

  function UserId(x: User): int {
    x.id
  }

  /** Generated ids increase with insertion order and stay below the counter. */
  ghost predicate Valid(t: Table) {
    Increasing(t.rows, UserId, t.nextId)
  }

  /** No two users share a (non-null) email. */
  ghost predicate EmailsUnique(t: Table) {
    forall i, j :: 0 <= i < j < |t.rows| && t.rows[i].email.Some? ==> t.rows[i].email != t.rows[j].email
  }

  /** `insert`: one row with both timestamps set to the current time. */
  function Insert(t: Table, email: Option<string>, password: string, username: Option<string>, now: int): (r: (Table, User))
    requires Valid(t)
    ensures Valid(r.0) && r.0.rows == t.rows + [r.1]
    ensures r.1.email == email && r.1.password == password && r.1.username == username
    ensures r.1.createdAt == now && r.1.updatedAt == now
    ensures forall x :: x in t.rows ==> x.id != r.1.id
  {
    var u := User(t.nextId, email, password, username, now, now);
    (Table(t.rows + [u], t.nextId + 1), u)
  }

  /** The first row, from position `from` on, whose email is `e`. */
  function EmailFrom(rows: seq<User>, e: string, from: nat): (r: Option<nat>)
    requires from <= |rows|
    ensures r.Some? ==> from <= r.value < |rows| && rows[r.value].email == Some(e)
    ensures r.None? ==> forall i :: from <= i < |rows| ==> rows[i].email != Some(e)
    decreases |rows| - from
  {
    if from == |rows| then None
    else if rows[from].email == Some(e) then Some(from)
    else EmailFrom(rows, e, from + 1)
  }

  /** `findByEmail`: the user with that email; a null email matches nothing. */
  function FindByEmail(t: Table, email: Option<string>): (r: Option<User>)
    ensures r.Some? ==> r.value in t.rows && email.Some? && r.value.email == email
    ensures r.None? ==> forall x :: x in t.rows ==> email.None? || x.email != email
  {
    match email
    case None => None
    case Some(e) =>
      match EmailFrom(t.rows, e, 0)
      case None => None
      case Some(p) => Some(t.rows[p])
  }

  /** With unique emails, the user found by email is the only one holding it. */
  lemma FindByEmailUnique(t: Table, x: User)
    requires EmailsUnique(t) && x in t.rows && x.email.Some?
    ensures FindByEmail(t, x.email) == Some(x)
  {
    var i :| 0 <= i < |t.rows| && t.rows[i] == x;
  }

  /** The first row, from position `from` on, with id `id`. */
  function IdFrom(rows: seq<User>, id: int, from: nat): (r: Option<nat>)
    requires from <= |rows|
    ensures r.Some? ==> from <= r.value < |rows| && rows[r.value].id == id
    ensures r.None? ==> forall i :: from <= i < |rows| ==> rows[i].id != id
    decreases |rows| - from
  {
    if from == |rows| then None
    else if rows[from].id == id then Some(from)
    else IdFrom(rows, id, from + 1)
  }

  /** `findById`. */
  function FindById(t: Table, id: int): (r: Option<User>)
    ensures r.Some? ==> r.value in t.rows && r.value.id == id
    ensures r.None? ==> forall x :: x in t.rows ==> x.id != id
  {
    match IdFrom(t.rows, id, 0)
    case None => None
    case Some(p) => Some(t.rows[p])
  }

  /** `update`: set username, password and `updated_at` of the row with that id; the email never changes. */
  function Update(t: Table, id: int, username: Option<string>, password: string, now: int): (r: Table)
    requires Valid(t)
    ensures Valid(r) && |r.rows| == |t.rows|
    ensures forall i :: 0 <= i < |t.rows| && t.rows[i].id != id ==> r.rows[i] == t.rows[i]
    ensures forall i :: 0 <= i < |t.rows| && t.rows[i].id == id ==>
      r.rows[i] == t.rows[i].(username := username, password := password, updatedAt := now)
  {
    var rows := seq(|t.rows|, i requires 0 <= i < |t.rows| =>
      if t.rows[i].id == id then t.rows[i].(username := username, password := password, updatedAt := now) else t.rows[i]);
    Table(rows, t.nextId)
  }

  /** The rows `delete` keeps. */
  function OtherThan(id: int): User -> bool {
    (x: User) => x.id != id
  }

  /** `delete`: remove the row with that id. */
  function Delete(t: Table, id: int): (r: Table)
    requires Valid(t)
    ensures Valid(r)
    ensures forall x :: x in r.rows <==> x in t.rows && x.id != id
  {
    WhereIncreasing(t.rows, OtherThan(id), UserId, t.nextId);
    Table(Where(t.rows, OtherThan(id)), t.nextId)
  }

  /** `existsByEmail`: the number of rows with that email; a null email matches none. */
  function ExistsByEmail(t: Table, email: Option<string>): (n: nat)
    ensures n > 0 <==> email.Some? && exists x :: x in t.rows && x.email == email
  {
    if email.None? then 0 else EmailCount(t.rows, email.value)
  }

  function EmailCount(rows: seq<User>, e: string): (n: nat)
    ensures n > 0 <==> exists x :: x in rows && x.email == Some(e)
  {
    if |rows| == 0 then 0
    else
      assert forall x :: x in rows <==> x in rows[..|rows| - 1] || x == rows[|rows| - 1] by {
        assert rows == rows[..|rows| - 1] + [rows[|rows| - 1]];
      }
      EmailCount(rows[..|rows| - 1], e) + (if rows[|rows| - 1].email == Some(e) then 1 else 0)
  }

  /** `UserResponse.from`. */
  function ResponseOf(u: User, createdAt: Option<int>): UserResponse {
    UserResponse(u.id, u.email, u.username, createdAt)
  }

  /** The message for an email already taken; a null email prints as "null". */
  function EmailTaken(email: Option<string>): Exception {
    Unchecked(Some("이미 사용중인 이메일입니다: " + Str(email)))
  }

  const NoSuchUser: Exception := Unchecked(Some("존재하지 않는 사용자입니다"))
  const WrongPassword: Exception := Unchecked(Some("비밀번호가 일치하지 않습니다"))
  const CurrentPasswordMissing: Exception := Unchecked(Some("현재 비밀번호를 입력해주세요"))
  const CurrentPasswordWrong: Exception := Unchecked(Some("현재 비밀번호가 일치하지 않습니다"))

  /** The message `getUserById` gives for an unknown id. */
  function NoSuchUserId(id: int): Exception {
    Unchecked(Some("존재하지 않는 사용자입니다: userId=" + IntString(id)))
  }

  /**
   * `register`: reject an email already present; otherwise store the user with the encoded password.
   * The returned view has no creation time, which the insert does not read back.
   */
  function Register(t: Table, email: Option<string>, rawPassword: string, username: Option<string>, enc: Encoder, now: int)
    : (r: (Result<UserResponse, Exception>, Table))
    requires Valid(t)
    ensures Valid(r.1)
    ensures r.0.Failure? <==> email.Some? && exists x :: x in t.rows && x.email == email
    ensures r.0.Failure? ==> r == (Failure(EmailTaken(email)), t)
    ensures r.0.Success? ==>
      && |r.1.rows| == |t.rows| + 1 && r.1.rows[..|t.rows|] == t.rows
      && var u := r.1.rows[|t.rows|];
         u.email == email && u.username == username && u.password == enc.encode(rawPassword)
         && r.0.value == UserResponse(u.id, email, username, None)
  {
    if ExistsByEmail(t, email) > 0 then (Failure(EmailTaken(email)), t)
    else
      var ins := Insert(t, email, enc.encode(rawPassword), username, now);
      assert ins.0.rows[..|t.rows|] == t.rows;
      (Success(ResponseOf(ins.1, None)), ins.0)
  }

  /** Registration keeps emails unique. */
  lemma RegisterPreservesUnique(t: Table, email: Option<string>, rawPassword: string, username: Option<string>, enc: Encoder, now: int)
    requires Valid(t) && EmailsUnique(t)
    ensures EmailsUnique(Register(t, email, rawPassword, username, enc, now).1)
  {
    var r := Register(t, email, rawPassword, username, enc, now);
    if r.0.Success? {
      forall i, j | 0 <= i < j < |r.1.rows| && r.1.rows[i].email.Some?
        ensures r.1.rows[i].email != r.1.rows[j].email
      {
        if j == |t.rows| {
          assert r.1.rows[i] == t.rows[i];
          assert t.rows[i] in t.rows;
        } else {
          assert r.1.rows[i] == t.rows[i] && r.1.rows[j] == t.rows[j];
        }
      }
    }
  }

  /**
   * `login`: an unknown email and a password the encoder does not match both fail; success issues a
   * token for the user's id and email, of type "Bearer".
   */
  function Login(t: Table, email: Option<string>, password: string, enc: Encoder, token: (int, Option<string>) -> string)
    : (r: Result<LoginResponse, Exception>)
    ensures FindByEmail(t, email).None? ==> r == Failure(NoSuchUser)
    ensures FindByEmail(t, email).Some? && !enc.matches(password, FindByEmail(t, email).value.password) ==>
              r == Failure(WrongPassword)
    ensures r.Success? ==>
      var u := FindByEmail(t, email).value;
      && enc.matches(password, u.password)
      && r.value == LoginResponse(token(u.id, u.email), "Bearer", u.id, u.username, u.email)
  {
    match FindByEmail(t, email)
    case None => Failure(NoSuchUser)
    case Some(u) =>
      if !enc.matches(password, u.password) then Failure(WrongPassword)
      else Success(LoginResponse(token(u.id, u.email), "Bearer", u.id, u.username, u.email))
  }

  /** With an encoder that matches what it encodes, a new user can log in right away and gets their own id. */
  lemma RegisterThenLogin(t: Table, email: string, rawPassword: string, username: Option<string>, enc: Encoder, now: int,
                          token: (int, Option<string>) -> string)
    requires Valid(t) && EmailsUnique(t)
    requires enc.matches(rawPassword, enc.encode(rawPassword))
    requires forall x :: x in t.rows ==> x.email != Some(email)
    ensures var reg := Register(t, Some(email), rawPassword, username, enc, now);
      && reg.0.Success?
      && Login(reg.1, Some(email), rawPassword, enc, token).Success?
      && Login(reg.1, Some(email), rawPassword, enc, token).value.userId == reg.0.value.id
  {
    var reg := Register(t, Some(email), rawPassword, username, enc, now);
    RegisterPreservesUnique(t, Some(email), rawPassword, username, enc, now);
    var u := reg.1.rows[|t.rows|];
    assert u in reg.1.rows;
    FindByEmailUnique(reg.1, u);
  }

  /** `getUserById`: the user's view, or an error naming the id. */
  function GetUserById(t: Table, id: int): (r: Result<UserResponse, Exception>)
    ensures r.Success? <==> exists x :: x in t.rows && x.id == id
    ensures r.Success? ==> r.value.id == id && r.value.createdAt.Some?
    ensures r.Failure? ==> r.error == NoSuchUserId(id)
  {
    match FindById(t, id)
    case None => Failure(NoSuchUserId(id))
    case Some(u) => Success(ResponseOf(u, Some(u.createdAt)))
  }

  /** Whether a possibly null field holds something other than whitespace. */
  predicate Given(s: Option<string>) {
    s.Some? && !IsBlank(s.value)
  }

  /**
   * `updateUser`: a non-blank new username replaces the old one. A non-blank new password needs a
   * non-blank current password that the encoder matches, and is then stored encoded. Every error is
   * raised before the write.
   */
  function UpdateUser(t: Table, id: int, req: UpdateRequest, enc: Encoder, now: int): (r: (Result<UserResponse, Exception>, Table))
    requires Valid(t)
    ensures Valid(r.1)
    ensures r.0.Failure? ==> r.1 == t
    ensures FindById(t, id).None? ==> r.0 == Failure(NoSuchUser)
    ensures FindById(t, id).Some? && Given(req.newPassword) && !Given(req.currentPassword) ==>
              r.0 == Failure(CurrentPasswordMissing)
    ensures FindById(t, id).Some? && Given(req.newPassword) && Given(req.currentPassword) &&
            !enc.matches(req.currentPassword.value, FindById(t, id).value.password) ==>
              r.0 == Failure(CurrentPasswordWrong)
    ensures r.0.Success? <==> FindById(t, id).Some? && (Given(req.newPassword) ==>
              Given(req.currentPassword) && enc.matches(req.currentPassword.value, FindById(t, id).value.password))
    ensures r.0.Success? ==>
      var u := FindById(t, id).value;
      var name := if Given(req.username) then req.username else u.username;
      var pw := if Given(req.newPassword) then enc.encode(req.newPassword.value) else u.password;
      && r.1 == Update(t, id, name, pw, now)
      && r.0.value == UserResponse(id, u.email, name, Some(u.createdAt))
  {
    match FindById(t, id)
    case None => (Failure(NoSuchUser), t)
    case Some(u) =>
      var name := if Given(req.username) then req.username else u.username;
      if Given(req.newPassword) && !Given(req.currentPassword) then (Failure(CurrentPasswordMissing), t)
      else if Given(req.newPassword) && !enc.matches(req.currentPassword.value, u.password) then (Failure(CurrentPasswordWrong), t)
      else
        var pw := if Given(req.newPassword) then enc.encode(req.newPassword.value) else u.password;
        (Success(ResponseOf(u.(username := name), Some(u.createdAt))), Update(t, id, name, pw, now))
  }

  /** An update leaves every email where it was, so it keeps emails unique. */
  lemma UpdatePreservesEmails(t: Table, id: int, req: UpdateRequest, enc: Encoder, now: int)
    requires Valid(t)
    ensures var r := UpdateUser(t, id, req, enc, now).1;
      |r.rows| == |t.rows| && forall i :: 0 <= i < |t.rows| ==> r.rows[i].email == t.rows[i].email && r.rows[i].id == t.rows[i].id
    ensures EmailsUnique(t) ==> EmailsUnique(UpdateUser(t, id, req, enc, now).1)
  {
  }

  /** Without a new password, the stored password survives an update untouched. */
  lemma UpdateWithoutNewPassword(t: Table, id: int, req: UpdateRequest, enc: Encoder, now: int, i: nat)
    requires Valid(t) && !Given(req.newPassword) && i < |t.rows|
    ensures UpdateUser(t, id, req, enc, now).0.Success? <==> FindById(t, id).Some?
    ensures UpdateUser(t, id, req, enc, now).1.rows[i].password == t.rows[i].password
  {
    if FindById(t, id).Some? && t.rows[i].id == id {
      var u := FindById(t, id).value;
      var p :| 0 <= p < |t.rows| && t.rows[p] == u;
      assert p == i;
    }
  }

  /** `deleteUser`: remove the user only when the supplied password matches. */
  function DeleteUser(t: Table, id: int, password: string, enc: Encoder): (r: (Result<(), Exception>, Table))
    requires Valid(t)
    ensures Valid(r.1)
    ensures FindById(t, id).None? ==> r == (Failure(NoSuchUser), t)
    ensures FindById(t, id).Some? && !enc.matches(password, FindById(t, id).value.password) ==> r == (Failure(WrongPassword), t)
    ensures r.0.Success? <==> FindById(t, id).Some? && enc.matches(password, FindById(t, id).value.password)
    ensures r.0.Success? ==> forall x :: x in r.1.rows <==> x in t.rows && x.id != id
  {
    match FindById(t, id)
    case None => (Failure(NoSuchUser), t)
    case Some(u) =>
      if !enc.matches(password, u.password) then (Failure(WrongPassword), t)
      else (Success(()), Delete(t, id))
  }

  /** Deleting users keeps emails unique. */
  lemma DeletePreservesUnique(t: Table, id: int, password: string, enc: Encoder)
    requires Valid(t) && EmailsUnique(t)
    ensures EmailsUnique(DeleteUser(t, id, password, enc).1)
  {
    var r := DeleteUser(t, id, password, enc);
    if r.0.Success? {
      DeleteKeepsUnique(t, id);
    }
  }

  lemma DeleteKeepsUnique(t: Table, id: int)
    requires Valid(t) && EmailsUnique(t)
    ensures EmailsUnique(Delete(t, id))
  {
    var r := Delete(t, id);
    forall i, j | 0 <= i < j < |r.rows| && r.rows[i].email.Some?
      ensures r.rows[i].email != r.rows[j].email
    {
      assert UserId(r.rows[i]) < UserId(r.rows[j]);
      EarlierIdUnique(t, r.rows[i], r.rows[j]);
    }
  }

  /** Of two stored users, the one with the smaller id came first, so unique emails keep them apart. */
  lemma EarlierIdUnique(t: Table, x: User, y: User)
    requires Valid(t) && EmailsUnique(t)
    requires x in t.rows && y in t.rows && x.id < y.id && x.email.Some?
    ensures x.email != y.email
  {
    var a :| 0 <= a < |t.rows| && t.rows[a] == x;
    var b :| 0 <= b < |t.rows| && t.rows[b] == y;
  }
}

=== FILE: wrappers.dfy ===
/** Failure-carrying datatypes shared by every module of the model. */
module Wrappers {

  /** A Java reference that may be null: `None` stands for null. */
  datatype Option<+T> = None | Some(value: T) {
    function GetOr(default: T): T {
      match this
      case Some(v) => v
      case None => default
    }
  }

  /** The value a Java method returns, or the exception it throws. */
  datatype Result<+R, +E> = Success(value: R) | Failure(error: E) {
    predicate IsFailure() {
      Failure?
    }

    function PropagateFailure<U>(): Result<U, E>
      requires Failure?
    {
      Failure(error)
    }

    function Extract(): R
      requires Success?
    {
      value
    }
  }
}
